=== FILE: README.md ===
# Storefront backend: checkout, cart, caching and access rules

A Dafny model of the decision logic of a coffee-shop storefront backend written
in Go. The backend uses gin for HTTP, PostgreSQL through pgx for data, and Redis
as a response cache. The model replaces the database with an immutable value
`Store.Db`: tables of products, size rows, cart lines, orders and order items
are sequences, and users, profiles, carts and discounts are maps. It replaces
Redis with `Cache.Store`, a map from key to (payload, expiry). Every handler and
store function becomes a pure function that takes the state and returns the new
state with a `Result`. A database or Redis error is an injected `fault`
parameter, and clocks, random draws, hashing, token signing and JSON encoding
are also parameters.

What is covered:

- **Checkout** (`Checkout`, `Pricing`, `OrderHandler`). This is the
  cart-to-order conversion:
  - the emptiness check;
  - the total query, which runs before the transaction with its own `NOW()`;
  - the transaction that inserts the header (shipping id always 3) and one
    priced item per cart line, then clears the user's cart;
  - the handler's id checks and its fallback to the profile for blank customer
    fields.
- **Cart** (`Cart`, `CartHandler`). The upsert finds or creates the cart,
  prices the line, then merges it into the line of the same identity or inserts
  a new line. The identity is (cart, product, variant or 0, size or 0). The
  handler guards the quantity, overrides the body's user id and parses the
  delete id.
- **Admin orders** (`AdminOrders`). The status update is two separate
  statements with no transaction between them. The listing has one row per
  order that has items, totalled from its items and sorted newest first.
- **Catalog listings** (`Catalog`, `Favorites`, `Paging`, `Sorting`):
  - page and limit clamping;
  - the whitelisted ORDER BY;
  - the `$k` placeholder numbering of the optional filters;
  - the price used for filtering versus the price displayed;
  - filter, then sort, then offset, then limit.
- **Cache-aside** (`Cache`, `ProductHandler`, `AuthHandler`,
  `FavoriteHandler`). One generic read-through serves all three listings. It
  has three key functions and a prefix-scan invalidation, and the model shows
  which writes reach which keys.
- **Users and access** (`Users`, `AuthHandler`, `Gates`):
  - registration, login and the admin and self updates;
  - the OTP password reset;
  - the bearer-token gate and the admin role gate.

`Text` models the parts of Go's `strconv`, `fmt` and `strings` that the code
relies on. `Wrappers` and `Http` hold `Option`/`Result` and the response shape.

## Model

| member | source | states |
|---|---|---|
| Paging.ClampPage | models/product.go:122-124 | A page below 1 becomes 1; any other page is kept. |
| Paging.ClampLimit | models/product.go:125-127 | A limit below 1 becomes the listing's default (10 here, 5 for the admin list, 4 for favourites); any other limit is kept. |
| Paging.Window | models/product.go:202 | LIMIT/OFFSET: the result is the slice of the ordered rows starting at the offset, at most limit long, and empty past the end. |
| Paging.RowOnItsPage | models/product.go:128 | With offset (page-1)*limit, row i of an ordered result is row i % limit of page i / limit + 1, so every row lies on exactly one page. |
| Paging.TotalPages | controllers/product_controller.go:107 | (total + limit - 1) / limit is the least page count whose pages hold every row: count*limit >= total and (count-1)*limit < total. |
| Paging.GoDiv | controllers/auth_controller.go:308 | Go's int64 division truncates toward zero, stated as the Go specification defines it. The remainder a - q*b is smaller than the divisor in magnitude and is zero or has the dividend's sign. This holds for every sign combination, and for non-negative operands the quotient is ordinary division. |
| Sorting.Sort | models/product.go:202 | ORDER BY as a stable sort: the result is sorted under the given total preorder and is a permutation of the input. |
| Sorting.TextOrderIsTotalPreorder | models/product.go:138-141 | Code-point lexicographic order on names is total and transitive, so ORDER BY p.name is a well-defined order. |
| Text.AtoiRoundTrip | controllers/cart.go:77 | Parsing the decimal rendering of any int64 gives back that number. |
| Text.ParseUint | controllers/product_controller.go:160-163 | strconv's base-10 ParseUint, scanning left to right: a range error exactly when some run of leading digits exceeds 2^64 - 1, even if a non-digit follows. Otherwise it is a syntax error for an empty or non-digit text, and the digits' value for a digit string. |
| Text.Atoi | controllers/product_controller.go:160-163 | strconv.Atoi on a 64-bit platform. It is a syntax error exactly when the text is not a signed digit string and its leading digits do not overflow. A number in the int64 range is returned as written. A range error returns the bound of the text's sign, and overflowing leading digits always give a range error. |
| Text.NonNumericReadsAsZero | controllers/product_controller.go:160-163 | Text that is not an optionally signed digit string, and whose leading digits stay within 2^64 - 1, reads as 0 once the parse error is dropped. |
| Text.OverflowingDigitsThenGarbage | controllers/product_controller.go:160-163 | Digits worth more than 2^64 - 1 followed by anything, such as "99999999999999999999x", give a range error and read as the int64 maximum, not as 0. |
| Text.AtoiFastPathAgrees | controllers/cart.go:77 | Atoi's fast path for texts shorter than 19 bytes, which has no range check, gives the same answer as the ParseInt path. |
| Text.IntToStringInjective | controllers/product_controller.go:79 | Distinct integers print as distinct decimal texts. |
| Text.FixedWidthRoundTrip | controllers/auth_controller.go:404 | Zero-padding n to a width that fits it gives a digit string whose value is n. |
| Pricing.BasePrice | models/order.go:130 | The base price is the named size row's price when the line names an existing size row, otherwise the product's own (nullable) price. |
| Pricing.DiscountPrice | models/order.go:132-137 | The unit price is base less base*percent/100 exactly when a linked discount is active, and base otherwise. |
| Pricing.DiscountPriceBounds | models/order.go:132-137 | For a non-negative base and a percent in [0, 100], the discounted price lies between 0 and base. |
| Pricing.WindowIsClosed | models/order.go:134 | A discount applies at both its start and its end instant, and not one second outside either. |
| Pricing.QuoteLine | models/order.go:124-168 | An item row fails to scan exactly when the base price is NULL. Otherwise it records that base price and the linked percent (0 when none), with a discounted price that is the CASE price of that base and the linked discount at the given time, and subtotal = discounted price * qty. |
| Pricing.TotalTerm | models/order.go:73-80 | One SUM term is the line's quoted subtotal; a line with a NULL base price contributes nothing. |
| Checkout.QuoteLines | models/order.go:159-178 | The item scan succeeds exactly when every selected line quotes, and then yields each line's quote in row order. |
| Checkout.CreateOrder | models/order.go:53-216 | Every error leaves the database as it was. A user with no cart lines gets an error whatever the later steps would do. Success needs a non-empty cart and no fault. |
| Checkout.InTransaction | models/order.go:93-205 | Every early return inside the transaction yields the state from before Begin (the deferred Rollback); only a run without a fault commits. |
| Checkout.SelectionFrame | models/order.go:124-145 | The selected and the surviving cart lines depend only on carts and products, not on the order tables the transaction writes. |
| Checkout.TransactionOutcome | models/order.go:101-205 | Without a fault, the transaction commits exactly when every selected line quotes at the in-transaction time; its result then holds the header, the items and the cart without the user's lines. |
| Checkout.CheckoutCommitted | models/order.go:101-205 | A successful checkout changes exactly three tables. The header is appended to orders, one item per selected line is appended to order_items, and the user's lines leave cart_items. Nothing else changes. |
| Checkout.CheckoutSucceedsIff | models/order.go:56-178 | Without a fault, a checkout succeeds exactly when the user has cart lines and every selected line has a base price to scan. |
| Checkout.CheckoutHeader | models/order.go:99-119 | The stored header carries the pre-transaction total and the invoice "INV-<unix>-<user id>". Its shipping id is 3 whatever the request asked for. |
| Checkout.CheckoutReceipt | models/order.go:207-215 | The receipt echoes the request's customer fields, the new order id, the invoice and the total, with status "On Progress". |
| Checkout.ItemFields | models/order.go:180-189 | An order item takes its product, variant, size and quantity from its cart line and its prices from the line's quote, with subtotal = discount price * qty. |
| Checkout.CheckoutItems | models/order.go:159-193 | Exactly one order_items row is written per selected cart row, in row order, each priced at the in-transaction time. |
| Checkout.CheckoutClearsOnlyTheUsersCart | models/order.go:195-201 | After success none of the user's cart lines remain, and every other user's line is still there. |
| Checkout.TotalMatchesItems | models/order.go:72-88 | The total priced at the first NOW() equals the sum of the item subtotals priced at the second, whenever no line's discount opens or closes between the two readings. |
| Checkout.CheckoutTotalIsSumOfItems | models/order.go:72-181 | Under the same condition, a committed order's stored total equals the sum of its new items' subtotals. |
| Checkout.ClosedDiscountStillRecorded | models/order.go:131-137 | An item whose product's discount window is closed still records the discount percent, while its discount price equals its base price. |
| CheckoutScenarios.TwoLineCheckout | models/order.go:53-216 | A two-line cart checked out inside the discount window yields total 230 = 90*2 + 50*1, two items with percents 10 and 0, and an empty cart. |
| CheckoutScenarios.TotalAndItemsDivergeAcrossWindowEnd | models/order.go:72-137 | The total is read at the discount's last instant and the transaction starts one second later. The header then says 230 while the items add up to 250. |
| OrderHandler.FillFromProfile | controllers/order_controller.go:47-86 | Three cases: a request with every field filled passes unchanged; with a blank field, a failed profile read is an error; a NULL or empty address is "incomplete". Otherwise only blank fields take the profile's non-NULL values, and given fields are never overwritten. |
| OrderHandler.CreateOrder | controllers/order_controller.go:25-103 | A zero payment or method id gives 400 with no write. A failed profile read and a missing address each give 400 with no write. A store error gives 400 carrying its text; success gives 200 with the receipt. |
| OrderHandler.ShippingIdNeverChecked | controllers/order_controller.go:39-45 | A zero shipping id passes the handler's check, and the stored order has shipping id 3. |
| OrderHandler.CompleteRequestPassesThrough | controllers/order_controller.go:47 | With all customer fields given, the profile is never read: a failing profile query changes nothing, and the request reaches the store as sent. |
| OrderHandler.ProfileAddressRequired | controllers/order_controller.go:68-74 | A blank field plus a profile without an address gives "complete the data first", even when the request carried its own address. |
| OrderHandler.LookupIsByProfileId | controllers/order_controller.go:54-58 | The profile is read by the profile's own id, not by users_id, so another profile row's data can fill the request. |
| Cart.FindLine | models/cart.go:53-60 | The identity lookup finds the first line with the requested identity, or reports that no line has it. |
| Cart.UnitPrice | models/cart.go:62-74 | The price is the named size row's price. When no size is named it is the product's cheapest size price, attained by one of its size rows and at most every other. No row gives no price. |
| Cart.CartFor | models/cart.go:40-50 | The user's existing cart is kept; a user without one gets a new cart under the fresh id. |
| Cart.AddToCart | models/cart.go:36-100 | The result is the user's cart id. Any error leaves cart_items unchanged. Only the carts map and cart_items can change, and at most one line is added. A failed price query is an error that keeps the cart found or created. |
| Cart.AddMergesExistingLine | models/cart.go:76-88 | Re-adding an existing identity sets qty = old qty + new qty and subtotal = that qty * current price, in place, with no new row. |
| Cart.AddInsertsNewLine | models/cart.go:90-97 | A new identity appends one line holding the requested quantity, with subtotal = price * qty. |
| Cart.AddPreservesWellFormedLines | models/cart.go:53-97 | For a positive quantity and an answering identity lookup, an add keeps at most one line per identity and every quantity positive. |
| Cart.UnusedFaultIsHarmless | models/cart.go:40-50 | When the user already has a cart, a failing cart insert is never reached and changes nothing. |
| Cart.CreatedCartSurvivesPriceFailure | models/cart.go:44-74 | A cart created for the user is not removed when the price lookup then fails, whether no row matched or the query errored. |
| Cart.NullVariantMatchesZero | models/cart.go:53-60 | Variant id 0 and no variant name the same line. |
| Cart.CheckErrorDuplicatesLine | models/cart.go:53-99 | When the identity lookup errors, the code takes the insert path even for an existing line, leaving two lines of one identity. |
| CartHandler.AddToCart | controllers/cart.go:11-49 | A quantity of 0 or below gives 400 without calling the store. Otherwise the store runs for the authenticated user. A store error gives 500; success gives 200 with that user's cart id. |
| CartHandler.BodyUserIdIgnored | controllers/cart.go:33 | Whatever user id the body names, the outcome is that of the authenticated user. |
| CartHandler.HandlerKeepsCartWellFormed | controllers/cart.go:25-35 | Through the handler, whenever the identity lookup answers, the cart keeps one line per identity with positive quantities, for any requested quantity. The quantity guard supplies the positivity. |
| CartHandler.DeleteCart | controllers/cart.go:71-99 | The store is called exactly when the id parses, with (authenticated user, parsed id). A bad id gives 400; a store error gives 500; success gives 200. |
| CartHandler.NonNumericIdNeverDeletes | controllers/cart.go:76-84 | An id that is not an optionally signed digit string gives 400 and never reaches the store. |
| CartHandler.PrintedIdDeletes | controllers/cart.go:76-86 | Every int64 id printed in decimal reaches the store unchanged. |
| AdminOrders.UpdateOrderStatus | models/admin.go:51-71 | The status is written verbatim to the order, then to its items. A header failure writes nothing. An item failure leaves the header written and the items untouched. No other table changes. |
| AdminOrders.UpdateReachesOnlyThatOrder | models/admin.go:54-68 | A successful update gives that order the new status and changes no other field of it. All its items get the new status. Every other order and item is unchanged. |
| AdminOrders.ItemsFailureLeavesStatusesDivergent | models/admin.go:54-70 | When the item statement fails, the header has the new status while an item of the same order keeps another. |
| AdminOrders.ItemsOf | models/admin.go:26 | The join picks exactly the items of the given order. |
| AdminOrders.ItemsOfCounts | models/admin.go:26 | Each joined row appears as many times as in order_items and no other row appears, so the SUM adds each item once. |
| AdminOrders.GroupedFailsIff | models/admin.go:39-44 | The scan fails exactly when some order that has items reads a NULL status. |
| AdminOrders.GroupedSound | models/admin.go:20-27 | Every grouped row describes an order that has items: same id and date, total = sum of its items' subtotals. |
| AdminOrders.GroupedComplete | models/admin.go:20-27 | Every order that has items gets a row describing it. |
| AdminOrders.ByDateDescIsTotalPreorder | models/admin.go:28 | ORDER BY order_date DESC is a total preorder on rows. |
| AdminOrders.GetAllOrders | models/admin.go:16-49 | The listing succeeds exactly when the query runs and every order with items has a status. Its rows are the grouped rows reordered by date, newest first. |
| AdminOrders.ListingIsPerOrderSum | models/admin.go:20-28 | Each listed row is an order with items, totalled as the sum of its items' subtotals. Every such order is listed, and dates never increase down the list. With unique order ids, no order is listed twice. |
| AdminOrders.GroupedOneRowPerOrder | models/admin.go:20-28 | GROUP BY o.id: when order ids are unique, the grouped rows carry pairwise distinct ids. |
| AdminOrders.PermutationKeepsOneRowPerOrder | models/admin.go:27-28 | Reordering the grouped rows by date keeps their ids distinct. |
| AdminOrders.OrderWithoutItemsOmitted | models/admin.go:26 | An order with no items is never listed. |
| Catalog.DisplayPrice | models/product.go:149-152 | The displayed price is the cheapest size price, or the product's own price when it has no sizes. |
| Catalog.FilterPrice | models/product.go:191-200 | The price the min/max filters compare is the cheapest size price, or 0 for a product without sizes. |
| Catalog.FilterBy | models/product.go:174 | The kept rows are exactly the input rows the predicate admits. |
| Catalog.FilterByCounts | models/product.go:174 | Each admitted row appears as many times as in the table and no other row appears, so COUNT(*) is the length of the filtered rows. |
| Catalog.Matching | models/product.go:174-200 | The listed candidates are exactly the products matching the search, categories and non-zero price bounds. |
| Catalog.EmptySearchMatchesAll | models/product.go:174 | An empty search text matches every product. |
| Catalog.ListingConditions | models/product.go:177-200 | Placeholders are numbered consecutively from $1, with $k bound to args[k-1]. The search is $1, and there is one argument per optional filter present. |
| Catalog.CountUsesListingConditions | models/product.go:240-261 | The count query builds exactly the same conditions and arguments as the listing query. |
| Catalog.ConditionsMeanFilters | models/product.go:174-200 | With each $k bound to args[k-1], the query's conditions hold for a product exactly when it matches the filters. |
| Catalog.SortParam | models/product.go:130-142 | Any sort text other than the five whitelisted names selects newest first. |
| Catalog.SortTextNeverReachesQuery | models/product.go:130-142 | Whatever sort text arrives, the ORDER BY text is one of six fixed strings. |
| Catalog.BeforeIsTotalPreorder | models/product.go:130-142 | Each of the six orderings is a total preorder, NULL prices included. |
| Catalog.Ranked | models/product.go:202 | The ranked rows are a permutation of the matching products, sorted by the chosen clause. |
| Catalog.ScanDisplayed | models/product.go:211-229 | Scanning succeeds exactly when every row has a displayed price, and yields one listed row per product. |
| Catalog.GetProducts | models/product.go:119-272 | The listing succeeds exactly when there is no fault and every row on the page has a price. It returns at most the clamped limit of rows, and the total is the number of all matches. |
| Catalog.ListedRowsMatchAndAreOrdered | models/product.go:119-229 | Every listed row is a matching product, and the rows come in the requested order. |
| Catalog.TotalIgnoresPaging | models/product.go:231-271 | The total is the same for every page, limit and sort. |
| Catalog.NameMatching | models/product.go:85 | The admin filter keeps exactly the products whose name contains the search text, in both directions. |
| Catalog.ScanAdmin | models/product.go:100-106 | Scanning COALESCE(MIN(ps.price), 0) into the int64 `ProductAdmin.Price` fails exactly when some row's price has a fractional part. Otherwise each row carries its product's id, name and that whole price. |
| Catalog.GetProductsAdmin | models/product.go:53-116 | The admin listing succeeds exactly when nothing fails and every price on the page is whole. Its rows are the page's name matches, newest first and at most the clamped limit, each priced at the cheapest size or 0. The total counts every name match. |
| Catalog.AdminRowsMatchNewestFirst | models/product.go:71-102 | Every admin row is a name match whose price is at most each of its size prices, and 0 when it has none. Creation dates never increase down the page. |
| Catalog.EveryNameMatchRanked | models/product.go:85-87 | Every product whose name matches is ranked, and the ranking has one entry per match. |
| Catalog.EveryNameMatchOnSomePage | models/product.go:58-88 | When every match has a whole price, the n-th newest match is row n % limit of page n / limit + 1, so paging reaches every match. |
| Favorites.FavoriteProducts | models/favorite.go:61 | Exactly the products marked as favourite are candidates. |
| Favorites.RankedFavorites | models/favorite.go:63-64 | The favourites are reordered newest first, without losing or adding any. |
| Favorites.FavoritesPage | models/favorite.go:20-27 | A page holds at most the clamped limit of favourites, newest first. |
| Favorites.RowOf | models/favorite.go:34 | A row's min_price is the cheapest size price, or 0 when the product has no sizes. |
| Favorites.Favorite | models/favorite.go:17-108 | Only a fault fails the call. The rows are the requested page of favourites, and the total counts every favourite. |
| Favorites.ListsOnlyFavoritesNewestFirst | models/favorite.go:61-64 | Every listed row is a favourite product, and creation dates never increase down the page. |
| Favorites.TotalIgnoresPaging | models/favorite.go:96-101 | The total is the same for every page and limit. |
| Favorites.EveryFavoriteOnSomePage | models/favorite.go:20-65 | The n-th newest favourite is row n % limit of page n / limit + 1, so paging reaches every favourite. |
| Favorites.SizelessFavoriteListsAtZero | models/favorite.go:34 | A favourite without sizes lists at price 0, whereas the product listing shows its own price. |
| Cache.Lookup | controllers/product_controller.go:85-86 | A read is a hit exactly when the client call succeeds and the key holds a live, non-empty payload; the hit returns that payload. |
| Cache.Put | controllers/product_controller.go:148 | A Set makes the key hold the payload until now + ttl and leaves every other key as it was. |
| Cache.InvalidatePrefix | controllers/product_controller.go:237-241 | SCAN plus DEL removes exactly the keys with the pattern's prefix and keeps every other entry as it was. |
| Cache.GetOrCompute | controllers/favorite.go:33-75 | A hit returns the cached payload with the cache unchanged. On a miss, an error or an encoding failure leaves the cache as it was; an encodable value is stored for the TTL. |
| Cache.HitIgnoresComputation | controllers/favorite.go:33-42 | On a hit, the answer is the same whatever the computation would have produced. |
| Cache.StoredValueIsServedUntilExpiry | controllers/favorite.go:75 | A stored non-empty payload is a hit for every read before its TTL runs out. |
| Cache.InvalidatedKeyMisses | controllers/auth_controller.go:65-69 | After invalidation, every key with the pattern's prefix misses. |
| Cache.InvalidationKeepsOtherKeys | controllers/auth_controller.go:65-69 | Keys outside the pattern read exactly as before the invalidation. |
| Cache.ProductKey | controllers/product_controller.go:79 | Every product listing key starts with "products:page:". |
| Cache.UserListKey | controllers/auth_controller.go:292 | Every user-list key starts with the request path. |
| Cache.ProductKeysEscapeProductPattern | controllers/product_controller.go:238 | No product listing key starts with "/products", the pattern product writes scan for. |
| Cache.ProductWritesKeepListingEntries | controllers/product_controller.go:237-241 | A product write's invalidation leaves every product listing entry readable exactly as before. |
| Cache.UserWritesEvictUserListings | controllers/auth_controller.go:171 | For a path under "/admin/user", the user-write invalidation makes every listing page miss. |
| Cache.FavoriteKeysEscapeBothPatterns | controllers/favorite.go:27 | A favourites URI matches neither the product pattern nor the user pattern. |
| Cache.ProductKeyInjective | controllers/product_controller.go:79 | Distinct (page, limit) pairs get distinct product keys. |
| Cache.UserListKeyInjective | controllers/auth_controller.go:292 | On a path without '?' or '&', distinct (page, limit) pairs get distinct user-list keys. |
| ProductHandler.ParseInt | controllers/product_controller.go:160-163 | A number is returned as parsed. Malformed text gives 0, unless its leading digits exceed 2^64 - 1, in which case it gives the int64 bound of its sign. |
| ProductHandler.CategoryIds | controllers/product_controller.go:62-68 | Every category value that parses is kept and every kept id came from a value that parses; the rest are dropped. |
| ProductHandler.PageOf | controllers/product_controller.go:70-71 | The page used is at least 1. |
| ProductHandler.LimitOf | controllers/product_controller.go:72-73 | The limit used is at least 1. |
| ProductHandler.Paginate | controllers/product_controller.go:107-135 | The page count is the least that holds every row. prev exists exactly when page > 1 and points at page-1; next exists exactly when page < count and points at page+1. |
| ProductHandler.Compute | controllers/product_controller.go:98-143 | The handler's page fails exactly when the listing does, and carries its rows and total with the clamped page and limit. |
| ProductHandler.Serve | controllers/product_controller.go:75-157 | An uncacheable request never reads or writes the cache. A cacheable hit answers from the cache; a miss stores only an encodable page; a 400 never changes the cache. |
| ProductHandler.Product | controllers/product_controller.go:52-158 | The same, for the whole handler from the raw query parameters. |
| ProductHandler.HitSkipsDatabase | controllers/product_controller.go:85-95 | On a hit, the answer does not depend on the database or on a listing fault. |
| ProductHandler.UncacheableIgnoresCache | controllers/product_controller.go:75-78 | An uncacheable request gets the same answer whatever the cache holds. |
| ProductHandler.NonNumericMinPrice | controllers/product_controller.go:75-98 | min_price=abc makes the request uncacheable, yet no price filter applies. |
| ProductHandler.MalformedPageSharesFirstPageEntry | controllers/product_controller.go:70-79 | A page text that is not a number, and whose leading digits do not overflow, uses the cache entry of page 1. |
| ProductHandler.KeyIdentifiesPaging | controllers/product_controller.go:79 | Two requests share a cache key exactly when their clamped page and limit agree. |
| ProductHandler.StaleListingSurvivesProductWrite | controllers/product_controller.go:237-241 | A listing page cached before a product write is served unchanged after it, whatever the write did to the database. |
| FavoriteHandler.NumberOr | controllers/favorite.go:18-26 | A parsed number of at least 1 is kept; a parse error or a smaller number gives the fallback. |
| FavoriteHandler.Serve | controllers/favorite.go:27-81 | A hit answers with the cached payload. On a miss, a store or encoding error gives 400 with the cache unchanged; otherwise the page is stored for 15 minutes and returned. |
| FavoriteHandler.FavoriteProduct | controllers/favorite.go:14-82 | A hit answers from the cache and a 400 leaves it unchanged. A fresh answer echoes the raw page and limit texts, counts every favourite, holds at most the limit of rows, and is stored under the request URI. |
| FavoriteHandler.HitSkipsDatabase | controllers/favorite.go:33-42 | On a hit, the answer does not depend on the database or on a store fault. |
| FavoriteHandler.SpellingsDoNotShareEntries | controllers/favorite.go:27 | "page=01" and the default page read the same page, yet filling one URI's entry leaves the other missing. |
| FavoriteHandler.EntriesSurviveWrites | controllers/favorite.go:27 | No product or user write's invalidation reaches a favourites entry. |
| FavoriteHandler.MalformedPageEchoed | controllers/favorite.go:18-61 | A page text that does not parse lists page 1 but echoes the text it was given. |
| Users.Register | models/users.go:59-89 | Success needs no fault, and returns (new id, email, "user"). A failed user insert writes nothing. A failed profile insert leaves the users row but adds no profile. Success adds both rows. No other table is written. |
| Users.RegisterIsNotAtomic | models/users.go:65-82 | When the profile insert fails, a users row without a profile remains and an error is returned. |
| Users.RegisterIgnoresRequestRole | models/users.go:65-68 | The role in the request makes no difference: the inserted role is always "user". |
| Users.SetPasswordByEmail | models/users.go:221-230 | Every user with that email gets the new password hash; every other user is unchanged. |
| Users.ReadUser | models/users.go:143-153 | The read-back succeeds exactly for an existing id and returns its id, email and role, without the password. |
| Users.AdminUpdateUserByID | models/users.go:108-154 | Success means no statement that ran failed and the user exists; the user is returned read back. A failing password write changes nothing. A failing role write keeps the new password. A failing profile write keeps both users writes. A failing read keeps all three. No table other than users and profile is written. |
| Users.AdminUpdateFieldRules | models/users.go:111-141 | The password changes exactly when one is given, and the role exactly when one is given. Username, phone and address are always overwritten, blanks included. |
| Users.AdminUpdateIsNotAtomic | models/users.go:111-131 | A failing role update keeps the password already written. |
| Users.UpdateUserByID | models/users.go:169-204 | No role or email ever changes, and no other user changes. The contact fields are overwritten unless the password or profile write failed, and they stay overwritten when the read fails. On success the user is read back. No table other than users and profile is written. |
| Users.AdminUpdateUserProfilePicture | models/users.go:246-259 | A target id of 0 or below is refused before any write. Otherwise every profile of that user gets the picture unless the update fails. |
| Users.PictureUpdateTouchesOnlyThatProfile | models/users.go:246-259 | Only the picture of that user's profile rows changes, and only on success. An id with no profile leaves the database unchanged. |
| Users.ListUser | models/users.go:262-305 | The rows are exactly those built from the (user, profile of that user) pairs, each carrying the user's own id and email. The call fails exactly when the query fails or a joined profile has a NULL username, phone or address. |
| Users.UserWithoutProfileNotListed | models/users.go:275 | The inner `JOIN profile` drops a user with no profile row: no listed row carries that user's id. |
| Users.ProfiledUserListed | models/users.go:264-297 | A user's profile row is listed with the user's own id, email and role and the profile's contact fields, and a NULL picture shows as "". |
| Users.NullContactFailsWholeList | models/users.go:286-294 | One joined profile with a NULL phone fails the whole listing, for every user. |
| AuthHandler.AssignedRole | controllers/auth_controller.go:43-54 | The handler writes role "user" on every branch, whatever role the caller has. |
| AuthHandler.RegisterUser | controllers/auth_controller.go:32-76 | 200 exactly when the body binds and the store succeeds; a 400 leaves the cache as it was. Success evicts every "/admin/user" key and returns the registered user. A failed profile insert still leaves the users row. |
| AuthHandler.RegisterIgnoresCallerRole | controllers/auth_controller.go:43-56 | An admin caller and an anonymous caller get identical outcomes. |
| AuthHandler.LoginUser | controllers/auth_controller.go:88-127 | 200 exactly when the email's row exists and the password verifies, returning the user and a token signed for its id and role. Every other bound request gets "wrong email or password". |
| AuthHandler.LoginFailuresLookAlike | controllers/auth_controller.go:99-114 | An unknown email, a wrong password and a failed lookup give the identical response. |
| AuthHandler.AdminUpdateUser | controllers/auth_controller.go:141-181 | The checks run in order: a bad id gives 400, a non-admin 403, a bad body 400, a store error 500, and none of these writes anything. Success evicts every "/admin/user" key and returns the updated user. |
| AuthHandler.RoleCheckRedundantBehindChain | controllers/auth_controller.go:149-156 | Behind the admin gates the context role is "admin", so the handler's own check never answers 403. |
| AuthHandler.UserWritesEvictListings | controllers/auth_controller.go:65-69 | After a successful register or admin update, every cached user-list page misses. |
| AuthHandler.ListPage | controllers/auth_controller.go:285-290 | The page is the parsed page when at least 1. Malformed text gives 1. Overflowing leading digits give the int64 maximum, or 1 under a minus sign. |
| AuthHandler.ListLimit | controllers/auth_controller.go:286 | The limit is the parsed value, never clamped. Malformed text gives 0, while overflowing leading digits give the int64 bound of the sign, so such a limit does not reach the division by zero. |
| AuthHandler.ComputeList | controllers/auth_controller.go:299-326 | The page data exists exactly when the store call succeeded. It carries the rows, page, limit and total, and its page count is the least that holds every row. |
| AuthHandler.ServeList | controllers/auth_controller.go:297-340 | A hit returns the cached response relabelled "data from cache". A miss with a store error gives 400 with the cache unchanged; otherwise the response is stored for 10 minutes, as "" when it cannot be encoded. |
| AuthHandler.ListUser | controllers/auth_controller.go:284-341 | The same for the whole handler, keyed by path, clamped page and raw limit. Any non-200 answer leaves the cache unchanged. |
| AuthHandler.ZeroLimitPanicsOnMiss | controllers/auth_controller.go:308 | limit=0 on a miss with a result divides by zero: the answer is an empty 500 and the cache is unchanged. |
| AuthHandler.UnencodablePageIsRecomputed | controllers/auth_controller.go:329-330 | A page that cannot be encoded is stored as "", which every later read treats as a miss. |
| AuthHandler.OtpText | controllers/auth_controller.go:404 | The code is six decimal digits whose value is the random draw. |
| AuthHandler.OtpTextInjective | controllers/auth_controller.go:404 | Distinct draws give distinct codes. |
| AuthHandler.ForgotPassword | controllers/auth_controller.go:392-412 | 200 exactly for a registered email when the lookup works; the code is then stored under "otp:"+email for 10 minutes. Any other bound request is a nil-dereference panic (empty 500) with the cache unchanged. |
| AuthHandler.StoredText | controllers/auth_controller.go:431 | A live key reads as its payload; an expired or missing key reads as "". |
| AuthHandler.FirstMatch | controllers/auth_controller.go:429-436 | It finds the first listed key whose stored text equals the code, or shows that no key's text does. |
| AuthHandler.ResetPassword | controllers/auth_controller.go:414-447 | With no matching key, the answer is "invalid or expired OTP" and nothing changes. A match resets the password of the key's email and deletes that key. The answer is 200 even when the update fails. |
| AuthHandler.TrimOtpPrefix | controllers/auth_controller.go:433 | Removing "otp:" from a stored key gives back the email it was built from. |
| AuthHandler.ForgotThenReset | controllers/auth_controller.go:392-447 | Within ten minutes the code resets that email's password, provided no key KEYS lists earlier holds the same code. The email's key is then deleted, so a second use never reaches that email. It answers 400 unless another listed key holds the same code. |
| AuthHandler.CollisionResetsOtherEmail | controllers/auth_controller.go:392-447 | When another email's live key holds the same code and KEYS lists it first, the reset goes to that other email and this email's key stays live. |
| AuthHandler.EmptyCodeMatchesVanishedKey | controllers/auth_controller.go:427-443 | A key listed by KEYS that is gone before its GET reads as "", so an empty code resets that email's password. |
| AuthHandler.ResetTouchesOnlyThatEmail | controllers/auth_controller.go:438-444 | Only users with the matched email change; every other user keeps its password. |
| Gates.BearerToken | middleware/auth.go:26-28 | For a header starting with "Bearer ", the token is the rest of the header. |
| Gates.Auth | middleware/auth.go:13-45 | A header without "Bearer " gives 401 "Unauthorized" and a token that does not verify gives 401 "Token invalid". Otherwise the chain continues with user, user id and role taken from the verified payload. |
| Gates.AdminOnly | middleware/admin.go:10-35 | No user in the context gives 401 and a non-admin gives 403. An admin continues with the context unchanged. |
| Gates.AdminHandlerNeedsVerifiedAdmin | middleware/admin.go:10-35 | An admin handler runs exactly for a "Bearer " header whose token verifies to an admin payload, and it then sees that payload's id and role. |
| Gates.PriorContextIgnored | middleware/auth.go:38-42 | Whatever the context held before, the gates decide on the verified payload alone. |
| Gates.ChainStatuses | middleware/admin.go:22-31 | A missing or bad token gives 401; a verified non-admin gives 403. |
| Gates.PrefixRemovedOnce | middleware/auth.go:26-28 | The prefix is removed once: "Bearer Bearer t" sends "Bearer t" to verification. |

## Left out

- I/O is not modelled: SQL execution, the pgx pool, the Redis client, gin routing and HTTP. Tables are values and Redis is a map. Each database or Redis failure that the code checks and returns is a fault parameter, and every clock reading is a parameter. Redis writes whose errors the code ignores always succeed in the model (see `Cache.Put` and `Cache.InvalidatePrefix` below).
- Concurrency is not modelled: two checkouts of one cart, writes during a SCAN, and keys deleted between KEYS and GET. The last one appears only as an input to `AuthHandler.EmptyCodeMatchesVanishedKey`.
- Prices are exact `real`s, so float64 rounding is not modelled. This includes the Go-side subtotal at models/order.go:181 versus the SQL total.
- Integers are unbounded: SQL INT and int64 overflow of quantities, totals and offsets are not modelled.
- JSON binding and validation are not modelled. A body is either a bound request or an error text.
- The error texts of the database and of gin are placeholders.
- The response envelope is `Http.Response` (status, success, message, data). The keys of `gin.H` bodies become its message and data.
- A cached payload is an opaque string. Unmarshalling it back into products and pagination, and the error that unmarshalling ignores, are not modelled.
- Hashing, token signing and token verification (`lib.HashPassword`, `lib.VerifyPassword`, `lib.GeneratedTokens`, `lib.VerifyToken`) are parameters. lib/hashing.go is not part of this model.
- File uploads (UploadUserPicture, AdminUploadUserPicture, UploadProductImages, Cloudinary) are not modelled beyond the picture write in `Users.AdminUpdateUserProfilePicture`.
- The random OTP draw is an input `n`.
- Read-only projections with no decision logic are not modelled: GetOrderDetail, GetProductByID, GetRecommendationsByCategory, GetUserProfile, UserProfile, Login as a query, Forgot, GetUserEmailByID, GetCart, OrderHistory and OrderDetail.
- GetOrderHistoryByUserID (models/order.go:218) is not modelled. It is optional, and its call site passes a different number of arguments.
- The product create, update and delete statements and their discarded errors are not modelled. Only the invalidation after a successful write is (`ProductHandler.AfterProductWrite`).
- UpdateProfile and UpdateUserProfilePicture are not modelled. `Users.UpdateUserByID` covers the profile update they rely on.
- Category handlers, AdminOrderList, lib.Pagination, lib.Hateoas, the routes, config, main.go, api/ and the migrations are wiring and configuration.
- Pagination links are not modelled as URLs: `ProductHandler.Paginate` records only the page each link points at, and the user list's Hateoas links are not modelled.
- The aggregates of the listings are not modelled: images, variants, sizes, methods and stock.
- Join multiplicity is not modelled: at most one discount per product, and one row per product. Duplicated rows from several product_discount links are out of scope.
- ILIKE is an ASCII case-folded substring test, and names order by code point. '%' and '_' inside the search text and database collations are not modelled.
- The order of rows tied under ORDER BY is unspecified in SQL; the model keeps input order.
- The user listing has no ORDER BY, so `Users.ListUser` returns a set.
- Call sites that do not match the shown definitions are handled as follows:
  - The ListUser handler calls `models.ListUser(page, limit)` and expects a total, which the shown definition does not provide. `AuthHandler.ListUser` takes that call's result as a parameter.
  - controllers/admin.go calls GetAllOrders with arguments; `AdminOrders.GetAllOrders` models the shown definition.
- Users.Register: requires ids that are not in use yet, standing in for the serial columns. A duplicate email, which the database's unique constraint would reject, appears only as an injected fault.
- Users.AdminUpdateUserProfilePicture: the `updated_at = NOW()` column is not modelled.
- Cart.AddToCart: the cart lookup is read from the carts map. A lookup that fails for a reason other than "no rows" is not modelled. The code treats such a failure as a missing cart and tries the insert (models/cart.go:40-50).
- CartHandler.DeleteCart: `models.DeleteCartItem` is not shown, so it is a parameter. Its effect on cart_items is not modelled.
- AuthHandler.LoginUser: `found` is the row the email lookup returns, passed in rather than searched for, because `users.email` is assumed unique.
- AuthHandler.ResetPassword: the reply texts of `gin.H` are used as the message. The order of keys that `KEYS` returns is an input.
- Cart.AddToCart: a failure of the cart SELECT other than "no rows" is not modelled. The source then inserts a second cart even for a user who has one and adds the line there, but `Store.Db.carts` holds one cart per user.
- Catalog.GetProductsAdmin: a whole price outside the int64 range, which would also fail the scan, is not modelled.
- The columns scanned without COALESCE are assumed NOT NULL: `p.description`, `p.stock`, `p.created_at` and `p.updated_at` in the favourites query and in GetProducts, and `p.description` and `p.stock` in GetProductsAdmin. A NULL there would fail the scan, and `Favorites.Favorite`, `Catalog.GetProducts` and `Catalog.GetProductsAdmin` do not model that failure.
- Cache.Put: the SET that stores a listing or an OTP (controllers/product_controller.go:148, controllers/favorite.go:75, controllers/auth_controller.go:330 and 406) always succeeds. The code ignores its error, so a failed SET would only leave the key missing, and that is not modelled.
- Cache.InvalidatePrefix: the SCAN and DEL after a write (controllers/auth_controller.go:66-69 and 171-174, controllers/product_controller.go:237-241) and the OTP DEL (controllers/auth_controller.go:444) always succeed. The code ignores their errors; a failed SCAN would leave stale user-list pages until their TTL, so `AuthHandler.UserWritesEvictListings` holds only when Redis answers.
- Checkout.CreateOrder: the order id and the invoice clock are inputs. A `rows.Err()` failure after the scan is folded into the item-query fault.

=== FILE: admin_orders.dfy ===
/**
 * models/admin.go: the admin's order listing (one row per order that has
 * items, totalled from its items, newest first) and the two-statement
 * status update.
 */
module AdminOrders {
  import opened Wrappers
  import opened Store
  import opened Sorting
  import Checkout

  // ---------------------------------------------------------------------------
  // UpdateOrderStatus

  /** The statement that fails, if any. */
  datatype UpdateFault = NoFault | HeaderFails | ItemsFails

  function SetOrderStatus(orders: seq<Order>, id: int, status: string): (r: seq<Order>)
    ensures |r| == |orders|
    ensures forall i | 0 <= i < |orders| ::
              && r[i].status == (if orders[i].id == id then Some(status) else orders[i].status)
              && r[i] == orders[i].(status := r[i].status)
  {
    UpdateWhere(orders, (o: Order) => o.id == id, (o: Order) => o.(status := Some(status)))
  }

  function SetItemStatus(items: seq<OrderItem>, orderId: int, status: string): (r: seq<OrderItem>)
    ensures |r| == |items|
    ensures forall i | 0 <= i < |items| ::
              && r[i].status == (if items[i].orderId == orderId then Some(status) else items[i].status)
              && r[i] == items[i].(status := r[i].status)
  {
    UpdateWhere(items, (it: OrderItem) => it.orderId == orderId, (it: OrderItem) => it.(status := Some(status)))
  }

  /**
   * models.UpdateOrderStatus: the status text is written as given, first to
   * the order, then to its items, with no transaction around the two.
   */
  function UpdateOrderStatus(db: Db, orderId: int, status: string, fault: UpdateFault): (r: (Db, Result<()>))
    ensures r.1.Ok? <==> fault.NoFault?
    // a failed header update stops before the items
    ensures fault == HeaderFails ==> r.0 == db
    // once the header update went through it stays, even when the items update fails
    ensures fault != HeaderFails ==> r.0.orders == SetOrderStatus(db.orders, orderId, status)
    ensures fault == ItemsFails ==> r.0.orderItems == db.orderItems
    ensures fault == NoFault ==> r.0.orderItems == SetItemStatus(db.orderItems, orderId, status)
    ensures r.0 == db.(orders := r.0.orders, orderItems := r.0.orderItems)
  {
    if fault == HeaderFails then (db, Err("failed to update order"))
    else
      var db1 := db.(orders := SetOrderStatus(db.orders, orderId, status));
      if fault == ItemsFails then (db1, Err("failed to update order items"))
      else (db1.(orderItems := SetItemStatus(db1.orderItems, orderId, status)), Ok(()))
  }

  /**
   * When the second statement fails, an order whose items disagreed with
   * the new status is left with a header and an item that disagree.
   */
  lemma ItemsFailureLeavesStatusesDivergent(db: Db, orderId: int, status: string, i: nat, j: nat)
    requires i < |db.orders| && db.orders[i].id == orderId
    requires j < |db.orderItems| && db.orderItems[j].orderId == orderId
    requires db.orderItems[j].status != Some(status)
    ensures var db' := UpdateOrderStatus(db, orderId, status, ItemsFails).0;
            && db'.orders[i].status == Some(status)
            && db'.orderItems[j].status != db'.orders[i].status
  {
  }

  /** A successful update leaves every order and every item of orderId with that status, and nothing else changed. */
  lemma UpdateReachesOnlyThatOrder(db: Db, orderId: int, status: string)
    ensures var db' := UpdateOrderStatus(db, orderId, status, NoFault).0;
            && (forall i | 0 <= i < |db.orders| ::
                  if db.orders[i].id == orderId then db'.orders[i] == db.orders[i].(status := Some(status))
                  else db'.orders[i] == db.orders[i])
            && (forall j | 0 <= j < |db.orderItems| ::
                  if db.orderItems[j].orderId == orderId then db'.orderItems[j].status == Some(status)
                  else db'.orderItems[j] == db.orderItems[j])
  {
    var db' := UpdateOrderStatus(db, orderId, status, NoFault).0;
    forall j | 0 <= j < |db.orderItems|
      ensures if db.orderItems[j].orderId == orderId then db'.orderItems[j].status == Some(status)
              else db'.orderItems[j] == db.orderItems[j]
    {
      var it := db.orderItems[j];
      assert db'.orderItems[j] == it.(status := db'.orderItems[j].status);
    }
    forall i | 0 <= i < |db.orders|
      ensures if db.orders[i].id == orderId then db'.orders[i] == db.orders[i].(status := Some(status))
              else db'.orders[i] == db.orders[i]
    {
      var o := db.orders[i];
      assert db'.orders[i] == o.(status := db'.orders[i].status);
    }
  }

  // ---------------------------------------------------------------------------
  // GetAllOrders

  /** One row of the listing. */
  datatype OrderListItem = OrderListItem(id: int, date: Time, status: string, total: real)

  /** The order_items rows joined to order oid. */
  function ItemsOf(items: seq<OrderItem>, oid: int): (r: seq<OrderItem>)
    ensures forall x | x in r :: x in items && x.orderId == oid
    ensures forall x | x in items && x.orderId == oid :: x in r
  {
    if |items| == 0 then []
    else if items[0].orderId == oid then [items[0]] + ItemsOf(items[1..], oid)
    else ItemsOf(items[1..], oid)
  }

  /** Each joined row appears as often as in the table, so the SUM counts it once per row. */
  lemma {:induction false} ItemsOfCounts(items: seq<OrderItem>, oid: int)
    ensures forall x :: multiset(ItemsOf(items, oid))[x] == if x.orderId == oid then multiset(items)[x] else 0
  {
    if |items| > 0 {
      assert items == [items[0]] + items[1..];
      ItemsOfCounts(items[1..], oid);
    }
  }

  /** The status the scan reads: the stored one, else the column default. */
  function StatusRead(o: Order, statusDefault: Option<string>): Option<string> {
    if o.status.Some? then o.status else statusDefault
  }

  /** x is the listing row of order o: same id and date, its items' total, the status read. */
  predicate Describes(x: OrderListItem, o: Order, items: seq<OrderItem>, statusDefault: Option<string>) {
    && x.id == o.id && x.date == o.orderDate
    && |ItemsOf(items, o.id)| > 0
    && x.total == Checkout.SumSubtotals(ItemsOf(items, o.id))
    && Some(x.status) == StatusRead(o, statusDefault)
  }

  /**
   * The grouped rows in table order: orders with no item drop out of the
   * inner join. orders.status is read into a Go string, so a NULL status
   * fails the scan; statusDefault is the column's default, which the order
   * insert leaves in place (None is a NULL default).
   */
  function Grouped(orders: seq<Order>, items: seq<OrderItem>, statusDefault: Option<string>):
    (r: Option<seq<OrderListItem>>)
    ensures r.Some? ==> |r.value| <= |orders|
  {
    if |orders| == 0 then Some([])
    else
      var o := orders[0];
      if |ItemsOf(items, o.id)| == 0 then Grouped(orders[1..], items, statusDefault)
      else
        match StatusRead(o, statusDefault)
        case None => None
        case Some(st) =>
          match Grouped(orders[1..], items, statusDefault)
          case None => None
          case Some(tail) =>
            Some([OrderListItem(o.id, o.orderDate, st, Checkout.SumSubtotals(ItemsOf(items, o.id)))] + tail)
  }

  /** The listing fails exactly when some order with items reads a NULL status. */
  lemma {:induction false} GroupedFailsIff(orders: seq<Order>, items: seq<OrderItem>, statusDefault: Option<string>)
    ensures Grouped(orders, items, statusDefault).None? <==>
            exists i | 0 <= i < |orders| :: |ItemsOf(items, orders[i].id)| > 0 && StatusRead(orders[i], statusDefault).None?
  {
    if |orders| > 0 {
      GroupedFailsIff(orders[1..], items, statusDefault);
      assert forall i | 1 <= i < |orders| :: orders[i] == orders[1..][i - 1];
      if exists i | 1 <= i < |orders| :: |ItemsOf(items, orders[i].id)| > 0 && StatusRead(orders[i], statusDefault).None? {
        var i :| 1 <= i < |orders| && |ItemsOf(items, orders[i].id)| > 0 && StatusRead(orders[i], statusDefault).None?;
        assert orders[1..][i - 1] == orders[i];
      }
    }
  }

  /** Every grouped row describes some order that has items. */
  lemma {:induction false} GroupedSound(orders: seq<Order>, items: seq<OrderItem>, statusDefault: Option<string>)
    requires Grouped(orders, items, statusDefault).Some?
    ensures forall x | x in Grouped(orders, items, statusDefault).value ::
              exists i | 0 <= i < |orders| :: Describes(x, orders[i], items, statusDefault)
  {
    if |orders| > 0 {
      var o := orders[0];
      GroupedSound(orders[1..], items, statusDefault);
      var tail := Grouped(orders[1..], items, statusDefault).value;
      forall x | x in tail
        ensures exists i | 0 <= i < |orders| :: Describes(x, orders[i], items, statusDefault)
      {
        var k :| 0 <= k < |orders[1..]| && Describes(x, orders[1..][k], items, statusDefault);
        assert orders[k + 1] == orders[1..][k];
      }
      if |ItemsOf(items, o.id)| > 0 {
        var st := StatusRead(o, statusDefault).value;
        var row := OrderListItem(o.id, o.orderDate, st, Checkout.SumSubtotals(ItemsOf(items, o.id)));
        assert Describes(row, orders[0], items, statusDefault);
        assert Grouped(orders, items, statusDefault).value == [row] + tail;
      }
    }
  }

  /** Every order that has items gets a row describing it. */
  lemma {:induction false} GroupedComplete(orders: seq<Order>, items: seq<OrderItem>, statusDefault: Option<string>)
    requires Grouped(orders, items, statusDefault).Some?
    ensures forall i | 0 <= i < |orders| && |ItemsOf(items, orders[i].id)| > 0 ::
              exists x | x in Grouped(orders, items, statusDefault).value :: Describes(x, orders[i], items, statusDefault)
  {
    if |orders| > 0 {
      var o := orders[0];
      GroupedComplete(orders[1..], items, statusDefault);
      var g := Grouped(orders, items, statusDefault).value;
      var tail := Grouped(orders[1..], items, statusDefault).value;
      assert forall x | x in tail :: x in g;
      forall i | 1 <= i < |orders| && |ItemsOf(items, orders[i].id)| > 0
        ensures exists x | x in g :: Describes(x, orders[i], items, statusDefault)
      {
        assert orders[i] == orders[1..][i - 1];
        var x :| x in tail && Describes(x, orders[1..][i - 1], items, statusDefault);
        assert x in g;
      }
      if |ItemsOf(items, o.id)| > 0 {
        var st := StatusRead(o, statusDefault).value;
        var row := OrderListItem(o.id, o.orderDate, st, Checkout.SumSubtotals(ItemsOf(items, o.id)));
        assert g == [row] + tail;
        assert row in g && Describes(row, orders[0], items, statusDefault);
      }
    }
  }

  /** Order ids are unique, as the primary key makes them. */
  predicate UniqueOrderIds(orders: seq<Order>) {
    forall i, j | 0 <= i < j < |orders| :: orders[i].id != orders[j].id
  }

  /** No two listing rows carry the same order id. */
  predicate OneRowPerOrder(rows: seq<OrderListItem>) {
    forall i, j | 0 <= i < j < |rows| :: rows[i].id != rows[j].id
  }

  /** GROUP BY o.id: with unique order ids, each order gets at most one row. */
  lemma {:induction false} GroupedOneRowPerOrder(orders: seq<Order>, items: seq<OrderItem>, statusDefault: Option<string>)
    requires UniqueOrderIds(orders)
    requires Grouped(orders, items, statusDefault).Some?
    ensures OneRowPerOrder(Grouped(orders, items, statusDefault).value)
  {
    if |orders| > 0 {
      var o := orders[0];
      var tail := Grouped(orders[1..], items, statusDefault).value;
      GroupedOneRowPerOrder(orders[1..], items, statusDefault);
      GroupedSound(orders[1..], items, statusDefault);
      forall x | x in tail
        ensures x.id != o.id
      {
        var k :| 0 <= k < |orders[1..]| && Describes(x, orders[1..][k], items, statusDefault);
        assert orders[1..][k] == orders[k + 1];
      }
      if |ItemsOf(items, o.id)| > 0 {
        var g := Grouped(orders, items, statusDefault).value;
        assert g == [g[0]] + tail && g[0].id == o.id;
        forall i, j | 0 <= i < j < |g|
          ensures g[i].id != g[j].id
        {
          assert g[j] == tail[j - 1];
          if i > 0 {
            assert g[i] == tail[i - 1];
          }
        }
      }
    }
  }

  /** Each row of a sequence with unique ids occurs once. */
  lemma {:induction false} OneRowPerOrderCounts(rows: seq<OrderListItem>)
    requires OneRowPerOrder(rows)
    ensures forall x :: multiset(rows)[x] <= 1
  {
    if |rows| > 0 {
      assert rows == [rows[0]] + rows[1..];
      assert OneRowPerOrder(rows[1..]) by {
        forall i, j | 0 <= i < j < |rows[1..]|
          ensures rows[1..][i].id != rows[1..][j].id
        {
          assert rows[1..][i] == rows[i + 1] && rows[1..][j] == rows[j + 1];
        }
      }
      OneRowPerOrderCounts(rows[1..]);
      assert rows[0] !in rows[1..];
    }
  }

  /** A permutation of rows with unique ids has unique ids. */
  lemma PermutationKeepsOneRowPerOrder(a: seq<OrderListItem>, b: seq<OrderListItem>)
    requires multiset(a) == multiset(b)
    requires OneRowPerOrder(b)
    ensures OneRowPerOrder(a)
  {
    OneRowPerOrderCounts(b);
    forall i, j | 0 <= i < j < |a|
      ensures a[i].id != a[j].id
    {
      assert a == a[..j] + a[j..];
      assert multiset(a) == multiset(a[..j]) + multiset(a[j..]);
      assert a[i] in a[..j] && a[j] in a[j..];
      assert a[i] != a[j];
      assert a[i] in multiset(b) && a[j] in multiset(b);
      var p :| 0 <= p < |b| && b[p] == a[i];
      var q :| 0 <= q < |b| && b[q] == a[j];
      assert p != q;
    }
  }

  /** ORDER BY o.order_date DESC. */
  function ByDateDesc(): (OrderListItem, OrderListItem) -> bool {
    (a: OrderListItem, b: OrderListItem) => a.date >= b.date
  }

  lemma ByDateDescIsTotalPreorder()
    ensures TotalPreorder(ByDateDesc())
  {
  }

  /**
   * models.GetAllOrders. queryFails is a failure of the query itself;
   * a scan failure comes from the data (a NULL status).
   */
  function GetAllOrders(db: Db, statusDefault: Option<string>, queryFails: bool): (r: Result<seq<OrderListItem>>)
    ensures r.Ok? <==> !queryFails && Grouped(db.orders, db.orderItems, statusDefault).Some?
    ensures r.Ok? ==> |r.value| <= |db.orders|
    ensures r.Ok? ==> SortedBy(r.value, ByDateDesc())
    ensures r.Ok? ==> multiset(r.value) == multiset(Grouped(db.orders, db.orderItems, statusDefault).value)
  {
    if queryFails then Err("failed to query orders")
    else
      match Grouped(db.orders, db.orderItems, statusDefault)
      case None => Err("failed to scan order")
      case Some(rows) =>
        ByDateDescIsTotalPreorder();
        Ok(Sort(rows, ByDateDesc()))
  }

  lemma {:induction false} ItemsOfNone(items: seq<OrderItem>, oid: int)
    requires forall j | 0 <= j < |items| :: items[j].orderId != oid
    ensures ItemsOf(items, oid) == []
  {
    if |items| > 0 {
      ItemsOfNone(items[1..], oid);
    }
  }

  /**
   * Every listed row is an order that has items, totalled as the sum of its
   * items' subtotals; every order with items is listed; dates descend; and
   * with unique order ids no order is listed twice.
   */
  lemma ListingIsPerOrderSum(db: Db, statusDefault: Option<string>)
    requires GetAllOrders(db, statusDefault, false).Ok?
    ensures var rows := GetAllOrders(db, statusDefault, false).value;
            && (forall x | x in rows :: exists i | 0 <= i < |db.orders| :: Describes(x, db.orders[i], db.orderItems, statusDefault))
            && (forall i | 0 <= i < |db.orders| && |ItemsOf(db.orderItems, db.orders[i].id)| > 0 ::
                  exists x | x in rows :: Describes(x, db.orders[i], db.orderItems, statusDefault))
            && (forall i, j | 0 <= i < j < |rows| :: rows[i].date >= rows[j].date)
            && (UniqueOrderIds(db.orders) ==> OneRowPerOrder(rows))
  {
    var rows := GetAllOrders(db, statusDefault, false).value;
    var g := Grouped(db.orders, db.orderItems, statusDefault).value;
    GroupedSound(db.orders, db.orderItems, statusDefault);
    GroupedComplete(db.orders, db.orderItems, statusDefault);
    assert forall x :: x in rows <==> x in g by {
      forall x ensures x in rows <==> x in g {
        assert x in rows <==> x in multiset(rows);
        assert x in g <==> x in multiset(g);
      }
    }
    forall i, j | 0 <= i < j < |rows| ensures rows[i].date >= rows[j].date {
      assert ByDateDesc()(rows[i], rows[j]);
    }
    if UniqueOrderIds(db.orders) {
      GroupedOneRowPerOrder(db.orders, db.orderItems, statusDefault);
      PermutationKeepsOneRowPerOrder(rows, g);
    }
  }

  /** An order nobody added items to is never listed. */
  lemma OrderWithoutItemsOmitted(db: Db, statusDefault: Option<string>, oid: int)
    requires GetAllOrders(db, statusDefault, false).Ok?
    requires forall j | 0 <= j < |db.orderItems| :: db.orderItems[j].orderId != oid
    ensures forall x | x in GetAllOrders(db, statusDefault, false).value :: x.id != oid
  {
    ListingIsPerOrderSum(db, statusDefault);
    ItemsOfNone(db.orderItems, oid);
  }
}

=== FILE: auth_handler.dfy ===
/**
 * controllers/auth_controller.go: registration, login, the admin user
 * update, the cached admin user list, and the OTP password reset. Password
 * hashing, token signing and JSON encoding are parameters; the database
 * and Redis are the Store.Db and Cache.Store values threaded through.
 */
module AuthHandler {
  import opened Wrappers
  import opened Text
  import opened Store
  import opened Http
  import opened Paging
  import Cache
  import Users
  import Gates
  import ProductHandler

  // ---------------------------------------------------------------------------
  // RegisterUser

  /** The role the handler writes into the request: "user" whatever the caller is. */
  function AssignedRole(callerRole: Option<string>): (r: string)
    ensures r == Users.UserRole
  {
    match callerRole
    case None => "user"
    case Some(role) => if role == "admin" then "user" else "user"
  }

  /**
   * controllers.RegisterUser. body is the bound JSON (Err with the binding
   * message); callerRole is the context's "role", if any.
   */
  function RegisterUser(db: Db, c: Cache.Store, body: Result<Users.RegisterRequest>, callerRole: Option<string>,
                        hash: string, newUserId: int, newProfileId: int, fault: Users.RegisterFault):
    (r: (Db, Cache.Store, Response<Users.PublicUser>))
    requires newUserId !in db.users && newProfileId !in db.profiles
    ensures r.2.status == 200 || r.2.status == 400
    ensures r.2.status == 200 <==> body.Ok? && fault.NoFault?
    ensures body.Err? ==> r == (db, c, Fail(400, body.msg))
    ensures r.2.status == 400 ==> r.1 == c
    ensures r.2.status == 200 ==>
              && r.1 == Cache.InvalidatePrefix(c, Cache.UserPattern)
              && r.2 == Success("Register success", Users.PublicUser(newUserId, body.value.email, Users.UserRole))
              && newUserId in r.0.users && r.0.users[newUserId] == UserRow(body.value.email, hash, Users.UserRole)
    ensures body.Ok? && fault.ProfileInsertFails? ==> newUserId in r.0.users && r.2.status == 400
  {
    match body
    case Err(m) => (db, c, Fail(400, m))
    case Ok(req) =>
      var s := Users.Register(db, req.(role := AssignedRole(callerRole)), hash, newUserId, newProfileId, fault);
      match s.1
      case Err(m) => (s.0, c, Fail(400, m))
      case Ok(u) => (s.0, Cache.InvalidatePrefix(c, Cache.UserPattern), Success("Register success", u))
  }

  /** An admin registering someone gets exactly what an anonymous caller gets. */
  lemma RegisterIgnoresCallerRole(db: Db, c: Cache.Store, body: Result<Users.RegisterRequest>, r1: Option<string>,
                                  r2: Option<string>, hash: string, newUserId: int, newProfileId: int,
                                  fault: Users.RegisterFault)
    requires newUserId !in db.users && newProfileId !in db.profiles
    ensures RegisterUser(db, c, body, r1, hash, newUserId, newProfileId, fault) ==
            RegisterUser(db, c, body, r2, hash, newUserId, newProfileId, fault)
  {
  }

  // ---------------------------------------------------------------------------
  // LoginUser

  datatype LoginRequest = LoginRequest(email: string, password: string)

  /** The login answer's data: the user (without password) and the signed token. */
  datatype Session = Session(user: Users.PublicUser, token: string)

  /** found is the row models.Login reads for email: None exactly when no row has it. */
  predicate LoginRow(db: Db, email: string, found: Option<int>) {
    match found
    case None => forall u | u in db.users :: db.users[u].email != email
    case Some(u) => u in db.users && db.users[u].email == email
  }

  /**
   * controllers.LoginUser. verify is lib.VerifyPassword(plain, hash); sign
   * is lib.GeneratedTokens(id, role); lookupFails injects a failing query.
   */
  function LoginUser(db: Db, body: Result<LoginRequest>, found: Option<int>, lookupFails: bool,
                     verify: (string, string) -> bool, sign: (int, string) -> string): (r: Response<Session>)
    requires body.Ok? ==> LoginRow(db, body.value.email, found)
    ensures body.Err? ==> r == Fail(400, body.msg)
    ensures r.status == 200 <==>
              body.Ok? && !lookupFails && found.Some? && verify(body.value.password, db.users[found.value].password)
    ensures body.Ok? && r.status != 200 ==> r == Fail(400, "wrong email or password")
    ensures r.status == 200 ==>
              var u := found.value;
              && db.users[u].email == body.value.email
              && r == Success("Login success", Session(Users.PublicUser(u, db.users[u].email, db.users[u].role),
                                                       sign(u, db.users[u].role)))
  {
    match body
    case Err(m) => Fail(400, m)
    case Ok(req) =>
      if lookupFails || found.None? then Fail(400, "wrong email or password")
      else
        var row := db.users[found.value];
        if !verify(req.password, row.password) then Fail(400, "wrong email or password")
        else Success("Login success", Session(Users.PublicUser(found.value, row.email, row.role),
                                              sign(found.value, row.role)))
  }

  /**
   * An unknown email, a wrong password and a failed lookup all give the
   * same answer: the response does not tell which emails are registered.
   */
  lemma LoginFailuresLookAlike(known: Db, unknown: Db, req: LoginRequest, u: int, verify: (string, string) -> bool,
                               sign: (int, string) -> string)
    requires LoginRow(unknown, req.email, None)
    requires LoginRow(known, req.email, Some(u)) && !verify(req.password, known.users[u].password)
    ensures LoginUser(unknown, Ok(req), None, false, verify, sign) ==
            LoginUser(known, Ok(req), Some(u), false, verify, sign)
    ensures LoginUser(unknown, Ok(req), None, false, verify, sign) ==
            LoginUser(known, Ok(req), Some(u), true, verify, sign)
  {
  }

  // ---------------------------------------------------------------------------
  // AdminUpdateUser

  /**
   * controllers.AdminUpdateUser: the id from the path (strconv.ParseInt,
   * base 10, 64 bits), the context role, the bound body, then
   * models.AdminUpdateUserByID and the user-list invalidation.
   */
  function AdminUpdateUser(db: Db, c: Cache.Store, idText: string, role: string,
                           body: Result<Users.AdminUpdateRequest>, hash: string, fault: Users.UpdateFault):
    (r: (Db, Cache.Store, Response<Users.PublicUser>))
    ensures !Atoi(idText).Number? ==> r == (db, c, Fail(400, "invalid user id"))
    ensures Atoi(idText).Number? && role != "admin" ==> r == (db, c, Fail(403, "only admin can update user"))
    ensures Atoi(idText).Number? && role == "admin" && body.Err? ==> r == (db, c, Fail(400, body.msg))
    ensures r.2.status == 200 <==>
              && Atoi(idText).Number? && role == "admin" && body.Ok?
              && !Users.AdminStepFails(body.value, fault) && Atoi(idText).n in db.users
    ensures r.2.status != 200 ==> r.1 == c
    ensures Atoi(idText).Number? && role == "admin" && body.Ok? ==>
              r.0 == Users.AdminUpdateUserByID(db, Atoi(idText).n, body.value, hash, fault).0
    ensures r.2.status == 200 ==>
              && r.1 == Cache.InvalidatePrefix(c, Cache.UserPattern)
              && r.2.message == "admin update user successfully"
              && r.2.data.Some? && r.2.data.value.id == Atoi(idText).n
  {
    match Atoi(idText)
    case SyntaxError => (db, c, Fail(400, "invalid user id"))
    case RangeError(_) => (db, c, Fail(400, "invalid user id"))
    case Number(id) =>
      if role != "admin" then (db, c, Fail(403, "only admin can update user"))
      else
        match body
        case Err(m) => (db, c, Fail(400, m))
        case Ok(req) =>
          var s := Users.AdminUpdateUserByID(db, id, req, hash, fault);
          match s.1
          case Err(m) => (s.0, c, Fail(500, m))
          case Ok(u) => (s.0, Cache.InvalidatePrefix(c, Cache.UserPattern), Success("admin update user successfully", u))
  }

  /**
   * Behind the /admin chain the context role is "admin", so the handler's
   * own role check never answers 403.
   */
  lemma RoleCheckRedundantBehindChain(header: string, ctx: Gates.Context, verify: string -> Option<Gates.Payload>,
                                      db: Db, c: Cache.Store, idText: string, body: Result<Users.AdminUpdateRequest>,
                                      hash: string, fault: Users.UpdateFault)
    requires Gates.AdminChain(header, ctx, verify).Next?
    ensures Gates.AdminChain(header, ctx, verify).ctx.role == Some("admin")
    ensures AdminUpdateUser(db, c, idText, "admin", body, hash, fault).2.status != 403
  {
    Gates.AdminHandlerNeedsVerifiedAdmin(header, ctx, verify);
  }

  /**
   * After a successful register or admin update, every cached user-list
   * page misses: its key starts with the route path "/admin/user".
   */
  lemma UserWritesEvictListings(db: Db, c: Cache.Store, now: Time, path: string, page: int, limit: int,
                                getFails: bool, reg: Result<Users.RegisterRequest>, callerRole: Option<string>,
                                hash: string, newUserId: int, newProfileId: int, idText: string,
                                upd: Result<Users.AdminUpdateRequest>, fault: Users.UpdateFault)
    requires IsPrefix(Cache.UserPattern, path)
    requires newUserId !in db.users && newProfileId !in db.profiles
    ensures var r := RegisterUser(db, c, reg, callerRole, hash, newUserId, newProfileId, Users.RegisterFault.NoFault);
            r.2.status == 200 ==> Cache.Lookup(r.1, Cache.UserListKey(path, page, limit), now, getFails).None?
    ensures var r := AdminUpdateUser(db, c, idText, "admin", upd, hash, fault);
            r.2.status == 200 ==> Cache.Lookup(r.1, Cache.UserListKey(path, page, limit), now, getFails).None?
  {
    Cache.UserWritesEvictUserListings(c, path, page, limit, now, getFails);
  }

  // ---------------------------------------------------------------------------
  // ListUser

  datatype ListPagination = ListPagination(page: int, limit: int, totalPage: int, totalItems: nat)

  datatype ListData = ListData(users: seq<Users.ListUserRow>, pagination: ListPagination)

  /** The response data: the cached JSON as stored, or the page just read. */
  datatype ListBody = FromCache(payload: string) | FromDb(data: ListData)

  /** The page: parsed with the error dropped, then raised to 1. */
  function ListPage(pageQ: Option<string>): (r: int)
    ensures r >= 1
    ensures Atoi(pageQ.GetOr("1")).Number? && Atoi(pageQ.GetOr("1")).n >= 1 ==> r == Atoi(pageQ.GetOr("1")).n
    ensures !WellFormedInteger(pageQ.GetOr("1")) && !PrefixOverflows(Unsigned(pageQ.GetOr("1"))) ==> r == 1
    ensures PrefixOverflows(Unsigned(pageQ.GetOr("1"))) ==> r == (if Negative(pageQ.GetOr("1")) then 1 else MaxInt64)
  {
    ClampPage(ProductHandler.ParseInt(ProductHandler.DefaultQuery(pageQ, "1")))
  }

  /** The limit: parsed with the error dropped and never clamped, so 0 and negatives pass. */
  function ListLimit(limitQ: Option<string>): (r: int)
    ensures Atoi(limitQ.GetOr("10")).Number? ==> r == Atoi(limitQ.GetOr("10")).n
    ensures !WellFormedInteger(limitQ.GetOr("10")) && !PrefixOverflows(Unsigned(limitQ.GetOr("10"))) ==> r == 0
    ensures PrefixOverflows(Unsigned(limitQ.GetOr("10"))) ==>
              r == (if Negative(limitQ.GetOr("10")) then MinInt64 else MaxInt64)
  {
    ProductHandler.ParseInt(ProductHandler.DefaultQuery(limitQ, "10"))
  }

  function ListKey(path: string, pageQ: Option<string>, limitQ: Option<string>): string {
    Cache.UserListKey(path, ListPage(pageQ), ListLimit(limitQ))
  }

  /** A hit: the cached response, its message replaced. */
  function HitResponse(payload: string): Response<ListBody> {
    Response(200, true, "data from cache", Some(FromCache(payload)))
  }

  /** The division-by-zero panic, answered by gin's recovery middleware with an empty 500. */
  function PanicResponse<D>(): Response<D> {
    Response(500, false, "", None)
  }

  /**
   * The page data built around what models.ListUser returned. The page
   * count is Go's truncating (total + limit - 1) / limit, so the limit
   * must not be 0 once there is a result to divide.
   */
  function ComputeList(listed: Result<(seq<Users.ListUserRow>, nat)>, page: int, limit: int): (r: Result<ListData>)
    requires listed.Ok? ==> limit != 0
    ensures r.Ok? <==> listed.Ok?
    ensures r.Ok? ==>
              && r.value.users == listed.value.0
              && r.value.pagination.page == page
              && r.value.pagination.limit == limit
              && r.value.pagination.totalItems == listed.value.1
    ensures r.Ok? && limit > 0 ==>
              && r.value.pagination.totalPage * limit >= listed.value.1
              && (r.value.pagination.totalPage > 0 ==> (r.value.pagination.totalPage - 1) * limit < listed.value.1)
  {
    match listed
    case Err(m) => Err(m)
    case Ok(got) =>
      var total := got.1;
      var totalPage := GoDiv(total + limit - 1, limit);
      assert limit > 0 ==> totalPage == TotalPages(total, limit);
      Ok(ListData(got.0, ListPagination(page, limit, totalPage, total)))
  }

  /**
   * The cache-aside part. The handler ignores json.Marshal's error and
   * stores whatever bytes it got, so a failed encoding stores "".
   */
  function ServeList(c: Cache.Store, now: Time, key: string, getFails: bool, computed: Result<ListData>,
                     encode: ListData -> Option<string>): (r: (Cache.Store, Response<ListBody>))
    ensures Cache.Lookup(c, key, now, getFails).Some? ==> r == (c, HitResponse(c[key].payload))
    ensures Cache.Lookup(c, key, now, getFails).None? && computed.Err? ==> r == (c, Fail(400, computed.msg))
    ensures Cache.Lookup(c, key, now, getFails).None? && computed.Ok? ==>
              r == (Cache.Put(c, key, encode(computed.value).GetOr(""), now, Cache.UserListTtl),
                    Success("success data from db", FromDb(computed.value)))
  {
    var (c1, out) := Cache.GetOrCompute(c, key, now, Cache.UserListTtl, getFails, computed,
                                        (d: ListData) => Some(encode(d).GetOr("")));
    match out
    case Cached(p) => (c1, HitResponse(p))
    case Stored(d) => (c1, Success("success data from db", FromDb(d)))
    case NotStored(d) => (c1, Success("success data from db", FromDb(d)))
    case Failed(m) => (c1, Fail(400, m))
  }

  /**
   * controllers.ListUser on request path path. listed is what
   * models.ListUser(page, limit) returns at the call site: the page of rows
   * and the total count, or an error.
   */
  function ListUser(c: Cache.Store, now: Time, path: string, pageQ: Option<string>, limitQ: Option<string>,
                    getFails: bool, listed: Result<(seq<Users.ListUserRow>, nat)>, encode: ListData -> Option<string>):
    (r: (Cache.Store, Response<ListBody>))
    ensures var key := ListKey(path, pageQ, limitQ);
            Cache.Lookup(c, key, now, getFails).Some? ==> r == (c, HitResponse(c[key].payload))
    ensures var key := ListKey(path, pageQ, limitQ);
            Cache.Lookup(c, key, now, getFails).None? && listed.Err? ==> r == (c, Fail(400, listed.msg))
    ensures var key := ListKey(path, pageQ, limitQ);
            Cache.Lookup(c, key, now, getFails).None? && listed.Ok? && ListLimit(limitQ) == 0 ==>
              r == (c, PanicResponse())
    ensures var key := ListKey(path, pageQ, limitQ);
            Cache.Lookup(c, key, now, getFails).None? && listed.Ok? && ListLimit(limitQ) != 0 ==>
              && r.1.status == 200
              && r.1.message == "success data from db"
              && r.1.data.Some? && r.1.data.value.FromDb?
              && r.1.data.value.data.users == listed.value.0
              && r.1.data.value.data.pagination.page == ListPage(pageQ)
              && r.1.data.value.data.pagination.limit == ListLimit(limitQ)
              && r.1.data.value.data.pagination.totalItems == listed.value.1
              && r.0 == Cache.Put(c, key, encode(r.1.data.value.data).GetOr(""), now, Cache.UserListTtl)
    ensures r.1.status != 200 ==> r.0 == c
  {
    var key := ListKey(path, pageQ, limitQ);
    var limit := ListLimit(limitQ);
    if limit == 0 && listed.Ok? then
      match Cache.Lookup(c, key, now, getFails)
      case Some(p) => (c, HitResponse(p))
      case None => (c, PanicResponse())
    else
      ServeList(c, now, key, getFails, ComputeList(listed, ListPage(pageQ), limit), encode)
  }

  /** limit=0 on a miss with rows to count panics; the cache is left as it was. */
  lemma ZeroLimitPanicsOnMiss(c: Cache.Store, now: Time, path: string, pageQ: Option<string>, getFails: bool,
                              listed: Result<(seq<Users.ListUserRow>, nat)>, encode: ListData -> Option<string>)
    requires listed.Ok?
    requires Cache.Lookup(c, ListKey(path, pageQ, Some("0")), now, getFails).None?
    ensures ListLimit(Some("0")) == 0
    ensures ListUser(c, now, path, pageQ, Some("0"), getFails, listed, encode) == (c, PanicResponse())
  {
    assert WellFormedInteger("0");
    assert DigitsValue("0") == 0 by {
      assert "0"[..0] == [];
    }
    assert Atoi("0") == Number(0);
    assert ListLimit(Some("0")) == 0;
  }

  /**
   * A page whose encoding fails is stored as "", which every later read
   * treats as a miss: the page is recomputed each time.
   */
  lemma UnencodablePageIsRecomputed(c: Cache.Store, now: Time, later: Time, path: string, pageQ: Option<string>,
                                    limitQ: Option<string>, getFails: bool,
                                    listed: Result<(seq<Users.ListUserRow>, nat)>, encode: ListData -> Option<string>)
    requires listed.Ok? && ListLimit(limitQ) != 0
    requires Cache.Lookup(c, ListKey(path, pageQ, limitQ), now, getFails).None?
    requires encode(ComputeList(listed, ListPage(pageQ), ListLimit(limitQ)).value).None?
    ensures var r := ListUser(c, now, path, pageQ, limitQ, getFails, listed, encode);
            && r.1.status == 200
            && Cache.Lookup(r.0, ListKey(path, pageQ, limitQ), later, false).None?
  {
  }

  // ---------------------------------------------------------------------------
  // ForgotPassword and ResetPassword

  const OtpPrefix: string := "otp:"

  /** The OTP lifetime: ten minutes. */
  const OtpTtl: nat := 10 * 60

  /** The random draw n, printed in decimal and zero-padded to six digits. */
  function OtpText(n: nat): (r: string)
    requires n < 999999
    ensures |r| == 6 && AllDigits(r) && DigitsValue(r) == n
  {
    FixedWidthRoundTrip(n, 6);
    FixedWidth(n, 6)
  }

  /** Distinct draws give distinct codes. */
  lemma OtpTextInjective(a: nat, b: nat)
    requires a < 999999 && b < 999999
    requires OtpText(a) == OtpText(b)
    ensures a == b
  {
  }

  predicate Registered(db: Db, email: string) {
    exists u | u in db.users :: db.users[u].email == email
  }

  /**
   * controllers.ForgotPassword: stores a fresh code under "otp:" + email
   * and hands it back. n is the random draw. models.Forgot's error is
   * dropped, so an unregistered email dereferences a nil user and panics.
   */
  function ForgotPassword(db: Db, c: Cache.Store, now: Time, body: Result<string>, lookupFails: bool, n: nat):
    (r: (Cache.Store, Response<string>))
    requires n < 999999
    ensures body.Err? ==> r == (c, Fail(400, "invalid request"))
    ensures r.1.status == 200 <==> body.Ok? && !lookupFails && Registered(db, body.value)
    ensures r.1.status != 200 ==> r.0 == c
    ensures body.Ok? && r.1.status != 200 ==> r.1 == PanicResponse()
    ensures r.1.status == 200 ==>
              && r.1.data == Some(OtpText(n))
              && Cache.Live(r.0, OtpPrefix + body.value, now)
              && r.0[OtpPrefix + body.value].payload == r.1.data.value
              && DigitsValue(r.1.data.value) == n
              && (forall k | k != OtpPrefix + body.value :: (k in r.0 <==> k in c) && (k in c ==> r.0[k] == c[k]))
  {
    match body
    case Err(_) => (c, Fail(400, "invalid request"))
    case Ok(email) =>
      if lookupFails || !Registered(db, email) then (c, PanicResponse())
      else
        var otp := OtpText(n);
        (Cache.Put(c, OtpPrefix + email, otp, now, OtpTtl), Response(200, true, "OTP created (dev mode)", Some(otp)))
  }

  datatype ResetRequest = ResetRequest(otp: string, newPassword: string)

  /** A GET whose error is dropped: the payload, or "" once the key is gone. */
  function StoredText(c: Cache.Store, key: string, now: Time): (r: string)
    ensures Cache.Live(c, key, now) ==> r == c[key].payload
    ensures !Cache.Live(c, key, now) ==> r == ""
  {
    if key in c && now < c[key].expiresAt then c[key].payload else ""
  }

  /** The first index from `from` on whose stored text equals otp. */
  function FirstMatch(c: Cache.Store, now: Time, keys: seq<string>, otp: string, from: nat): (r: Option<nat>)
    requires from <= |keys|
    ensures r.Some? ==>
              && from <= r.value < |keys|
              && StoredText(c, keys[r.value], now) == otp
              && forall j | from <= j < r.value :: StoredText(c, keys[j], now) != otp
    ensures r.None? ==> forall j | from <= j < |keys| :: StoredText(c, keys[j], now) != otp
    decreases |keys| - from
  {
    if from == |keys| then None
    else if StoredText(c, keys[from], now) == otp then Some(from)
    else FirstMatch(c, now, keys, otp, from + 1)
  }

  /**
   * controllers.ResetPassword. keys is what KEYS "otp:*" returned, in its
   * order; the first whose value equals the code names the email. The
   * UPDATE's error is ignored (updateFails): the code is consumed and the
   * answer is 200 either way.
   */
  function ResetPassword(db: Db, c: Cache.Store, now: Time, keys: seq<string>, body: Result<ResetRequest>,
                         hash: string, updateFails: bool): (r: (Db, Cache.Store, Response<string>))
    ensures body.Err? ==> r == (db, c, Fail(400, "invalid request"))
    ensures body.Ok? ==>
              var m := FirstMatch(c, now, keys, body.value.otp, 0);
              && (r.2.status == 200 <==> m.Some? && TrimPrefix(keys[m.value], OtpPrefix) != "")
              && (r.2.status != 200 ==> r == (db, c, Fail(400, "invalid or expired OTP")))
              && (r.2.status == 200 ==>
                    var email := TrimPrefix(keys[m.value], OtpPrefix);
                    && r.0 == (if updateFails then db else db.(users := Users.SetPasswordByEmail(db.users, email, hash)))
                    && r.1 == c - {OtpPrefix + email}
                    && r.2 == Response(200, true, "password updated", None))
  {
    match body
    case Err(_) => (db, c, Fail(400, "invalid request"))
    case Ok(req) =>
      var email := match FirstMatch(c, now, keys, req.otp, 0)
                   case None => ""
                   case Some(i) => TrimPrefix(keys[i], OtpPrefix);
      if email == "" then (db, c, Fail(400, "invalid or expired OTP"))
      else
        var db1 := if updateFails then db else db.(users := Users.SetPasswordByEmail(db.users, email, hash));
        (db1, c - {OtpPrefix + email}, Response(200, true, "password updated", None))
  }

  lemma TrimOtpPrefix(email: string)
    ensures TrimPrefix(OtpPrefix + email, OtpPrefix) == email
  {
    assert (OtpPrefix + email)[..|OtpPrefix|] == OtpPrefix;
    assert (OtpPrefix + email)[|OtpPrefix|..] == email;
  }

  /** Every key KEYS "otp:*" can list starts with the prefix. */
  predicate OtpKeys(keys: seq<string>) {
    forall k | k in keys :: IsPrefix(OtpPrefix, k)
  }

  /**
   * The code ForgotPassword hands out resets that email's password within
   * ten minutes, provided no key KEYS lists before the email's own holds the
   * same six digits. Afterwards the email's key is gone, so a second use of
   * the code never reaches that email again; it answers 400 unless another
   * listed key holds the same code.
   */
  lemma ForgotThenReset(db: Db, c: Cache.Store, now: Time, later: Time, email: string, n: nat, pw: string, hash: string,
                        keys: seq<string>, p: nat)
    requires n < 999999 && email != "" && Registered(db, email)
    requires now <= later < now + OtpTtl
    requires OtpKeys(keys) && p < |keys| && keys[p] == OtpPrefix + email
    requires forall k | 0 <= k < p :: keys[k] == OtpPrefix + email || StoredText(c, keys[k], later) != OtpText(n)
    ensures var c1 := ForgotPassword(db, c, now, Ok(email), false, n).0;
            var r := ResetPassword(db, c1, later, keys, Ok(ResetRequest(OtpText(n), pw)), hash, false);
            var r2 := ResetPassword(r.0, r.1, later, keys, Ok(ResetRequest(OtpText(n), pw)), hash, false);
            && r.2.status == 200
            && r.0.users == Users.SetPasswordByEmail(db.users, email, hash)
            && r.1 == c1 - {OtpPrefix + email}
            && (forall u | u in r.0.users && r.0.users[u].email == email :: u in r2.0.users && r2.0.users[u] == r.0.users[u])
            && ((forall k | 0 <= k < |keys| && keys[k] != OtpPrefix + email :: StoredText(c, keys[k], later) != OtpText(n))
                ==> r2.2.status == 400)
  {
    var key := OtpPrefix + email;
    var otp := OtpText(n);
    var req := ResetRequest(otp, pw);
    var c1 := ForgotPassword(db, c, now, Ok(email), false, n).0;
    TrimOtpPrefix(email);
    assert StoredText(c1, keys[p], later) == otp;
    assert forall k | 0 <= k < |keys| && keys[k] != key :: StoredText(c1, keys[k], later) == StoredText(c, keys[k], later);
    var m := FirstMatch(c1, later, keys, otp, 0);
    assert m.Some? && keys[m.value] == key;
    var r := ResetPassword(db, c1, later, keys, Ok(req), hash, false);
    assert r.1 == c1 - {key};
    assert forall k | 0 <= k < |keys| :: StoredText(r.1, keys[k], later) == if keys[k] == key then "" else StoredText(c, keys[k], later);
    var m2 := FirstMatch(r.1, later, keys, otp, 0);
    if m2.Some? {
      var other := keys[m2.value];
      assert other != key;
      assert IsPrefix(OtpPrefix, other);
      assert TrimPrefix(other, OtpPrefix) != email;
    }
    forall u | u in r.0.users && r.0.users[u].email == email
      ensures var r2 := ResetPassword(r.0, r.1, later, keys, Ok(req), hash, false);
              u in r2.0.users && r2.0.users[u] == r.0.users[u]
    {
      ResetTouchesOnlyThatEmail(r.0, r.1, later, keys, req, hash, false, u);
    }
  }

  /**
   * Two live codes can collide: when KEYS lists b's key before a's and both
   * hold the same digits, a's code resets b's password and a's key stays.
   */
  lemma CollisionResetsOtherEmail(db: Db, c: Cache.Store, now: Time, later: Time, a: string, b: string, n: nat,
                                  pw: string, hash: string)
    requires n < 999999 && a != "" && b != "" && a != b && Registered(db, a)
    requires now <= later < now + OtpTtl
    requires Cache.Live(c, OtpPrefix + b, later) && c[OtpPrefix + b].payload == OtpText(n)
    ensures var c1 := ForgotPassword(db, c, now, Ok(a), false, n).0;
            var r := ResetPassword(db, c1, later, [OtpPrefix + b, OtpPrefix + a], Ok(ResetRequest(OtpText(n), pw)), hash, false);
            && r.2.status == 200
            && r.0.users == Users.SetPasswordByEmail(db.users, b, hash)
            && Cache.Live(r.1, OtpPrefix + a, later)
  {
    TrimOtpPrefix(b);
    assert OtpPrefix + b != OtpPrefix + a by {
      assert (OtpPrefix + b)[|OtpPrefix|..] == b;
      assert (OtpPrefix + a)[|OtpPrefix|..] == a;
    }
  }

  /**
   * A key listed by KEYS that expires or is deleted before its GET reads as
   * "", so an empty code resets the password of that key's email.
   */
  lemma EmptyCodeMatchesVanishedKey(db: Db, c: Cache.Store, now: Time, email: string, pw: string, hash: string)
    requires email != "" && !Cache.Live(c, OtpPrefix + email, now)
    ensures var r := ResetPassword(db, c, now, [OtpPrefix + email], Ok(ResetRequest("", pw)), hash, false);
            && r.2.status == 200
            && r.0.users == Users.SetPasswordByEmail(db.users, email, hash)
  {
    TrimOtpPrefix(email);
  }

  /** Only rows carrying the matched email change; every other user keeps its password. */
  lemma ResetTouchesOnlyThatEmail(db: Db, c: Cache.Store, now: Time, keys: seq<string>, req: ResetRequest,
                                  hash: string, updateFails: bool, u: int)
    requires u in db.users
    requires var m := FirstMatch(c, now, keys, req.otp, 0);
             m.None? || db.users[u].email != TrimPrefix(keys[m.value], OtpPrefix)
    ensures var r := ResetPassword(db, c, now, keys, Ok(req), hash, updateFails);
            u in r.0.users && r.0.users[u] == db.users[u]
  {
  }
}

=== FILE: cache.dfy ===
/**
 * The Redis cache the listing handlers put in front of the database: a map
 * from key to (payload, expiry), read through by GetOrCompute and cleared
 * by prefix scans after writes.
 */
module Cache {
  import opened Wrappers
  import opened Text

  /** Seconds since the Unix epoch. */
  type Time = int

  /** A stored payload and the instant it expires. */
  datatype Entry = Entry(payload: string, expiresAt: Time)

  type Store = map<string, Entry>

  /** The TTLs handlers pass to Set, in seconds. */
  const ProductTtl: nat := 15 * 60
  const FavoriteTtl: nat := 15 * 60
  const UserListTtl: nat := 10 * 60

  /** The key holds a value that has not expired at now. */
  predicate Live(c: Store, key: string, now: Time) {
    key in c && now < c[key].expiresAt
  }

  /**
   * A Redis GET as the handlers test it: a hit is a live, non-empty payload
   * read without a client error.
   */
  function Lookup(c: Store, key: string, now: Time, getFails: bool): (r: Option<string>)
    ensures r.Some? <==> !getFails && Live(c, key, now) && c[key].payload != ""
    ensures r.Some? ==> r.value == c[key].payload
  {
    if !getFails && key in c && now < c[key].expiresAt && c[key].payload != "" then Some(c[key].payload)
    else None
  }

  /** Set(key, payload, ttl): overwrites the key, live for ttl seconds from now. */
  function Put(c: Store, key: string, payload: string, now: Time, ttl: nat): (r: Store)
    ensures key in r && r[key] == Entry(payload, now + ttl)
    ensures forall k | k != key :: (k in r <==> k in c) && (k in c ==> r[k] == c[k])
  {
    c[key := Entry(payload, now + ttl)]
  }

  /** SCAN MATCH prefix* and DEL of every key it returns. */
  function InvalidatePrefix(c: Store, prefix: string): (r: Store)
    ensures forall k :: k in r <==> k in c && !IsPrefix(prefix, k)
    ensures forall k | k in r :: r[k] == c[k]
  {
    map k | k in c && !IsPrefix(prefix, k) :: c[k]
  }

  // ---------------------------------------------------------------------------
  // Cache-aside

  /**
   * How a read-through ended: served from the cache, computed and stored,
   * computed but not stored (the payload could not be encoded), or failed.
   */
  datatype Outcome<T> = Cached(payload: string) | Stored(value: T) | NotStored(value: T) | Failed(msg: string)

  /**
   * On a hit, the cached payload, without computing. On a miss, the
   * computed value; when it is Ok and encodes, it is stored for ttl seconds.
   * encode is json.Marshal: None when marshalling fails.
   */
  function GetOrCompute<T>(c: Store, key: string, now: Time, ttl: nat, getFails: bool,
                           computed: Result<T>, encode: T -> Option<string>): (r: (Store, Outcome<T>))
    ensures Lookup(c, key, now, getFails).Some? ==> r == (c, Cached(c[key].payload))
    ensures Lookup(c, key, now, getFails).None? && computed.Err? ==> r == (c, Failed(computed.msg))
    ensures Lookup(c, key, now, getFails).None? && computed.Ok? && encode(computed.value).None? ==>
              r == (c, NotStored(computed.value))
    ensures Lookup(c, key, now, getFails).None? && computed.Ok? && encode(computed.value).Some? ==>
              r == (Put(c, key, encode(computed.value).value, now, ttl), Stored(computed.value))
  {
    match Lookup(c, key, now, getFails)
    case Some(p) => (c, Cached(p))
    case None =>
      match computed
      case Err(m) => (c, Failed(m))
      case Ok(v) =>
        match encode(v)
        case None => (c, NotStored(v))
        case Some(p) => (Put(c, key, p, now, ttl), Stored(v))
  }

  /** On a hit the computation is never consulted: any two computations give the same result. */
  lemma HitIgnoresComputation<T>(c: Store, key: string, now: Time, ttl: nat, getFails: bool,
                                 a: Result<T>, b: Result<T>, encode: T -> Option<string>)
    requires Lookup(c, key, now, getFails).Some?
    ensures GetOrCompute(c, key, now, ttl, getFails, a, encode) == GetOrCompute(c, key, now, ttl, getFails, b, encode)
  {
  }

  /**
   * A value stored with a non-empty payload is served from the cache by any
   * later read before the TTL runs out.
   */
  lemma StoredValueIsServedUntilExpiry<T>(c: Store, key: string, now: Time, later: Time, ttl: nat, getFails: bool,
                                          computed: Result<T>, again: Result<T>, encode: T -> Option<string>)
    requires GetOrCompute(c, key, now, ttl, getFails, computed, encode).1.Stored?
    requires computed.Ok? && encode(computed.value).Some? && encode(computed.value).value != ""
    requires now <= later < now + ttl
    ensures var c1 := GetOrCompute(c, key, now, ttl, getFails, computed, encode).0;
            GetOrCompute(c1, key, later, ttl, false, again, encode) == (c1, Cached(encode(computed.value).value))
  {
  }

  /** An invalidated key misses until it is stored again. */
  lemma InvalidatedKeyMisses(c: Store, prefix: string, key: string, now: Time, getFails: bool)
    requires IsPrefix(prefix, key)
    ensures Lookup(InvalidatePrefix(c, prefix), key, now, getFails).None?
  {
  }

  /** Keys outside the prefix keep their entries, expiry included. */
  lemma InvalidationKeepsOtherKeys(c: Store, prefix: string, key: string, now: Time, getFails: bool)
    requires !IsPrefix(prefix, key)
    ensures Lookup(InvalidatePrefix(c, prefix), key, now, getFails) == Lookup(c, key, now, getFails)
  {
  }

  // ---------------------------------------------------------------------------
  // The three key schemes and the two invalidation patterns

  const ProductPattern: string := "/products"
  const UserPattern: string := "/admin/user"

  /** Product listing: "products:page:<page>:limit:<limit>" of the clamped values. */
  function ProductKey(page: int, limit: int): (r: string)
    ensures IsPrefix("products:page:", r)
  {
    "products:page:" + IntToString(page) + ":limit:" + IntToString(limit)
  }

  /** User listing: the request path, then "?page=<page>&limit=<limit>". */
  function UserListKey(path: string, page: int, limit: int): (r: string)
    ensures IsPrefix(path, r)
  {
    path + "?page=" + IntToString(page) + "&limit=" + IntToString(limit)
  }

  /** Favourites: the raw request URI. */
  function FavoriteKey(requestUri: string): string {
    requestUri
  }

  /** "products:…" differs from "/products" at position 0: product writes never evict listing entries. */
  lemma ProductKeysEscapeProductPattern(page: int, limit: int)
    ensures !IsPrefix(ProductPattern, ProductKey(page, limit))
  {
    NotPrefixAt(ProductPattern, ProductKey(page, limit), 0);
  }

  /** Whatever the cache holds, a product write leaves every listing entry as it was. */
  lemma ProductWritesKeepListingEntries(c: Store, page: int, limit: int, now: Time, getFails: bool)
    ensures var key := ProductKey(page, limit);
            Lookup(InvalidatePrefix(c, ProductPattern), key, now, getFails) == Lookup(c, key, now, getFails)
  {
    ProductKeysEscapeProductPattern(page, limit);
  }

  /** Listing keys of the "/admin/user" route are evicted by the user-write pattern. */
  lemma UserWritesEvictUserListings(c: Store, path: string, page: int, limit: int, now: Time, getFails: bool)
    requires IsPrefix(UserPattern, path)
    ensures Lookup(InvalidatePrefix(c, UserPattern), UserListKey(path, page, limit), now, getFails).None?
  {
    var key := UserListKey(path, page, limit);
    assert key[..|path|] == path;
    assert key[..|UserPattern|] == path[..|UserPattern|];
  }

  /** A "/favorite-product…" URI escapes both patterns, at position 1. */
  lemma FavoriteKeysEscapeBothPatterns(requestUri: string)
    requires IsPrefix("/favorite-product", requestUri)
    ensures !IsPrefix(ProductPattern, FavoriteKey(requestUri))
    ensures !IsPrefix(UserPattern, FavoriteKey(requestUri))
  {
    assert requestUri[1] == "/favorite-product"[1];
    NotPrefixAt(ProductPattern, requestUri, 1);
    NotPrefixAt(UserPattern, requestUri, 1);
  }

  /** Distinct (page, limit) pairs get distinct product keys. */
  lemma ProductKeyInjective(p1: int, l1: int, p2: int, l2: int)
    requires ProductKey(p1, l1) == ProductKey(p2, l2)
    ensures p1 == p2 && l1 == l2
  {
    var head := "products:page:";
    var s1, s2 := IntToString(p1), IntToString(p2);
    var u1, u2 := IntToString(l1), IntToString(l2);
    var t1 := s1 + ":limit:" + u1;
    var t2 := s2 + ":limit:" + u2;
    assert ProductKey(p1, l1) == head + t1 && ProductKey(p2, l2) == head + t2;
    assert t1 == t2 by {
      assert t1 == (head + t1)[|head|..];
      assert t2 == (head + t2)[|head|..];
    }
    IntToStringAlphabet(p1, ':');
    IntToStringAlphabet(p2, ':');
    SplitAtSeparator(s1, u1, s2, u2, ":limit:");
    IntToStringInjective(p1, p2);
    IntToStringInjective(l1, l2);
  }

  /** Within one path free of '?' and '&', distinct (page, limit) pairs get distinct user-list keys. */
  lemma UserListKeyInjective(path: string, p1: int, l1: int, p2: int, l2: int)
    requires '?' !in path && '&' !in path
    requires UserListKey(path, p1, l1) == UserListKey(path, p2, l2)
    ensures p1 == p2 && l1 == l2
  {
    var a1 := path + "?page=" + IntToString(p1);
    var a2 := path + "?page=" + IntToString(p2);
    IntToStringAlphabet(p1, '&');
    IntToStringAlphabet(p2, '&');
    assert '&' !in a1 && '&' !in a2;
    SplitAtSeparator(a1, IntToString(l1), a2, IntToString(l2), "&limit=");
    SplitAtSeparator(path, IntToString(p1), path, IntToString(p2), "?page=");
    IntToStringInjective(p1, p2);
    IntToStringInjective(l1, l2);
  }
}

=== FILE: cart.dfy ===
/**
 * models.AddToCart: find or create the user's cart, price the line, then
 * merge into the line with the same identity or insert a new one. The
 * statements run one by one without a transaction.
 */
module Cart {
  import opened Wrappers
  import opened Store

  /** ReqCart after binding; userId is whatever the caller put there. */
  datatype AddRequest = AddRequest(
    userId: int,
    productId: int,
    variantId: Option<int>,
    sizeId: Option<int>,
    qty: int)

  /** The database call that fails, if any. */
  datatype Fault =
    | NoFault
    | CartInsertFails   // INSERT INTO cart ... RETURNING id
    | CheckFails        // the identity lookup errors for a reason other than "no rows"
    | PriceFails        // the price query errors although a row would match (a lost connection)
    | WriteFails        // the final UPDATE or INSERT of cart_items

  /** The identity of a cart line: NULL variant and size ids compare as 0. */
  datatype LineKey = LineKey(cartId: int, productId: int, variant: int, size: int)

  function KeyOf(l: CartLine): LineKey {
    LineKey(l.cartId, l.productId, l.variantId.GetOr(0), l.sizeId.GetOr(0))
  }

  function RequestKey(cartId: int, req: AddRequest): LineKey {
    LineKey(cartId, req.productId, req.variantId.GetOr(0), req.sizeId.GetOr(0))
  }

  /** At most one line per identity, and every quantity positive. */
  predicate WellFormedLines(lines: seq<CartLine>) {
    && (forall i, j | 0 <= i < j < |lines| :: KeyOf(lines[i]) != KeyOf(lines[j]))
    && (forall i | 0 <= i < |lines| :: lines[i].qty > 0)
  }

  /** An existing row after UPDATE ... SET qty = qty + q, subtotal = (qty + q) * price. */
  function MergedLine(prev: CartLine, req: AddRequest, price: real): CartLine {
    prev.(qty := prev.qty + req.qty, subtotal := (prev.qty + req.qty) as real * price)
  }

  /** The row a first add of req inserts into cart cartId. */
  function NewLine(id: int, cartId: int, req: AddRequest, price: real): CartLine {
    CartLine(id, cartId, req.productId, req.variantId, req.sizeId, req.qty, price * req.qty as real)
  }

  /** The first line with identity k. */
  function FindLine(lines: seq<CartLine>, k: LineKey): (r: Option<nat>)
    ensures r.Some? ==> r.value < |lines| && KeyOf(lines[r.value]) == k
    ensures r.Some? ==> forall i | 0 <= i < r.value :: KeyOf(lines[i]) != k
    ensures r.None? <==> forall i | 0 <= i < |lines| :: KeyOf(lines[i]) != k
  {
    if |lines| == 0 then None
    else if KeyOf(lines[0]) == k then Some(0)
    else
      match FindLine(lines[1..], k)
      case None =>
        assert forall i | 1 <= i < |lines| :: lines[i] == lines[1..][i - 1];
        None
      case Some(j) =>
        assert forall i | 1 <= i < j + 1 :: lines[i] == lines[1..][i - 1];
        Some(j + 1)
  }

  /**
   * The unit price: the price of the product_size row the request names, or
   * the product's cheapest size when it names none. None is the query error
   * (no such row, or MIN over no rows scanned into a float64). The size row
   * is not checked to belong to the product.
   */
  function UnitPrice(db: Db, req: AddRequest): (r: Option<real>)
    ensures req.sizeId.Some? ==>
              && (r.Some? ==> exists i | 0 <= i < |db.sizes| :: db.sizes[i].id == req.sizeId.value && db.sizes[i].price == r.value)
              && (r.None? <==> forall i | 0 <= i < |db.sizes| :: db.sizes[i].id != req.sizeId.value)
    ensures req.sizeId.None? ==>
              && (r.None? <==> forall i | 0 <= i < |db.sizes| :: db.sizes[i].productId != req.productId)
              && (r.Some? ==> forall i | 0 <= i < |db.sizes| && db.sizes[i].productId == req.productId :: r.value <= db.sizes[i].price)
              && (r.Some? ==> exists i | 0 <= i < |db.sizes| :: db.sizes[i].productId == req.productId && db.sizes[i].price == r.value)
  {
    match req.sizeId
    case Some(sid) =>
      (match FindSize(db.sizes, sid)
       case Some(row) =>
         var i :| 0 <= i < |db.sizes| && db.sizes[i] == row;
         Some(row.price)
       case None => None)
    case None => MinSizePrice(db.sizes, req.productId)
  }

  /** The cart of the user, created with id newCartId when there is none. */
  function CartFor(db: Db, uid: int, newCartId: int): (r: Db)
    ensures uid in r.carts
    ensures uid in db.carts ==> r == db
    ensures uid !in db.carts ==> r == db.(carts := db.carts[uid := newCartId]) && r.carts[uid] == newCartId
  {
    if uid in db.carts then db else db.(carts := db.carts[uid := newCartId])
  }

  /**
   * models.AddToCart. newCartId and newLineId are the ids the inserts would
   * return. The result carries the cart id.
   */
  function AddToCart(db: Db, req: AddRequest, newCartId: int, newLineId: int, fault: Fault): (r: (Db, Result<int>))
    // cart_items is touched only on success; a cart created on the way stays
    ensures r.1.Err? ==> r.0.cartItems == db.cartItems
    ensures r.0.carts == db.carts || (req.userId !in db.carts && r.0.carts == db.carts[req.userId := newCartId])
    ensures r.1.Ok? ==> req.userId in r.0.carts && r.1.value == r.0.carts[req.userId]
    ensures r.1.Ok? && req.userId in db.carts ==> r.1.value == db.carts[req.userId]
    // every other table is left alone
    ensures r.0 == db.(carts := r.0.carts, cartItems := r.0.cartItems)
    // at most one row is added
    ensures |db.cartItems| <= |r.0.cartItems| <= |db.cartItems| + 1
    // a failed price query answers an error after the cart lookup or insert
    ensures fault == PriceFails ==> r.1.Err? && r.0 == CartFor(db, req.userId, newCartId)
  {
    if req.userId !in db.carts && fault == CartInsertFails then (db, Err("failed to create cart"))
    else
      var db1 := CartFor(db, req.userId, newCartId);
      var cartId := db1.carts[req.userId];
      var existing := if fault == CheckFails then None else FindLine(db1.cartItems, RequestKey(cartId, req));
      match if fault == PriceFails then None else UnitPrice(db1, req)
      case None => (db1, Err("failed to read price"))
      case Some(price) =>
        if fault == WriteFails then (db1, Err("failed to write cart item"))
        else
          match existing
          case Some(i) =>
            (db1.(cartItems := db1.cartItems[i := MergedLine(db1.cartItems[i], req, price)]), Ok(cartId))
          case None =>
            (db1.(cartItems := db1.cartItems + [NewLine(newLineId, cartId, req, price)]), Ok(cartId))
  }

  // ---------------------------------------------------------------------------
  // Properties

  /** Re-adding an existing identity adds the quantities and reprices the whole line. */
  lemma AddMergesExistingLine(db: Db, req: AddRequest, newCartId: int, newLineId: int, i: nat)
    requires var cartId := CartFor(db, req.userId, newCartId).carts[req.userId];
             i < |db.cartItems| && KeyOf(db.cartItems[i]) == RequestKey(cartId, req)
    requires forall j | 0 <= j < i :: KeyOf(db.cartItems[j]) != KeyOf(db.cartItems[i])
    requires UnitPrice(db, req).Some?
    ensures var r := AddToCart(db, req, newCartId, newLineId, NoFault);
            r.1 == Ok(CartFor(db, req.userId, newCartId).carts[req.userId])
    ensures var r := AddToCart(db, req, newCartId, newLineId, NoFault);
            r.0.cartItems == db.cartItems[i := MergedLine(db.cartItems[i], req, UnitPrice(db, req).value)]
  {
    var db1 := CartFor(db, req.userId, newCartId);
    assert UnitPrice(db1, req) == UnitPrice(db, req) by { assert db1.sizes == db.sizes; }
    assert db1.cartItems == db.cartItems;
    assert FindLine(db1.cartItems, RequestKey(db1.carts[req.userId], req)) == Some(i);
  }

  /** Faults of calls that did not happen, or whose error is ignored, change nothing. */
  lemma UnusedFaultIsHarmless(db: Db, req: AddRequest, newCartId: int, newLineId: int)
    requires req.userId in db.carts
    ensures AddToCart(db, req, newCartId, newLineId, CartInsertFails) == AddToCart(db, req, newCartId, newLineId, NoFault)
  {
  }

  /** A new identity appends one line holding the requested quantity at the looked-up price. */
  lemma AddInsertsNewLine(db: Db, req: AddRequest, newCartId: int, newLineId: int)
    requires var cartId := CartFor(db, req.userId, newCartId).carts[req.userId];
             forall j | 0 <= j < |db.cartItems| :: KeyOf(db.cartItems[j]) != RequestKey(cartId, req)
    requires UnitPrice(db, req).Some?
    ensures var r := AddToCart(db, req, newCartId, newLineId, NoFault);
            var cartId := CartFor(db, req.userId, newCartId).carts[req.userId];
            r.1 == Ok(cartId)
    ensures var r := AddToCart(db, req, newCartId, newLineId, NoFault);
            var cartId := CartFor(db, req.userId, newCartId).carts[req.userId];
            var price := UnitPrice(db, req).value;
            r.0.cartItems == db.cartItems + [NewLine(newLineId, cartId, req, price)]
  {
    var db1 := CartFor(db, req.userId, newCartId);
    var cartId := db1.carts[req.userId];
    assert UnitPrice(db1, req) == UnitPrice(db, req) by { assert db1.sizes == db.sizes; }
    assert db1.cartItems == db.cartItems;
    assert FindLine(db1.cartItems, RequestKey(cartId, req)).None?;
  }

  lemma ReplacePreservesWellFormed(lines: seq<CartLine>, i: nat, line: CartLine)
    requires WellFormedLines(lines) && i < |lines|
    requires KeyOf(line) == KeyOf(lines[i]) && line.qty > 0
    ensures WellFormedLines(lines[i := line])
  {
    var s := lines[i := line];
    forall j | 0 <= j < |s| ensures KeyOf(s[j]) == KeyOf(lines[j]) && s[j].qty > 0 {
    }
  }

  lemma AppendPreservesWellFormed(lines: seq<CartLine>, line: CartLine)
    requires WellFormedLines(lines)
    requires forall j | 0 <= j < |lines| :: KeyOf(lines[j]) != KeyOf(line)
    requires line.qty > 0
    ensures WellFormedLines(lines + [line])
  {
    var s := lines + [line];
    assert forall j | 0 <= j < |lines| :: s[j] == lines[j];
    assert s[|lines|] == line;
  }

  /**
   * Sequential adds keep one line per identity with positive quantities,
   * provided the identity lookup answers and the quantity is positive (the
   * handler's guard).
   */
  lemma AddPreservesWellFormedLines(db: Db, req: AddRequest, newCartId: int, newLineId: int, fault: Fault)
    requires WellFormedLines(db.cartItems)
    requires req.qty > 0 && fault != CheckFails
    ensures WellFormedLines(AddToCart(db, req, newCartId, newLineId, fault).0.cartItems)
  {
    var r := AddToCart(db, req, newCartId, newLineId, fault);
    if r.1.Ok? {
      assert fault == NoFault || (fault == CartInsertFails && req.userId in db.carts);
      if fault == CartInsertFails {
        UnusedFaultIsHarmless(db, req, newCartId, newLineId);
      }
      assert UnitPrice(db, req).Some? by {
        assert UnitPrice(CartFor(db, req.userId, newCartId), req) == UnitPrice(db, req) by {
          assert CartFor(db, req.userId, newCartId).sizes == db.sizes;
        }
      }
      var cartId := CartFor(db, req.userId, newCartId).carts[req.userId];
      var price := UnitPrice(db, req).value;
      match FindLine(db.cartItems, RequestKey(cartId, req))
      case Some(i) =>
        AddMergesExistingLine(db, req, newCartId, newLineId, i);
        ReplacePreservesWellFormed(db.cartItems, i, MergedLine(db.cartItems[i], req, price));
      case None =>
        AddInsertsNewLine(db, req, newCartId, newLineId);
        AppendPreservesWellFormed(db.cartItems, NewLine(newLineId, cartId, req, price));
    }
  }

  /**
   * When pricing fails after a cart was created, because no row matches or
   * the query itself errors, the new cart row stays behind.
   */
  lemma CreatedCartSurvivesPriceFailure(db: Db, req: AddRequest, newCartId: int, newLineId: int, fault: Fault)
    requires req.userId !in db.carts && fault != CartInsertFails
    requires UnitPrice(db, req).None? || fault == PriceFails
    ensures var r := AddToCart(db, req, newCartId, newLineId, fault);
            && r.1.Err?
            && r.0.carts == db.carts[req.userId := newCartId]
            && r.0.cartItems == db.cartItems
  {
    assert UnitPrice(CartFor(db, req.userId, newCartId), req) == UnitPrice(db, req) by {
      assert CartFor(db, req.userId, newCartId).sizes == db.sizes;
    }
  }

  /** A variant id of 0 and no variant at all name the same line. */
  lemma NullVariantMatchesZero(cartId: int, req: AddRequest)
    requires req.variantId == Some(0)
    ensures RequestKey(cartId, req) == RequestKey(cartId, req.(variantId := None))
  {
  }

  /**
   * When the identity lookup errors, the call takes the insert path even if
   * the line exists, and the cart ends up with two lines of one identity.
   */
  lemma CheckErrorDuplicatesLine(db: Db, req: AddRequest, newCartId: int, newLineId: int)
    requires req.userId in db.carts
    requires exists i | 0 <= i < |db.cartItems| :: KeyOf(db.cartItems[i]) == RequestKey(db.carts[req.userId], req)
    requires UnitPrice(db, req).Some?
    ensures !WellFormedLines(AddToCart(db, req, newCartId, newLineId, CheckFails).0.cartItems)
  {
    var i :| 0 <= i < |db.cartItems| && KeyOf(db.cartItems[i]) == RequestKey(db.carts[req.userId], req);
    var r := AddToCart(db, req, newCartId, newLineId, CheckFails);
    assert r.0.cartItems == db.cartItems + [NewLine(newLineId, db.carts[req.userId], req, UnitPrice(db, req).value)];
    assert r.0.cartItems[i] == db.cartItems[i];
    assert KeyOf(r.0.cartItems[|db.cartItems|]) == KeyOf(r.0.cartItems[i]);
  }
}

=== FILE: cart_handler.dfy ===
/**
 * controllers.AddToCart and controllers.DeleteCart: the request guards in
 * front of the cart store. The authenticated user id comes from the
 * context the auth middleware filled in.
 */
module CartHandler {
  import opened Wrappers
  import opened Text
  import opened Store
  import opened Http
  import Cart

  /**
   * controllers.AddToCart after binding: a non-positive quantity is refused
   * before the store is called; the body's user id is replaced by the
   * authenticated one.
   */
  function AddToCart(db: Db, authUid: int, req: Cart.AddRequest, newCartId: int, newLineId: int,
                     fault: Cart.Fault): (r: (Db, Response<int>))
    ensures req.qty <= 0 ==> r == (db, Fail(400, "Quantity must be greater than 0"))
    ensures req.qty > 0 ==>
              var s := Cart.AddToCart(db, req.(userId := authUid), newCartId, newLineId, fault);
              && r.0 == s.0
              && (s.1.Err? ==> r.1 == Fail(500, s.1.msg))
              && (s.1.Ok? ==> r.1 == Success("Item added to cart", s.1.value))
    ensures r.1.status == 200 ==> authUid in r.0.carts && r.1.data == Some(r.0.carts[authUid])
  {
    if req.qty <= 0 then (db, Fail(400, "Quantity must be greater than 0"))
    else
      var s := Cart.AddToCart(db, req.(userId := authUid), newCartId, newLineId, fault);
      match s.1
      case Err(msg) => (s.0, Fail(500, msg))
      case Ok(cartId) => (s.0, Success("Item added to cart", cartId))
  }

  /** Whatever user id the body names, the call acts for the authenticated user. */
  lemma BodyUserIdIgnored(db: Db, authUid: int, req: Cart.AddRequest, other: int, newCartId: int,
                          newLineId: int, fault: Cart.Fault)
    ensures AddToCart(db, authUid, req, newCartId, newLineId, fault) ==
            AddToCart(db, authUid, req.(userId := other), newCartId, newLineId, fault)
  {
    assert req.(userId := authUid) == req.(userId := other).(userId := authUid);
  }

  /**
   * Through the handler the cart stays well formed on every call whose
   * identity lookup answers: the quantity guard supplies positivity.
   */
  lemma HandlerKeepsCartWellFormed(db: Db, authUid: int, req: Cart.AddRequest, newCartId: int,
                                   newLineId: int, fault: Cart.Fault)
    requires Cart.WellFormedLines(db.cartItems) && fault != Cart.CheckFails
    ensures Cart.WellFormedLines(AddToCart(db, authUid, req, newCartId, newLineId, fault).0.cartItems)
  {
    if req.qty > 0 {
      Cart.AddPreservesWellFormedLines(db, req.(userId := authUid), newCartId, newLineId, fault);
    }
  }

  /** The store call DeleteCart makes: (authenticated user id, cart item id). */
  datatype DeleteCall = DeleteCall(userId: int, itemId: int)

  /**
   * controllers.DeleteCart. deleteItem stands for models.DeleteCartItem and
   * answers None on success or the error text. strconv.ParseInt(s, 10, 64)
   * accepts exactly the texts strconv.Atoi accepts on a 64-bit platform.
   */
  function DeleteCart(authUid: int, idText: string, deleteItem: DeleteCall -> Option<string>):
    (r: (Option<DeleteCall>, Response<int>))
    ensures r.0.Some? <==> Atoi(idText).Number?
    ensures r.0.Some? ==> r.0.value == DeleteCall(authUid, Atoi(idText).n)
    ensures r.0.None? ==> r.1 == Fail(400, "Invalid cart item id")
    ensures r.0.Some? ==> match deleteItem(r.0.value)
                          case None => r.1 == Response(200, true, "Product removed from cart", None)
                          case Some(e) => r.1 == Fail(500, e)
  {
    match Atoi(idText)
    case Number(id) =>
      var call := DeleteCall(authUid, id);
      (Some(call), match deleteItem(call)
                   case None => Response(200, true, "Product removed from cart", None)
                   case Some(e) => Fail(500, e))
    case _ => (None, Fail(400, "Invalid cart item id"))
  }

  /** An id that is not an optionally signed digit string never reaches the store. */
  lemma NonNumericIdNeverDeletes(authUid: int, idText: string, deleteItem: DeleteCall -> Option<string>)
    requires !WellFormedInteger(idText)
    ensures DeleteCart(authUid, idText, deleteItem) == (None, Fail(400, "Invalid cart item id"))
  {
  }

  /** Every printed int64 id reaches the store unchanged. */
  lemma PrintedIdDeletes(authUid: int, id: int, deleteItem: DeleteCall -> Option<string>)
    requires MinInt64 <= id <= MaxInt64
    ensures DeleteCart(authUid, IntToString(id), deleteItem).0 == Some(DeleteCall(authUid, id))
  {
    AtoiRoundTrip(id);
  }
}

=== FILE: catalog.dfy ===
/**
 * models/product.go: the public product listing (GetProducts) and the
 * admin one (GetProductsAdmin). Each is filter, then ORDER BY, then
 * OFFSET/LIMIT, plus a separate COUNT over the same filters.
 */
module Catalog {
  import opened Wrappers
  import opened Text
  import opened Store
  import opened Sorting
  import opened Paging

  // ---------------------------------------------------------------------------
  // Derived columns

  /** c.name through LEFT JOIN categories: None when the product has no (known) category. */
  function CategoryName(db: Db, p: Product): Option<string> {
    if p.categoryId.Some? && p.categoryId.value in db.categories then Some(db.categories[p.categoryId.value])
    else None
  }

  /**
   * The displayed min_price: COALESCE of the cheapest size and the product's
   * own price. None (NULL) when it has neither.
   */
  function DisplayPrice(db: Db, p: Product): (r: Option<real>)
    ensures (exists i | 0 <= i < |db.sizes| :: db.sizes[i].productId == p.id) ==>
              && r.Some?
              && (forall i | 0 <= i < |db.sizes| && db.sizes[i].productId == p.id :: r.value <= db.sizes[i].price)
              && (exists i | 0 <= i < |db.sizes| :: db.sizes[i].productId == p.id && db.sizes[i].price == r.value)
    ensures (forall i | 0 <= i < |db.sizes| :: db.sizes[i].productId != p.id) ==> r == p.price
  {
    match MinSizePrice(db.sizes, p.id)
    case Some(m) => Some(m)
    case None => p.price
  }

  /**
   * COALESCE(MIN(ps.price), 0): the price the min/max filters compare, and
   * the min_price of the favourites and admin listings. A product without
   * sizes has filter price 0, whatever its own price.
   */
  function FilterPrice(db: Db, p: Product): (r: real)
    ensures (forall i | 0 <= i < |db.sizes| :: db.sizes[i].productId != p.id) ==> r == 0.0
    ensures (exists i | 0 <= i < |db.sizes| :: db.sizes[i].productId == p.id) ==>
              && (forall i | 0 <= i < |db.sizes| && db.sizes[i].productId == p.id :: r <= db.sizes[i].price)
              && (exists i | 0 <= i < |db.sizes| :: db.sizes[i].productId == p.id && db.sizes[i].price == r)
  {
    MinSizePrice(db.sizes, p.id).GetOr(0.0)
  }

  // ---------------------------------------------------------------------------
  // Filters

  /** The optional filters of GetProducts, after the handler parsed them. */
  datatype Filters = Filters(search: string, categories: seq<int>, minPrice: int, maxPrice: int)

  /** p.name ILIKE '%s%' OR c.name ILIKE '%s%'; a NULL category name never matches. */
  predicate MatchesSearch(db: Db, p: Product, search: string) {
    ContainsFold(p.name, search) || (CategoryName(db, p).Some? && ContainsFold(CategoryName(db, p).value, search))
  }

  predicate InCategories(p: Product, categories: seq<int>) {
    |categories| == 0 || (p.categoryId.Some? && p.categoryId.value in categories)
  }

  /** A zero bound is no bound. */
  predicate PriceWithin(db: Db, p: Product, minPrice: int, maxPrice: int) {
    && (minPrice == 0 || FilterPrice(db, p) >= minPrice as real)
    && (maxPrice == 0 || FilterPrice(db, p) <= maxPrice as real)
  }

  predicate Matches(db: Db, p: Product, f: Filters) {
    MatchesSearch(db, p, f.search) && InCategories(p, f.categories) && PriceWithin(db, p, f.minPrice, f.maxPrice)
  }

  /** The rows of ps that keep admits, in table order. */
  function FilterBy(ps: seq<Product>, keep: Product -> bool): (r: seq<Product>)
    ensures |r| <= |ps|
    ensures forall x | x in r :: x in ps && keep(x)
    ensures forall x | x in ps && keep(x) :: x in r
  {
    if |ps| == 0 then []
    else if keep(ps[0]) then [ps[0]] + FilterBy(ps[1..], keep)
    else FilterBy(ps[1..], keep)
  }

  /** Each admitted row appears as often as in the table, so COUNT(*) is the length of the result. */
  lemma {:induction false} FilterByCounts(ps: seq<Product>, keep: Product -> bool)
    ensures forall x :: multiset(FilterBy(ps, keep))[x] == if keep(x) then multiset(ps)[x] else 0
  {
    if |ps| > 0 {
      assert ps == [ps[0]] + ps[1..];
      FilterByCounts(ps[1..], keep);
    }
  }

  /** The rows GetProducts filters in, in table order. */
  function Matching(db: Db, f: Filters): (r: seq<Product>)
    ensures forall x | x in r :: x in db.products && Matches(db, x, f)
    ensures forall x | x in db.products && Matches(db, x, f) :: x in r
  {
    FilterBy(db.products, p => Matches(db, p, f))
  }

  /** An empty search text matches every product: ILIKE '%%'. */
  lemma EmptySearchMatchesAll(db: Db, p: Product)
    ensures MatchesSearch(db, p, "")
  {
    assert IsPrefix(Lower(""), Lower(p.name));
  }

  // ---------------------------------------------------------------------------
  // The WHERE/HAVING conditions and their positional arguments

  /** A bound argument: the search text, the category id array, or a price bound. */
  datatype Arg = TextArg(text: string) | IdsArg(ids: seq<int>) | IntArg(n: int)

  datatype Kind = CategoryAny | MinPriceAtLeast | MaxPriceAtMost

  /** One appended condition, naming its argument as $placeholder. */
  datatype Condition = Condition(kind: Kind, placeholder: nat)

  /** The conditions appended so far, the args slice, and argIndex. */
  datatype Bound = Bound(conditions: seq<Condition>, args: seq<Arg>, argIndex: nat)

  /** Appends a condition on $argIndex, pushes its argument, and moves argIndex on. */
  function Push(b: Bound, kind: Kind, arg: Arg): Bound {
    Bound(b.conditions + [Condition(kind, b.argIndex)], b.args + [arg], b.argIndex + 1)
  }

  /**
   * $1 is the search text; the k-th appended condition uses $(k + 1); the
   * args slice has exactly argIndex - 1 entries, so each $k binds args[k - 1].
   */
  predicate Numbered(b: Bound) {
    && |b.args| >= 1
    && |b.args| == b.argIndex - 1
    && |b.conditions| == |b.args| - 1
    && (forall i | 0 <= i < |b.conditions| :: b.conditions[i].placeholder == i + 2)
  }

  /** The condition holds for p with its placeholder bound to arg. */
  predicate Holds(db: Db, p: Product, kind: Kind, arg: Arg) {
    match kind
    case CategoryAny => arg.IdsArg? && p.categoryId.Some? && p.categoryId.value in arg.ids
    case MinPriceAtLeast => arg.IntArg? && FilterPrice(db, p) >= arg.n as real
    case MaxPriceAtMost => arg.IntArg? && FilterPrice(db, p) <= arg.n as real
  }

  /** The query's filter with every $k bound to args[k - 1]. */
  predicate Satisfies(db: Db, p: Product, b: Bound)
    requires Numbered(b)
  {
    && b.args[0].TextArg? && MatchesSearch(db, p, b.args[0].text)
    && forall i | 0 <= i < |b.conditions| ::
         Holds(db, p, b.conditions[i].kind, b.args[b.conditions[i].placeholder - 1])
  }

  /** The listing query's conditions. */
  function ListingConditions(f: Filters): (r: Bound)
    ensures Numbered(r)
    ensures r.args[0] == TextArg(f.search)
    ensures |r.args| == 1 + (if |f.categories| > 0 then 1 else 0) + (if f.minPrice != 0 then 1 else 0)
                          + (if f.maxPrice != 0 then 1 else 0)
  {
    var b0 := Bound([], [TextArg(f.search)], 2);
    var b1 := if |f.categories| > 0 then Push(b0, CategoryAny, IdsArg(f.categories)) else b0;
    var b2 := if f.minPrice != 0 then Push(b1, MinPriceAtLeast, IntArg(f.minPrice)) else b1;
    if f.maxPrice != 0 then Push(b2, MaxPriceAtMost, IntArg(f.maxPrice)) else b2
  }

  /** The count query's conditions, built by its own copy of the same steps. */
  function CountConditions(f: Filters): (r: Bound)
    ensures Numbered(r)
  {
    var b0 := Bound([], [TextArg(f.search)], 2);
    var b1 := if |f.categories| > 0 then Push(b0, CategoryAny, IdsArg(f.categories)) else b0;
    var b2 := if f.minPrice != 0 then Push(b1, MinPriceAtLeast, IntArg(f.minPrice)) else b1;
    if f.maxPrice != 0 then Push(b2, MaxPriceAtMost, IntArg(f.maxPrice)) else b2
  }

  /** Both queries number and bind their conditions identically. */
  lemma CountUsesListingConditions(f: Filters)
    ensures CountConditions(f) == ListingConditions(f)
  {
  }

  /** Binding each $k to args[k - 1] yields exactly the intended filter. */
  lemma ConditionsMeanFilters(db: Db, p: Product, f: Filters)
    ensures Satisfies(db, p, ListingConditions(f)) <==> Matches(db, p, f)
  {
    var b := ListingConditions(f);
    var b0 := Bound([], [TextArg(f.search)], 2);
    var b1 := if |f.categories| > 0 then Push(b0, CategoryAny, IdsArg(f.categories)) else b0;
    var b2 := if f.minPrice != 0 then Push(b1, MinPriceAtLeast, IntArg(f.minPrice)) else b1;
    assert b == (if f.maxPrice != 0 then Push(b2, MaxPriceAtMost, IntArg(f.maxPrice)) else b2);
    var cat := |f.categories| > 0;
    assert cat ==> b.conditions[0].kind == CategoryAny && b.args[1] == IdsArg(f.categories);
    var iMin := if cat then 1 else 0;
    assert f.minPrice != 0 ==> b.conditions[iMin].kind == MinPriceAtLeast && b.args[iMin + 1] == IntArg(f.minPrice);
    var iMax := iMin + (if f.minPrice != 0 then 1 else 0);
    assert f.maxPrice != 0 ==> b.conditions[iMax].kind == MaxPriceAtMost && b.args[iMax + 1] == IntArg(f.maxPrice);
    assert |b.conditions| == iMax + (if f.maxPrice != 0 then 1 else 0);
  }

  // ---------------------------------------------------------------------------
  // ORDER BY

  datatype OrderBy = CreatedDesc | CreatedAsc | PriceAsc | PriceDesc | NameAsc | NameDesc

  /** The sort parameter picks one of six clauses; anything else is newest first. */
  function SortParam(sort: string): (r: OrderBy)
    ensures (sort != "oldest" && sort != "price_low" && sort != "price_high" && sort != "name_asc" &&
             sort != "name_desc") ==> r == CreatedDesc
  {
    if sort == "oldest" then CreatedAsc
    else if sort == "price_low" then PriceAsc
    else if sort == "price_high" then PriceDesc
    else if sort == "name_asc" then NameAsc
    else if sort == "name_desc" then NameDesc
    else CreatedDesc
  }

  function OrderByText(o: OrderBy): string {
    match o
    case CreatedDesc => "p.created_at DESC"
    case CreatedAsc => "p.created_at ASC"
    case PriceAsc => "min_price ASC"
    case PriceDesc => "min_price DESC"
    case NameAsc => "p.name ASC"
    case NameDesc => "p.name DESC"
  }

  const OrderByTexts: set<string> :=
    {"p.created_at DESC", "p.created_at ASC", "min_price ASC", "min_price DESC", "p.name ASC", "p.name DESC"}

  /** Whatever the client sends as sort, the ORDER BY text is one of six fixed strings. */
  lemma SortTextNeverReachesQuery(sort: string)
    ensures OrderByText(SortParam(sort)) in OrderByTexts
    ensures (sort == "oldest" ==> OrderByText(SortParam(sort)) == "p.created_at ASC")
    ensures (sort == "price_low" ==> OrderByText(SortParam(sort)) == "min_price ASC")
    ensures (sort == "price_high" ==> OrderByText(SortParam(sort)) == "min_price DESC")
    ensures (sort == "name_asc" ==> OrderByText(SortParam(sort)) == "p.name ASC")
    ensures (sort == "name_desc" ==> OrderByText(SortParam(sort)) == "p.name DESC")
  {
  }

  /** PostgreSQL orders NULL above every value: last ascending, first descending. */
  predicate PriceLe(x: Option<real>, y: Option<real>) {
    y.None? || (x.Some? && x.value <= y.value)
  }

  /** a may come before b under the clause. */
  function Before(db: Db, o: OrderBy): (Product, Product) -> bool {
    match o
    case CreatedDesc => (a: Product, b: Product) => a.createdAt >= b.createdAt
    case CreatedAsc => (a: Product, b: Product) => a.createdAt <= b.createdAt
    case PriceAsc => (a: Product, b: Product) => PriceLe(DisplayPrice(db, a), DisplayPrice(db, b))
    case PriceDesc => (a: Product, b: Product) => PriceLe(DisplayPrice(db, b), DisplayPrice(db, a))
    case NameAsc => (a: Product, b: Product) => StrLe(a.name, b.name)
    case NameDesc => (a: Product, b: Product) => StrLe(b.name, a.name)
  }

  lemma BeforeIsTotalPreorder(db: Db, o: OrderBy)
    ensures TotalPreorder(Before(db, o))
  {
    if o == NameAsc || o == NameDesc {
      forall a: Product, b: Product ensures StrLe(a.name, b.name) || StrLe(b.name, a.name) {
        StrLeTotal(a.name, b.name);
      }
      forall a: Product, b: Product, c: Product | StrLe(a.name, b.name) && StrLe(b.name, c.name)
        ensures StrLe(a.name, c.name)
      {
        StrLeTransitive(a.name, b.name, c.name);
      }
      forall a: Product, b: Product, c: Product | StrLe(b.name, a.name) && StrLe(c.name, b.name)
        ensures StrLe(c.name, a.name)
      {
        StrLeTransitive(c.name, b.name, a.name);
      }
    }
  }

  // ---------------------------------------------------------------------------
  // GetProducts

  /** One listed product (the image, variant and size aggregates are not modelled). */
  datatype ListedProduct = ListedProduct(id: int, name: string, minPrice: real, category: string, createdAt: Time)

  /** The query or the count query fails. */
  datatype ListingFault = NoFault | QueryFails | CountFails

  function Listed(db: Db, p: Product, price: real): ListedProduct {
    ListedProduct(p.id, p.name, price, CategoryName(db, p).GetOr(""), p.createdAt)
  }

  /** Every matching product, in the clause's order. */
  function Ranked(db: Db, f: Filters, o: OrderBy): (r: seq<Product>)
    ensures SortedBy(r, Before(db, o))
    ensures multiset(r) == multiset(Matching(db, f))
  {
    BeforeIsTotalPreorder(db, o);
    Sort(Matching(db, f), Before(db, o))
  }

  /** Every row has a displayed price to scan. */
  predicate AllPriced(db: Db, ps: seq<Product>) {
    forall i | 0 <= i < |ps| :: DisplayPrice(db, ps[i]).Some?
  }

  /** Scanning min_price into a float64: a NULL fails the whole listing. */
  function ScanDisplayed(db: Db, ps: seq<Product>): (r: Option<seq<ListedProduct>>)
    ensures r.Some? <==> AllPriced(db, ps)
    ensures r.Some? ==> |r.value| == |ps|
    ensures r.Some? ==> forall i | 0 <= i < |ps| :: r.value[i] == Listed(db, ps[i], DisplayPrice(db, ps[i]).value)
  {
    if |ps| == 0 then Some([])
    else
      assert forall i | 1 <= i < |ps| :: ps[i] == ps[1..][i - 1];
      match DisplayPrice(db, ps[0])
      case None => None
      case Some(m) =>
        match ScanDisplayed(db, ps[1..])
        case None => None
        case Some(rest) => Some([Listed(db, ps[0], m)] + rest)
  }

  /** The products GetProducts puts on the requested page. */
  function ListingPage(db: Db, page: int, limit: int, f: Filters, o: OrderBy): (r: seq<Product>)
    ensures |r| <= ClampLimit(limit, 10)
  {
    var pg := ClampPage(page);
    var lim := ClampLimit(limit, 10);
    Window(Ranked(db, f, o), Offset(pg, lim), lim)
  }

  /** The rows and total GetProducts returns once the page ps is selected. */
  function ScanPage(db: Db, ps: seq<Product>, total: nat, fault: ListingFault): (r: Result<(seq<ListedProduct>, nat)>)
    ensures r.Ok? <==> fault.NoFault? && AllPriced(db, ps)
    ensures r.Ok? ==> r.value.0 == ScanDisplayed(db, ps).value && |r.value.0| == |ps|
    ensures r.Ok? ==> r.value.1 == total
  {
    if fault.QueryFails? then Err("listing query failed")
    else
      match ScanDisplayed(db, ps)
      case None => Err("failed to scan product")
      case Some(rows) =>
        if fault.CountFails? then Err("count query failed")
        else Ok((rows, total))
  }

  /**
   * models.GetProducts: the page of matching products, and the number of
   * matching products.
   */
  function GetProducts(db: Db, page: int, limit: int, f: Filters, sort: string, fault: ListingFault):
    (r: Result<(seq<ListedProduct>, nat)>)
    ensures r.Ok? <==> fault.NoFault? && AllPriced(db, ListingPage(db, page, limit, f, SortParam(sort)))
    ensures r.Ok? ==> |r.value.0| <= ClampLimit(limit, 10)
    ensures r.Ok? ==> r.value.0 == ScanDisplayed(db, ListingPage(db, page, limit, f, SortParam(sort))).value
    ensures r.Ok? ==> r.value.1 == |Matching(db, f)|
  {
    ScanPage(db, ListingPage(db, page, limit, f, SortParam(sort)), |Matching(db, f)|, fault)
  }

  /**
   * Every listed row is a matching product at its displayed price, and the
   * rows follow the requested order.
   */
  lemma ListedRowsMatchAndAreOrdered(db: Db, page: int, limit: int, f: Filters, sort: string)
    requires GetProducts(db, page, limit, f, sort, NoFault).Ok?
    ensures var rows := GetProducts(db, page, limit, f, sort, NoFault).value.0;
            var ps := ListingPage(db, page, limit, f, SortParam(sort));
            && |rows| == |ps|
            && (forall i | 0 <= i < |rows| ::
                  && ps[i] in db.products && Matches(db, ps[i], f)
                  && rows[i].id == ps[i].id && Some(rows[i].minPrice) == DisplayPrice(db, ps[i]))
            && (forall i, j | 0 <= i < j < |ps| :: Before(db, SortParam(sort))(ps[i], ps[j]))
  {
    var o := SortParam(sort);
    var ranked := Ranked(db, f, o);
    var ps := ListingPage(db, page, limit, f, o);
    var filtered := Matching(db, f);
    forall i | 0 <= i < |ps| ensures ps[i] in db.products && Matches(db, ps[i], f) {
      var pg := ClampPage(page);
      var lim := ClampLimit(limit, 10);
      var k := Offset(pg, lim) + i;
      assert ps[i] == ranked[k];
      assert ranked[k] in multiset(ranked);
      assert ranked[k] in multiset(filtered);
    }
  }

  /** The total counts every match, so it is the same for every page and limit. */
  lemma TotalIgnoresPaging(db: Db, p1: int, l1: int, p2: int, l2: int, f: Filters, s1: string, s2: string)
    requires GetProducts(db, p1, l1, f, s1, NoFault).Ok? && GetProducts(db, p2, l2, f, s2, NoFault).Ok?
    ensures GetProducts(db, p1, l1, f, s1, NoFault).value.1 == GetProducts(db, p2, l2, f, s2, NoFault).value.1
  {
  }

  // ---------------------------------------------------------------------------
  // GetProductsAdmin

  /** One admin row; price is COALESCE(MIN(ps.price), 0) scanned into an int64. */
  datatype AdminRow = AdminRow(id: int, name: string, price: int)

  predicate NameMatches(p: Product, search: string) {
    ContainsFold(p.name, search)
  }

  /** The rows GetProductsAdmin filters in, in table order. */
  function NameMatching(db: Db, search: string): (r: seq<Product>)
    ensures forall x | x in r :: x in db.products && NameMatches(x, search)
    ensures forall x | x in db.products && NameMatches(x, search) :: x in r
  {
    FilterBy(db.products, p => NameMatches(p, search))
  }

  /** Every name match, newest first. */
  function AdminRanked(db: Db, search: string): (r: seq<Product>)
    ensures SortedBy(r, Before(db, CreatedDesc))
    ensures multiset(r) == multiset(NameMatching(db, search))
  {
    BeforeIsTotalPreorder(db, CreatedDesc);
    Sort(NameMatching(db, search), Before(db, CreatedDesc))
  }

  /** The products GetProductsAdmin puts on the requested page: newest first, limit defaulting to 5. */
  function AdminPage(db: Db, page: int, limit: int, search: string): (r: seq<Product>)
    ensures |r| <= ClampLimit(limit, 5)
    ensures forall x | x in r :: x in db.products && NameMatches(x, search)
  {
    var pg := ClampPage(page);
    var lim := ClampLimit(limit, 5);
    var ranked := AdminRanked(db, search);
    var w := Window(ranked, Offset(pg, lim), lim);
    assert forall x | x in w :: x in db.products && NameMatches(x, search) by {
      forall x | x in w ensures x in db.products && NameMatches(x, search) {
        assert x in multiset(ranked);
        assert x in multiset(NameMatching(db, search));
      }
    }
    w
  }

  /** A float8 scans into an int64 only when it has no fractional part. */
  predicate Whole(x: real) {
    x.Floor as real == x
  }

  /** Every row's COALESCE(MIN(ps.price), 0) is a whole number. */
  predicate AllWhole(db: Db, ps: seq<Product>) {
    forall p | p in ps :: Whole(FilterPrice(db, p))
  }

  /** Scanning the page into ProductAdmin rows: a fractional price fails the listing. */
  function ScanAdmin(db: Db, ps: seq<Product>): (r: Option<seq<AdminRow>>)
    ensures r.Some? <==> AllWhole(db, ps)
    ensures r.Some? ==> |r.value| == |ps|
    ensures r.Some? ==> forall i | 0 <= i < |ps| ::
              && r.value[i].id == ps[i].id && r.value[i].name == ps[i].name
              && r.value[i].price as real == FilterPrice(db, ps[i])
  {
    if |ps| == 0 then Some([])
    else
      assert forall i | 1 <= i < |ps| :: ps[i] == ps[1..][i - 1];
      assert forall p | p in ps :: p == ps[0] || p in ps[1..];
      var m := FilterPrice(db, ps[0]);
      if !Whole(m) then None
      else
        match ScanAdmin(db, ps[1..])
        case None => None
        case Some(rest) => Some([AdminRow(ps[0].id, ps[0].name, m.Floor)] + rest)
  }

  /** The rows and total GetProductsAdmin returns once the page ps is selected. */
  function ScanAdminPage(db: Db, ps: seq<Product>, total: nat, fault: ListingFault): (r: Result<(seq<AdminRow>, nat)>)
    ensures r.Ok? <==> fault.NoFault? && AllWhole(db, ps)
    ensures r.Ok? ==> Some(r.value.0) == ScanAdmin(db, ps) && r.value.1 == total
  {
    if fault.QueryFails? then Err("admin listing failed")
    else
      match ScanAdmin(db, ps)
      case None => Err("failed to scan product")
      case Some(rows) =>
        if fault.CountFails? then Err("count query failed")
        else Ok((rows, total))
  }

  /**
   * models.GetProductsAdmin: name-only search, newest first, limit
   * defaulting to 5; the count uses the same name filter.
   */
  function GetProductsAdmin(db: Db, page: int, limit: int, search: string, fault: ListingFault):
    (r: Result<(seq<AdminRow>, nat)>)
    ensures r.Ok? <==> fault.NoFault? && AllWhole(db, AdminPage(db, page, limit, search))
    ensures r.Ok? ==> |r.value.0| <= ClampLimit(limit, 5)
    ensures r.Ok? ==> r.value.1 == |NameMatching(db, search)|
    ensures r.Ok? ==>
              var w := AdminPage(db, page, limit, search);
              && |r.value.0| == |w|
              && forall i | 0 <= i < |w| ::
                   && r.value.0[i].id == w[i].id && r.value.0[i].name == w[i].name
                   && r.value.0[i].price as real == FilterPrice(db, w[i])
  {
    ScanAdminPage(db, AdminPage(db, page, limit, search), |NameMatching(db, search)|, fault)
  }

  /**
   * Every admin row is a name match priced at its cheapest size (0 without
   * sizes), and the page runs newest first.
   */
  lemma AdminRowsMatchNewestFirst(db: Db, page: int, limit: int, search: string)
    requires GetProductsAdmin(db, page, limit, search, NoFault).Ok?
    ensures var rows := GetProductsAdmin(db, page, limit, search, NoFault).value.0;
            var ps := AdminPage(db, page, limit, search);
            && |rows| == |ps|
            && (forall i | 0 <= i < |rows| ::
                  && ps[i] in db.products && NameMatches(ps[i], search) && rows[i].id == ps[i].id
                  && (forall k | 0 <= k < |db.sizes| && db.sizes[k].productId == ps[i].id :: rows[i].price as real <= db.sizes[k].price)
                  && ((exists k | 0 <= k < |db.sizes| :: db.sizes[k].productId == ps[i].id) || rows[i].price == 0))
            && (forall i, j | 0 <= i < j < |ps| :: ps[j].createdAt <= ps[i].createdAt)
  {
    var ranked := AdminRanked(db, search);
    var ps := AdminPage(db, page, limit, search);
    var off := Offset(ClampPage(page), ClampLimit(limit, 5));
    assert ps == Window(ranked, off, ClampLimit(limit, 5));
    forall i, j | 0 <= i < j < |ps| ensures ps[j].createdAt <= ps[i].createdAt {
      assert ps[i] == ranked[off + i] && ps[j] == ranked[off + j];
      assert Before(db, CreatedDesc)(ranked[off + i], ranked[off + j]);
    }
  }

  /** Every name match is ranked, so some n puts it n-th newest. */
  lemma EveryNameMatchRanked(db: Db, search: string)
    ensures forall p | p in db.products && NameMatches(p, search) :: p in AdminRanked(db, search)
    ensures |AdminRanked(db, search)| == |NameMatching(db, search)|
  {
    var ranked := AdminRanked(db, search);
    forall p | p in db.products && NameMatches(p, search) ensures p in ranked {
      assert p in multiset(NameMatching(db, search));
    }
    assert |multiset(ranked)| == |multiset(NameMatching(db, search))|;
  }

  /**
   * Paging reaches every name match: the n-th newest is row n % limit of
   * page n / limit + 1. The page succeeds when every match has a whole price.
   */
  lemma EveryNameMatchOnSomePage(db: Db, limit: int, search: string, n: nat)
    requires limit >= 1 && n < |AdminRanked(db, search)|
    requires AllWhole(db, NameMatching(db, search))
    ensures var r := GetProductsAdmin(db, n / limit + 1, limit, search, NoFault);
            && r.Ok? && n % limit < |r.value.0|
            && r.value.0[n % limit].id == AdminRanked(db, search)[n].id
  {
    var ranked := AdminRanked(db, search);
    var page := n / limit + 1;
    assert ClampPage(page) == page && ClampLimit(limit, 5) == limit;
    var ps := AdminPage(db, page, limit, search);
    assert ps == Window(ranked, Offset(page, limit), limit);
    assert AllWhole(db, ps) by {
      forall p | p in ps ensures Whole(FilterPrice(db, p)) {
        assert p in NameMatching(db, search);
      }
    }
    RowOnItsPage(ranked, limit, n);
  }
}

=== FILE: checkout.dfy ===
/**
 * Cart-to-order conversion (models/order.go, CreateOrder): the emptiness
 * check, the pre-transaction total, and the transaction that inserts the
 * header and one item per cart line and clears the user's cart.
 */
module Checkout {
  import opened Wrappers
  import opened Text
  import opened Store
  import opened Pricing

  datatype OrderRequest = OrderRequest(
    paymentId: int,
    shippingId: int,
    methodId: int,
    customerName: string,
    customerPhone: string,
    customerAddress: string)

  datatype Receipt = Receipt(
    orderId: int,
    invoice: string,
    total: real,
    customerName: string,
    customerPhone: string,
    customerAddress: string,
    status: string)

  /** The database or driver call that fails, if any. */
  datatype Fault =
    | NoFault
    | CountFails
    | TotalFails
    | BeginFails
    | InsertOrderFails
    | FetchFails
    | ReadFails
    | InsertItemFails(k: nat)   // the insert of item k; with k past the last item it acts as CommitFails
    | ClearFails
    | CommitFails

  /** The shipping id every new order header is given, whatever was requested. */
  const InitialShippingId := 3
  const InitialStatus := "On Progress"

  // ---------------------------------------------------------------------------
  // Transactions: writes go to a working copy that Commit publishes and
  // Rollback discards.

  datatype Tx = Tx(base: Db, work: Db)

  function Begin(db: Db): Tx {
    Tx(db, db)
  }

  function Rollback(tx: Tx): Db {
    tx.base
  }

  function Commit(tx: Tx): Db {
    tx.work
  }

  // ---------------------------------------------------------------------------
  // Row selections

  /** cart_items JOIN cart WHERE cart.user_id = uid: what the count query counts. */
  function UserLines(db: Db, s: seq<CartLine>, uid: int): (r: seq<CartLine>)
    ensures forall l :: l in r <==> l in s && OwnedBy(db, l, uid)
    ensures |r| <= |s|
  {
    if |s| == 0 then []
    else (if OwnedBy(db, s[0], uid) then [s[0]] else []) + UserLines(db, s[1..], uid)
  }

  /** The same rows further joined with products: what the total and item queries read. */
  function SelectedLines(db: Db, s: seq<CartLine>, uid: int): (r: seq<CartLine>)
    ensures forall l :: l in r <==>
      l in s && OwnedBy(db, l, uid) && FindProduct(db.products, l.productId).Some?
  {
    if |s| == 0 then []
    else
      (if OwnedBy(db, s[0], uid) && FindProduct(db.products, s[0].productId).Some? then [s[0]] else [])
      + SelectedLines(db, s[1..], uid)
  }

  /** The DELETE: every cart line outside the user's cart survives, in order. */
  function OtherLines(db: Db, s: seq<CartLine>, uid: int): (r: seq<CartLine>)
    ensures forall l :: l in r <==> l in s && !OwnedBy(db, l, uid)
  {
    if |s| == 0 then []
    else (if OwnedBy(db, s[0], uid) then [] else [s[0]]) + OtherLines(db, s[1..], uid)
  }

  // ---------------------------------------------------------------------------
  // Pricing queries

  /** The pre-transaction total: COALESCE(SUM(term), 0) over the selected lines. */
  function OrderTotal(db: Db, lines: seq<CartLine>, now: Time): real {
    if |lines| == 0 then 0.0 else TotalTerm(db, lines[0], now) + OrderTotal(db, lines[1..], now)
  }

  /** The in-transaction item query, scanned row by row; None when a NULL price fails the scan. */
  function QuoteLines(db: Db, lines: seq<CartLine>, now: Time): (r: Option<seq<Quote>>)
    ensures r.Some? <==> forall i | 0 <= i < |lines| :: QuoteLine(db, lines[i], now).Some?
    ensures r.Some? ==> |r.value| == |lines|
    ensures r.Some? ==> forall i | 0 <= i < |lines| :: r.value[i] == QuoteLine(db, lines[i], now).value
  {
    if |lines| == 0 then Some([])
    else
      match QuoteLine(db, lines[0], now)
      case None => None
      case Some(q) =>
        match QuoteLines(db, lines[1..], now)
        case None =>
          assert forall i | 1 <= i < |lines| :: lines[i] == lines[1..][i - 1];
          None
        case Some(qs) =>
          assert forall i | 1 <= i < |lines| :: lines[i] == lines[1..][i - 1];
          Some([q] + qs)
  }

  function MakeItem(orderId: int, line: CartLine, q: Quote): OrderItem {
    OrderItem(orderId, line.productId, line.variantId, line.sizeId, line.qty,
              q.basePrice, q.discountPrice, q.discountPercent, q.subtotal, None)
  }

  function MakeItems(orderId: int, lines: seq<CartLine>, qs: seq<Quote>): (r: seq<OrderItem>)
    requires |lines| == |qs|
    ensures |r| == |lines|
    ensures forall i | 0 <= i < |r| :: r[i] == MakeItem(orderId, lines[i], qs[i])
  {
    seq(|lines|, i requires 0 <= i < |lines| => MakeItem(orderId, lines[i], qs[i]))
  }

  function SumSubtotals(items: seq<OrderItem>): real {
    if |items| == 0 then 0.0 else items[0].subtotal + SumSubtotals(items[1..])
  }

  /** "INV-<unix seconds>-<user id>". */
  function Invoice(unix: int, uid: int): string {
    "INV-" + IntToString(unix) + "-" + IntToString(uid)
  }

  function Header(uid: int, req: OrderRequest, tTx: Time, total: real, invoice: string, orderId: int): Order {
    Order(orderId, uid, req.paymentId, InitialShippingId, req.methodId, tTx,
          req.customerName, req.customerPhone, req.customerAddress, total, invoice, None)
  }

  // ---------------------------------------------------------------------------
  // CreateOrder

  /**
   * models.CreateOrder. tTotal is NOW() of the total query, tTx NOW() inside
   * the transaction, unix the invoice's clock reading, orderId the id the
   * orders insert returns.
   */
  function CreateOrder(db: Db, uid: int, req: OrderRequest, tTotal: Time, tTx: Time, unix: int,
                       orderId: int, fault: Fault): (r: (Db, Result<Receipt>))
    // every error leaves the database as it was
    ensures r.1.Err? ==> r.0 == db
    // an empty cart is refused before any transaction
    ensures fault != CountFails && |UserLines(db, db.cartItems, uid)| == 0 ==>
              r == (db, Err("cannot create order: cart is empty"))
    ensures r.1.Ok? ==> |UserLines(db, db.cartItems, uid)| > 0 && fault == NoFault
  {
    if fault == CountFails then (db, Err("failed to check cart"))
    else if |UserLines(db, db.cartItems, uid)| == 0 then (db, Err("cannot create order: cart is empty"))
    else if fault == TotalFails then (db, Err("failed to calculate total"))
    else
      var total := OrderTotal(db, SelectedLines(db, db.cartItems, uid), tTotal);
      if fault == BeginFails then (db, Err("failed to start transaction"))
      else InTransaction(Begin(db), uid, req, total, tTx, Invoice(unix, uid), orderId, fault)
  }

  /** The statements between Begin and Commit; the deferred Rollback runs on every early return. */
  function InTransaction(tx: Tx, uid: int, req: OrderRequest, total: real, tTx: Time, invoice: string,
                         orderId: int, fault: Fault): (r: (Db, Result<Receipt>))
    ensures r.1.Err? ==> r.0 == tx.base
    ensures r.1.Ok? ==> fault == NoFault
  {
    if fault == InsertOrderFails then (Rollback(tx), Err("failed to insert order"))
    else
      var header := Header(uid, req, tTx, total, invoice, orderId);
      var tx1 := tx.(work := tx.work.(orders := tx.work.orders + [header]));
      var lines := SelectedLines(tx1.work, tx1.work.cartItems, uid);
      if fault == FetchFails then (Rollback(tx1), Err("failed to fetch cart items"))
      else
        match QuoteLines(tx1.work, lines, tTx)
        case None => (Rollback(tx1), Err("failed to scan cart item"))
        case Some(qs) =>
          if fault == ReadFails then (Rollback(tx1), Err("error while reading rows"))
          else
            var items := MakeItems(orderId, lines, qs);
            if fault.InsertItemFails? && fault.k < |items| then
              var txk := tx1.(work := tx1.work.(orderItems := tx1.work.orderItems + items[..fault.k]));
              (Rollback(txk), Err("failed to insert order item"))
            else
              var tx2 := tx1.(work := tx1.work.(orderItems := tx1.work.orderItems + items));
              if fault == ClearFails then (Rollback(tx2), Err("failed to clear cart"))
              else
                var tx3 := tx2.(work := tx2.work.(cartItems := OtherLines(tx2.work, tx2.work.cartItems, uid)));
                if fault != NoFault then (Rollback(tx3), Err("failed to commit transaction"))
                else
                  (Commit(tx3), Ok(Receipt(orderId, invoice, total, req.customerName,
                                           req.customerPhone, req.customerAddress, InitialStatus)))
  }

  // ---------------------------------------------------------------------------
  // What a committed checkout leaves behind

  /** Reads of the cart and catalog do not see the order tables. */
  lemma SelectionFrame(a: Db, b: Db, s: seq<CartLine>, uid: int)
    requires a.carts == b.carts && a.products == b.products
    ensures SelectedLines(a, s, uid) == SelectedLines(b, s, uid)
    ensures OtherLines(a, s, uid) == OtherLines(b, s, uid)
  {
  }

  lemma QuoteFrame(a: Db, b: Db, lines: seq<CartLine>, now: Time)
    requires a.products == b.products && a.sizes == b.sizes && a.discounts == b.discounts
    ensures QuoteLines(a, lines, now) == QuoteLines(b, lines, now)
    decreases |lines|
  {
    if |lines| > 0 {
      assert LinkedDiscount(a, lines[0].productId) == LinkedDiscount(b, lines[0].productId);
      assert BasePrice(a, lines[0]) == BasePrice(b, lines[0]);
      var l := lines[0];
      if BasePrice(a, l).Some? {
        var qa, qb := QuoteLine(a, l, now).value, QuoteLine(b, l, now).value;
        assert qa.basePrice == qb.basePrice && qa.discountPercent == qb.discountPercent;
        assert qa.discountPrice == qb.discountPrice && qa.subtotal == qb.subtotal;
      }
      QuoteFrame(a, b, lines[1..], now);
    }
  }

  /**
   * Without a fault the transaction commits exactly when every selected
   * line can be quoted at tTx, and then its working copy holds the header,
   * the items and the cart without the user's lines.
   */
  lemma TransactionOutcome(db: Db, uid: int, req: OrderRequest, total: real, tTx: Time, invoice: string,
                           orderId: int)
    ensures var lines := SelectedLines(db, db.cartItems, uid);
            var r := InTransaction(Begin(db), uid, req, total, tTx, invoice, orderId, NoFault);
            && (r.1.Ok? <==> QuoteLines(db, lines, tTx).Some?)
            && (r.1.Ok? ==>
                  r == (db.(orders := db.orders + [Header(uid, req, tTx, total, invoice, orderId)],
                            orderItems := db.orderItems + MakeItems(orderId, lines, QuoteLines(db, lines, tTx).value),
                            cartItems := OtherLines(db, db.cartItems, uid)),
                        Ok(Receipt(orderId, invoice, total, req.customerName, req.customerPhone,
                                   req.customerAddress, InitialStatus))))
  {
    var lines := SelectedLines(db, db.cartItems, uid);
    var w1 := db.(orders := db.orders + [Header(uid, req, tTx, total, invoice, orderId)]);
    SelectionFrame(w1, db, db.cartItems, uid);
    QuoteFrame(w1, db, lines, tTx);
    if QuoteLines(db, lines, tTx).Some? {
      var w2 := w1.(orderItems := w1.orderItems + MakeItems(orderId, lines, QuoteLines(db, lines, tTx).value));
      SelectionFrame(w2, db, db.cartItems, uid);
    }
  }

  /**
   * A successful checkout publishes exactly: the header appended to orders,
   * one item per selected cart line priced at tTx appended to order_items,
   * and cart_items without the user's lines. Nothing else changes.
   */
  lemma CheckoutCommitted(db: Db, uid: int, req: OrderRequest, tTotal: Time, tTx: Time, unix: int, orderId: int)
    requires CreateOrder(db, uid, req, tTotal, tTx, unix, orderId, NoFault).1.Ok?
    ensures var lines := SelectedLines(db, db.cartItems, uid);
            var total := OrderTotal(db, lines, tTotal);
            && QuoteLines(db, lines, tTx).Some?
            && CreateOrder(db, uid, req, tTotal, tTx, unix, orderId, NoFault) ==
               (db.(orders := db.orders + [Header(uid, req, tTx, total, Invoice(unix, uid), orderId)],
                    orderItems := db.orderItems + MakeItems(orderId, lines, QuoteLines(db, lines, tTx).value),
                    cartItems := OtherLines(db, db.cartItems, uid)),
                Ok(Receipt(orderId, Invoice(unix, uid), total, req.customerName, req.customerPhone,
                           req.customerAddress, InitialStatus)))
  {
    var total := OrderTotal(db, SelectedLines(db, db.cartItems, uid), tTotal);
    assert CreateOrder(db, uid, req, tTotal, tTx, unix, orderId, NoFault) ==
           InTransaction(Begin(db), uid, req, total, tTx, Invoice(unix, uid), orderId, NoFault);
    TransactionOutcome(db, uid, req, total, tTx, Invoice(unix, uid), orderId);
  }

  /**
   * Without an injected fault a checkout goes through exactly when the user
   * has cart lines and every selected line has a price to scan at tTx.
   */
  lemma CheckoutSucceedsIff(db: Db, uid: int, req: OrderRequest, tTotal: Time, tTx: Time, unix: int, orderId: int)
    ensures CreateOrder(db, uid, req, tTotal, tTx, unix, orderId, NoFault).1.Ok? <==>
            && |UserLines(db, db.cartItems, uid)| > 0
            && QuoteLines(db, SelectedLines(db, db.cartItems, uid), tTx).Some?
  {
    if |UserLines(db, db.cartItems, uid)| > 0 {
      var total := OrderTotal(db, SelectedLines(db, db.cartItems, uid), tTotal);
      assert CreateOrder(db, uid, req, tTotal, tTx, unix, orderId, NoFault) ==
             InTransaction(Begin(db), uid, req, total, tTx, Invoice(unix, uid), orderId, NoFault);
      TransactionOutcome(db, uid, req, total, tTx, Invoice(unix, uid), orderId);
    }
  }

  /**
   * The committed checkout described by its readings: given the selected
   * lines, their quotes at tTx and the total at tTotal, what the tables hold
   * afterwards.
   */
  lemma CommittedWith(db: Db, uid: int, req: OrderRequest, tTotal: Time, tTx: Time, unix: int, orderId: int,
                      lines: seq<CartLine>, qs: seq<Quote>, total: real)
    requires |UserLines(db, db.cartItems, uid)| > 0
    requires SelectedLines(db, db.cartItems, uid) == lines
    requires QuoteLines(db, lines, tTx) == Some(qs)
    requires OrderTotal(db, lines, tTotal) == total
    ensures |qs| == |lines|
    ensures var r := CreateOrder(db, uid, req, tTotal, tTx, unix, orderId, NoFault);
            && r.1.Ok?
            && r.1.value.total == total
            && r.0.orders == db.orders + [Header(uid, req, tTx, total, Invoice(unix, uid), orderId)]
            && r.0.orderItems == db.orderItems + MakeItems(orderId, lines, qs)
            && r.0.cartItems == OtherLines(db, db.cartItems, uid)
  {
    CheckoutSucceedsIff(db, uid, req, tTotal, tTx, unix, orderId);
    CheckoutCommitted(db, uid, req, tTotal, tTx, unix, orderId);
  }

  /** The header: the pre-transaction total, the invoice, shipping id 3 whatever was requested. */
  lemma CheckoutHeader(db: Db, uid: int, req: OrderRequest, tTotal: Time, tTx: Time, unix: int, orderId: int)
    requires CreateOrder(db, uid, req, tTotal, tTx, unix, orderId, NoFault).1.Ok?
    ensures var db' := CreateOrder(db, uid, req, tTotal, tTx, unix, orderId, NoFault).0;
            && |db'.orders| == |db.orders| + 1
            && db'.orders[..|db.orders|] == db.orders
            && db'.orders[|db.orders|].shippingId == 3
            && db'.orders[|db.orders|].paymentId == req.paymentId
            && db'.orders[|db.orders|].methodId == req.methodId
            && db'.orders[|db.orders|].userId == uid
            && db'.orders[|db.orders|].orderDate == tTx
            && db'.orders[|db.orders|].invoice == "INV-" + IntToString(unix) + "-" + IntToString(uid)
            && db'.orders[|db.orders|].total == OrderTotal(db, SelectedLines(db, db.cartItems, uid), tTotal)
  {
    CheckoutCommitted(db, uid, req, tTotal, tTx, unix, orderId);
  }

  /** The receipt echoes the request's customer fields with status "On Progress". */
  lemma CheckoutReceipt(db: Db, uid: int, req: OrderRequest, tTotal: Time, tTx: Time, unix: int, orderId: int)
    requires CreateOrder(db, uid, req, tTotal, tTx, unix, orderId, NoFault).1.Ok?
    ensures var rc := CreateOrder(db, uid, req, tTotal, tTx, unix, orderId, NoFault).1.value;
            && rc.orderId == orderId
            && rc.customerName == req.customerName
            && rc.customerPhone == req.customerPhone
            && rc.customerAddress == req.customerAddress
            && rc.status == "On Progress"
            && rc.invoice == "INV-" + IntToString(unix) + "-" + IntToString(uid)
            && rc.total == CreateOrder(db, uid, req, tTotal, tTx, unix, orderId, NoFault).0.orders[|db.orders|].total
  {
    CheckoutCommitted(db, uid, req, tTotal, tTx, unix, orderId);
  }

  /** The fields one order_items row takes from its cart line and quote. */
  lemma ItemFields(db: Db, line: CartLine, tTx: Time, orderId: int)
    requires QuoteLine(db, line, tTx).Some?
    ensures var it := MakeItem(orderId, line, QuoteLine(db, line, tTx).value);
            && it.orderId == orderId
            && it.productId == line.productId
            && it.variantId == line.variantId
            && it.sizeId == line.sizeId
            && it.qty == line.qty
            && it.basePrice == BasePrice(db, line).value
            && it.discountPrice == DiscountPrice(it.basePrice, LinkedDiscount(db, line.productId), tTx)
            && it.discountPercent == StoredPercent(LinkedDiscount(db, line.productId))
            && it.subtotal == it.discountPrice * it.qty as real
  {
  }

  /**
   * One order_items row per selected cart row, in row order, carrying the
   * line's ids and quantity and its price at tTx, with subtotal = price * qty.
   */
  lemma CheckoutItems(db: Db, uid: int, req: OrderRequest, tTotal: Time, tTx: Time, unix: int, orderId: int)
    requires CreateOrder(db, uid, req, tTotal, tTx, unix, orderId, NoFault).1.Ok?
    ensures var db' := CreateOrder(db, uid, req, tTotal, tTx, unix, orderId, NoFault).0;
            var lines := SelectedLines(db, db.cartItems, uid);
            && |db'.orderItems| == |db.orderItems| + |lines|
            && db'.orderItems[..|db.orderItems|] == db.orderItems
            && forall i | 0 <= i < |lines| ::
                 && QuoteLine(db, lines[i], tTx).Some?
                 && db'.orderItems[|db.orderItems| + i] == MakeItem(orderId, lines[i], QuoteLine(db, lines[i], tTx).value)
  {
    CheckoutCommitted(db, uid, req, tTotal, tTx, unix, orderId);
    var lines := SelectedLines(db, db.cartItems, uid);
    var qs := QuoteLines(db, lines, tTx).value;
    var items := MakeItems(orderId, lines, qs);
    var db' := CreateOrder(db, uid, req, tTotal, tTx, unix, orderId, NoFault).0;
    assert db'.orderItems == db.orderItems + items;
    forall i | 0 <= i < |lines|
      ensures db'.orderItems[|db.orderItems| + i] == items[i]
    {
    }
  }

  /** The user's cart lines are all gone; every other line is still there. */
  lemma CheckoutClearsOnlyTheUsersCart(db: Db, uid: int, req: OrderRequest, tTotal: Time, tTx: Time, unix: int, orderId: int)
    requires CartIdsDistinct(db)
    requires CreateOrder(db, uid, req, tTotal, tTx, unix, orderId, NoFault).1.Ok?
    ensures var db' := CreateOrder(db, uid, req, tTotal, tTx, unix, orderId, NoFault).0;
            && (forall l | l in db'.cartItems :: !OwnedBy(db', l, uid))
            && (forall l, u | l in db.cartItems && u != uid && OwnedBy(db, l, u) :: l in db'.cartItems)
            && (forall l | l in db'.cartItems :: l in db.cartItems)
  {
    CheckoutCommitted(db, uid, req, tTotal, tTx, unix, orderId);
  }

  // ---------------------------------------------------------------------------
  // Total against items

  /** Every linked discount on the lines is open at t1 exactly when it is open at t2. */
  ghost predicate SameActivity(db: Db, lines: seq<CartLine>, t1: Time, t2: Time) {
    forall i | 0 <= i < |lines| && lines[i].productId in db.discounts ::
      Active(db.discounts[lines[i].productId], t1) <==> Active(db.discounts[lines[i].productId], t2)
  }

  /**
   * The total priced at tTotal equals the sum of the item subtotals priced at
   * tTx whenever no line's discount window opens or closes between the two.
   */
  lemma {:induction false} TotalMatchesItems(db: Db, lines: seq<CartLine>, tTotal: Time, tTx: Time, orderId: int)
    requires QuoteLines(db, lines, tTx).Some?
    requires SameActivity(db, lines, tTotal, tTx)
    ensures OrderTotal(db, lines, tTotal) == SumSubtotals(MakeItems(orderId, lines, QuoteLines(db, lines, tTx).value))
  {
    if |lines| > 0 {
      var qs := QuoteLines(db, lines, tTx).value;
      var items := MakeItems(orderId, lines, qs);
      assert QuoteLines(db, lines[1..], tTx).value == qs[1..];
      assert SameActivity(db, lines[1..], tTotal, tTx) by {
        forall i | 0 <= i < |lines[1..]| && lines[1..][i].productId in db.discounts
          ensures Active(db.discounts[lines[1..][i].productId], tTotal) <==> Active(db.discounts[lines[1..][i].productId], tTx)
        {
          assert lines[1..][i] == lines[i + 1];
        }
      }
      TotalMatchesItems(db, lines[1..], tTotal, tTx, orderId);
      assert items[1..] == MakeItems(orderId, lines[1..], qs[1..]);
      assert TotalTerm(db, lines[0], tTotal) == items[0].subtotal;
    }
  }

  /** At checkout level: the stored total equals the sum of the new items' subtotals. */
  lemma CheckoutTotalIsSumOfItems(db: Db, uid: int, req: OrderRequest, tTotal: Time, tTx: Time, unix: int, orderId: int)
    requires SameActivity(db, SelectedLines(db, db.cartItems, uid), tTotal, tTx)
    requires CreateOrder(db, uid, req, tTotal, tTx, unix, orderId, NoFault).1.Ok?
    ensures var db' := CreateOrder(db, uid, req, tTotal, tTx, unix, orderId, NoFault).0;
            db'.orders[|db.orders|].total == SumSubtotals(db'.orderItems[|db.orderItems|..])
  {
    CheckoutCommitted(db, uid, req, tTotal, tTx, unix, orderId);
    var lines := SelectedLines(db, db.cartItems, uid);
    var qs := QuoteLines(db, lines, tTx).value;
    var db' := CreateOrder(db, uid, req, tTotal, tTx, unix, orderId, NoFault).0;
    assert db'.orderItems[|db.orderItems|..] == MakeItems(orderId, lines, qs);
    TotalMatchesItems(db, lines, tTotal, tTx, orderId);
  }

  /** An item whose product's discount is closed still records the percent, at base price. */
  lemma ClosedDiscountStillRecorded(db: Db, line: CartLine, now: Time)
    requires line.productId in db.discounts && !Active(db.discounts[line.productId], now)
    requires BasePrice(db, line).Some?
    ensures QuoteLine(db, line, now).value.discountPercent == db.discounts[line.productId].percent
    ensures QuoteLine(db, line, now).value.discountPrice == QuoteLine(db, line, now).value.basePrice
  {
  }
}

=== FILE: checkout_scenarios.dfy ===
/** Worked checkouts on small concrete databases. */
module CheckoutScenarios {
  import opened Wrappers
  import opened Store
  import opened Pricing
  import opened Checkout

  /**
   * User 5 owns cart 9 holding product 1 in size row 7 (price 100, qty 2,
   * 10% off from t=0 to t=100) and sizeless product 2 (price 50, qty 1).
   */
  function TwoLineDb(): Db {
    Db([Product(1, "A", Some(120.0), None, false, 0), Product(2, "B", Some(50.0), None, false, 0)],
       map[],
       [SizeRow(7, 1, 100.0)],
       map[1 := Discount(10.0, 0, 100)],
       map[5 := 9],
       [CartLine(1, 9, 1, None, Some(7), 2, 200.0), CartLine(2, 9, 2, None, None, 1, 50.0)],
       [], [], map[], map[])
  }

  /** The readings of the checkout at t=50: both lines selected and quoted, total 230. */
  lemma TwoLineReadings()
    ensures var db := TwoLineDb();
            && |UserLines(db, db.cartItems, 5)| > 0
            && SelectedLines(db, db.cartItems, 5) == db.cartItems
            && QuoteLines(db, db.cartItems, 50) == Some([Quote(100.0, 10.0, 90.0, 180.0), Quote(50.0, 0.0, 50.0, 50.0)])
            && OrderTotal(db, db.cartItems, 50) == 230.0
            && OtherLines(db, db.cartItems, 5) == []
  {
    var db := TwoLineDb();
    var la, lb := db.cartItems[0], db.cartItems[1];
    assert db.cartItems == [la, lb];
    assert db.cartItems[1..] == [lb];
    assert UserLines(db, db.cartItems, 5) == [la, lb];
    assert SelectedLines(db, db.cartItems, 5) == [la, lb];
    assert QuoteLine(db, la, 50) == Some(Quote(100.0, 10.0, 90.0, 180.0));
    assert QuoteLine(db, lb, 50) == Some(Quote(50.0, 0.0, 50.0, 50.0));
    assert [la, lb][1..] == [lb];
    var qs := QuoteLines(db, [la, lb], 50);
    assert [la, lb][0] == la && [la, lb][1] == lb;
    assert qs.Some?;
    assert qs.value == [Quote(100.0, 10.0, 90.0, 180.0), Quote(50.0, 0.0, 50.0, 50.0)];
    assert OrderTotal(db, [la, lb], 50) == 230.0;
    assert OtherLines(db, db.cartItems, 5) == [];
  }

  /** 90 * 2 + 50 * 1 = 230, two items with percents 10 and 0, and an empty cart afterwards. */
  lemma TwoLineCheckout(db: Db, req: OrderRequest)
    requires db == TwoLineDb()
    ensures var r := CreateOrder(db, 5, req, 50, 50, 1700000000, 42, NoFault);
            && r.1.Ok?
            && r.1.value.total == 230.0
            && |r.0.orderItems| == 2
            && r.0.orderItems[0].subtotal == 180.0 && r.0.orderItems[0].discountPercent == 10.0
            && r.0.orderItems[1].subtotal == 50.0 && r.0.orderItems[1].discountPercent == 0.0
            && r.0.cartItems == []
  {
    var qs := [Quote(100.0, 10.0, 90.0, 180.0), Quote(50.0, 0.0, 50.0, 50.0)];
    TwoLineReadings();
    CommittedWith(db, 5, req, 50, 50, 1700000000, 42, db.cartItems, qs, 230.0);
    var items := MakeItems(42, db.cartItems, qs);
    assert [] + items == items;
  }

  /** The quotes at t=101, once the discount window has closed. */
  function LateQuotes(): seq<Quote> {
    [Quote(100.0, 10.0, 100.0, 200.0), Quote(50.0, 0.0, 50.0, 50.0)]
  }

  /** The line-level readings at t=100 and t=101. */
  lemma DivergenceReadings(db: Db)
    requires db == TwoLineDb()
    ensures && db.orders == [] && db.orderItems == []
            && |UserLines(db, db.cartItems, 5)| > 0
            && UserLines(db, db.cartItems, 5) == db.cartItems
            && SelectedLines(db, db.cartItems, 5) == db.cartItems
            && OrderTotal(db, db.cartItems, 100) == 230.0
            && QuoteLines(db, db.cartItems, 101) == Some(LateQuotes())
            && |LateQuotes()| == |db.cartItems|
            && SumSubtotals(MakeItems(42, db.cartItems, LateQuotes())) == 250.0
  {
    var la, lb := db.cartItems[0], db.cartItems[1];
    assert db.cartItems == [la, lb];
    assert db.cartItems[1..] == [lb];
    assert UserLines(db, db.cartItems, 5) == [la, lb];
    assert SelectedLines(db, db.cartItems, 5) == [la, lb];
    assert QuoteLine(db, la, 100) == Some(Quote(100.0, 10.0, 90.0, 180.0));
    assert QuoteLine(db, la, 101) == Some(Quote(100.0, 10.0, 100.0, 200.0));
    assert QuoteLine(db, lb, 101) == Some(Quote(50.0, 0.0, 50.0, 50.0));
    assert OrderTotal(db, [la, lb], 100) == 230.0;
    var qs := QuoteLines(db, [la, lb], 101);
    assert qs.Some?;
    assert [la, lb][0] == la && [la, lb][1] == lb;
    assert qs.value == LateQuotes();
    var items := MakeItems(42, [la, lb], qs.value);
    assert items[0].subtotal == 200.0 && items[1].subtotal == 50.0;
    assert items[1..][0] == items[1];
    assert items[1..][1..] == [];
    assert SumSubtotals(items[1..]) == 50.0 + SumSubtotals(items[1..][1..]);
    assert SumSubtotals(items) == 200.0 + SumSubtotals(items[1..]);
  }

  /** A committed checkout whose items add up to itemsSum while its header records total. */
  lemma HeaderAndItemsFrom(db: Db, uid: int, req: OrderRequest, tTotal: Time, tTx: Time, unix: int, orderId: int,
                           qs: seq<Quote>, total: real, itemsSum: real)
    requires db.orders == [] && db.orderItems == []
    requires |UserLines(db, db.cartItems, uid)| > 0
    requires SelectedLines(db, db.cartItems, uid) == db.cartItems
    requires QuoteLines(db, db.cartItems, tTx) == Some(qs)
    requires OrderTotal(db, db.cartItems, tTotal) == total
    requires |qs| == |db.cartItems| && SumSubtotals(MakeItems(orderId, db.cartItems, qs)) == itemsSum
    ensures var r := CreateOrder(db, uid, req, tTotal, tTx, unix, orderId, NoFault);
            && r.1.Ok?
            && |r.0.orders| == 1 && r.0.orders[0].total == total
            && SumSubtotals(r.0.orderItems) == itemsSum
  {
    CommittedWith(db, uid, req, tTotal, tTx, unix, orderId, db.cartItems, qs, total);
    var items := MakeItems(orderId, db.cartItems, qs);
    assert [] + items == items;
  }

  /**
   * The total query runs at t=100, the last instant of the discount; the
   * transaction starts at t=101. The header then says 230 while the items
   * add up to 250: the two NOW() readings disagree.
   */
  lemma TotalAndItemsDivergeAcrossWindowEnd(db: Db, req: OrderRequest)
    requires db == TwoLineDb()
    ensures var r := CreateOrder(db, 5, req, 100, 101, 1700000000, 42, NoFault);
            && r.1.Ok?
            && |r.0.orders| == 1 && r.0.orders[0].total == 230.0
            && SumSubtotals(r.0.orderItems) == 250.0
  {
    DivergenceReadings(db);
    HeaderAndItemsFrom(db, 5, req, 100, 101, 1700000000, 42, LateQuotes(), 230.0, 250.0);
  }
}

=== FILE: favorite_handler.dfy ===
/**
 * controllers/favorite.go: the favourites listing behind a cache keyed by
 * the raw request URI. Nothing ever deletes these entries; they live until
 * their TTL runs out.
 */
module FavoriteHandler {
  import opened Wrappers
  import opened Text
  import opened Store
  import opened Http
  import opened Paging
  import Cache
  import Favorites

  /**
   * The parsed number, or the fallback when parsing reports any error or the
   * number is below 1; unlike parseInt, a range error also falls back.
   */
  function NumberOr(s: string, fallback: int): (r: int)
    requires fallback >= 1
    ensures r >= 1
    ensures Atoi(s).Number? && Atoi(s).n >= 1 ==> r == Atoi(s).n
    ensures !(Atoi(s).Number? && Atoi(s).n >= 1) ==> r == fallback
  {
    match Atoi(s)
    case Number(n) => if n < 1 then fallback else n
    case _ => fallback
  }

  /** The pagination block: page and limit are the raw query texts, echoed back. */
  datatype Pagination = Pagination(page: string, limit: string, totalData: nat, totalPage: nat)

  datatype FavoriteData = FavoriteData(products: seq<Favorites.FavoriteRow>, pagination: Pagination)

  /** The response data: the cached JSON as stored, or the page just read. */
  datatype Body = FromCache(payload: string) | FromDb(data: FavoriteData)

  /** models.Favorite on the parsed page and limit, with the pagination built around its total. */
  function Compute(db: Db, pageText: string, limitText: string, fault: Favorites.FavoriteFault): (r: Result<FavoriteData>)
    ensures r.Ok? <==> fault.NoFault?
    ensures r.Ok? ==>
              var g := Favorites.Favorite(db, NumberOr(pageText, 1), NumberOr(limitText, 4), fault).value;
              && r.value.products == g.0
              && r.value.pagination.page == pageText
              && r.value.pagination.limit == limitText
              && r.value.pagination.totalData == g.1
              && r.value.pagination.totalPage == TotalPages(g.1, NumberOr(limitText, 4))
  {
    var limit := NumberOr(limitText, 4);
    match Favorites.Favorite(db, NumberOr(pageText, 1), limit, fault)
    case Err(m) => Err(m)
    case Ok(g) => Ok(FavoriteData(g.0, Pagination(pageText, limitText, g.1, TotalPages(g.1, limit))))
  }

  function Answer(out: Cache.Outcome<FavoriteData>): Response<Body> {
    match out
    case Cached(p) => Response(200, true, "list favorite products ( from cache )", Some(FromCache(p)))
    case Stored(d) => Success("list products favorite", FromDb(d))
    case NotStored(_) => Fail(400, "failed marshal data")
    case Failed(m) => Fail(400, m)
  }

  /** The handler once the page has been computed (or not needed): the cache-aside part. */
  function Serve(c: Cache.Store, now: Time, requestUri: string, getFails: bool, computed: Result<FavoriteData>,
                 encode: FavoriteData -> Option<string>): (r: (Cache.Store, Response<Body>))
    ensures Cache.Lookup(c, requestUri, now, getFails).Some? ==>
              r == (c, Response(200, true, "list favorite products ( from cache )", Some(FromCache(c[requestUri].payload))))
    ensures Cache.Lookup(c, requestUri, now, getFails).None? ==>
              && (computed.Err? ==> r == (c, Fail(400, computed.msg)))
              && (computed.Ok? && encode(computed.value).None? ==> r == (c, Fail(400, "failed marshal data")))
              && (computed.Ok? && encode(computed.value).Some? ==>
                    r == (Cache.Put(c, requestUri, encode(computed.value).value, now, 15 * 60),
                          Success("list products favorite", FromDb(computed.value))))
    ensures r.1.status == 400 ==> r.0 == c
  {
    var (c1, out) := Cache.GetOrCompute(c, Cache.FavoriteKey(requestUri), now, Cache.FavoriteTtl, getFails,
                                        computed, encode);
    (c1, Answer(out))
  }

  /**
   * controllers.FavoriteProduct. requestUri is ctx.Request.RequestURI;
   * encode is json.Marshal (None when it fails).
   */
  function FavoriteProduct(db: Db, c: Cache.Store, now: Time, requestUri: string, pageQ: Option<string>,
                           limitQ: Option<string>, getFails: bool, fault: Favorites.FavoriteFault,
                           encode: FavoriteData -> Option<string>): (r: (Cache.Store, Response<Body>))
    ensures Cache.Lookup(c, requestUri, now, getFails).Some? ==>
              r == (c, Response(200, true, "list favorite products ( from cache )", Some(FromCache(c[requestUri].payload))))
    ensures r.1.status == 400 ==> r.0 == c
    ensures Cache.Lookup(c, requestUri, now, getFails).None? && !fault.NoFault? ==> r.0 == c && r.1.status == 400
    ensures r.1.data.Some? && r.1.data.value.FromDb? ==>
              var d := r.1.data.value.data;
              && d.pagination.page == pageQ.GetOr("1")
              && d.pagination.limit == limitQ.GetOr("4")
              && d.pagination.totalData == |Favorites.FavoriteProducts(db)|
              && |d.products| <= NumberOr(limitQ.GetOr("4"), 4)
              && encode(d).Some? && r.0 == Cache.Put(c, requestUri, encode(d).value, now, 15 * 60)
  {
    Serve(c, now, requestUri, getFails, Compute(db, pageQ.GetOr("1"), limitQ.GetOr("4"), fault), encode)
  }

  /** On a hit models.Favorite is not consulted: any database state and fault give the same answer. */
  lemma HitSkipsDatabase(db1: Db, db2: Db, c: Cache.Store, now: Time, uri: string, pageQ: Option<string>,
                         limitQ: Option<string>, getFails: bool, f1: Favorites.FavoriteFault,
                         f2: Favorites.FavoriteFault, encode: FavoriteData -> Option<string>)
    requires Cache.Lookup(c, uri, now, getFails).Some?
    ensures FavoriteProduct(db1, c, now, uri, pageQ, limitQ, getFails, f1, encode) ==
            FavoriteProduct(db2, c, now, uri, pageQ, limitQ, getFails, f2, encode)
  {
  }

  /**
   * Two URIs asking for the same page and limit use different entries:
   * filling one leaves the other missing.
   */
  lemma SpellingsDoNotShareEntries(db: Db, c: Cache.Store, now: Time, later: Time, getFails: bool,
                                   encode: FavoriteData -> Option<string>)
    requires Cache.Lookup(c, "/favorite-product", later, false).None?
    ensures NumberOr("1", 1) == NumberOr("01", 1) == 1
    ensures var c1 := FavoriteProduct(db, c, now, "/favorite-product?page=01", Some("01"), None, getFails,
                                      Favorites.NoFault, encode).0;
            Cache.Lookup(c1, "/favorite-product", later, false).None?
  {
    assert Atoi("1") == Number(1) by {
      assert DigitsValue("1") == 1 by {
        assert "1"[..0] == [];
      }
    }
    assert Atoi("01") == Number(1) by {
      assert "01"[..1] == "0";
      assert DigitsValue("01") == 1 by {
        assert DigitsValue("0") == 0 by {
          assert "0"[..0] == [];
        }
      }
    }
  }

  /** Nothing a product or user write deletes can reach a favourites entry. */
  lemma EntriesSurviveWrites(c: Cache.Store, requestUri: string, now: Time, getFails: bool)
    requires IsPrefix("/favorite-product", requestUri)
    ensures Cache.Lookup(Cache.InvalidatePrefix(c, Cache.ProductPattern), requestUri, now, getFails) ==
            Cache.Lookup(c, requestUri, now, getFails)
    ensures Cache.Lookup(Cache.InvalidatePrefix(c, Cache.UserPattern), requestUri, now, getFails) ==
            Cache.Lookup(c, requestUri, now, getFails)
  {
    Cache.FavoriteKeysEscapeBothPatterns(requestUri);
  }

  /** A page text that does not parse lists page 1 but echoes the text it was given. */
  lemma MalformedPageEchoed(db: Db, c: Cache.Store, now: Time, uri: string, limitQ: Option<string>,
                            encode: FavoriteData -> Option<string>)
    requires Cache.Lookup(c, uri, now, false).None?
    requires encode(Compute(db, "abc", limitQ.GetOr("4"), Favorites.NoFault).value).Some?
    ensures NumberOr("abc", 1) == 1
    ensures var r := FavoriteProduct(db, c, now, uri, Some("abc"), limitQ, false, Favorites.NoFault, encode).1;
            && r.status == 200
            && r.data.value.data.pagination.page == "abc"
            && r.data.value.data.products ==
               Favorites.Favorite(db, 1, NumberOr(limitQ.GetOr("4"), 4), Favorites.NoFault).value.0
  {
    assert !IsDigit("abc"[0]);
  }
}

=== FILE: favorites.dfy ===
/**
 * models/favorite.go: the favourite products, newest first, one page at a
 * time, with the number of favourites as total.
 */
module Favorites {
  import opened Wrappers
  import opened Store
  import opened Sorting
  import opened Paging
  import Catalog

  /** One listed favourite (the image, variant and size aggregates are not modelled). */
  datatype FavoriteRow = FavoriteRow(id: int, name: string, minPrice: real, category: string, createdAt: Time)

  /** The listing query or the count query fails. */
  datatype FavoriteFault = NoFault | QueryFails | CountFails

  /** WHERE p.is_favorite = TRUE, in table order. */
  function FavoriteProducts(db: Db): (r: seq<Product>)
    ensures forall x | x in r :: x in db.products && x.isFavorite
    ensures forall x | x in db.products && x.isFavorite :: x in r
  {
    Catalog.FilterBy(db.products, (p: Product) => p.isFavorite)
  }

  /** Every favourite, newest first. */
  function RankedFavorites(db: Db): (r: seq<Product>)
    ensures |r| == |FavoriteProducts(db)|
    ensures multiset(r) == multiset(FavoriteProducts(db))
    ensures forall i, j | 0 <= i < j < |r| :: r[i].createdAt >= r[j].createdAt
  {
    Catalog.BeforeIsTotalPreorder(db, Catalog.CreatedDesc);
    var r := Sort(FavoriteProducts(db), Catalog.Before(db, Catalog.CreatedDesc));
    assert forall i, j | 0 <= i < j < |r| :: Catalog.Before(db, Catalog.CreatedDesc)(r[i], r[j]);
    r
  }

  /** The favourites on the requested page: page below 1 is 1, limit below 1 is 4. */
  function FavoritesPage(db: Db, page: int, limit: int): (r: seq<Product>)
    ensures |r| <= ClampLimit(limit, 4)
    ensures forall x | x in r :: x in db.products && x.isFavorite
    ensures forall i, j | 0 <= i < j < |r| :: r[i].createdAt >= r[j].createdAt
  {
    var ranked := RankedFavorites(db);
    var w := Window(ranked, Offset(ClampPage(page), ClampLimit(limit, 4)), ClampLimit(limit, 4));
    assert forall x | x in w :: x in db.products && x.isFavorite by {
      forall x | x in w ensures x in db.products && x.isFavorite {
        assert x in multiset(ranked);
        assert x in multiset(FavoriteProducts(db));
      }
    }
    w
  }

  /** The scanned row: min_price is COALESCE(MIN(size price), 0), never NULL. */
  function RowOf(db: Db, p: Product): (r: FavoriteRow)
    ensures r.id == p.id && r.name == p.name && r.createdAt == p.createdAt
    ensures r.minPrice == Catalog.FilterPrice(db, p)
  {
    FavoriteRow(p.id, p.name, Catalog.FilterPrice(db, p), Catalog.CategoryName(db, p).GetOr(""), p.createdAt)
  }

  /**
   * models.Favorite: the page of favourites and the number of favourites.
   * min_price and the aggregates are COALESCEd; the scan fails only on a
   * NULL description, stock or timestamp, which the model takes as NOT NULL.
   */
  function Favorite(db: Db, page: int, limit: int, fault: FavoriteFault): (r: Result<(seq<FavoriteRow>, nat)>)
    ensures r.Ok? <==> fault.NoFault?
    ensures r.Ok? ==> |r.value.0| == |FavoritesPage(db, page, limit)| <= ClampLimit(limit, 4)
    ensures r.Ok? ==> forall i | 0 <= i < |r.value.0| :: r.value.0[i] == RowOf(db, FavoritesPage(db, page, limit)[i])
    ensures r.Ok? ==> r.value.1 == |FavoriteProducts(db)|
  {
    if fault.QueryFails? then Err("favorite query failed")
    else
      var ps := FavoritesPage(db, page, limit);
      var rows := seq(|ps|, i requires 0 <= i < |ps| => RowOf(db, ps[i]));
      if fault.CountFails? then Err("favorite count failed")
      else Ok((rows, |FavoriteProducts(db)|))
  }

  /** Only favourite products are listed, newest first. */
  lemma ListsOnlyFavoritesNewestFirst(db: Db, page: int, limit: int)
    requires Favorite(db, page, limit, NoFault).Ok?
    ensures var rows := Favorite(db, page, limit, NoFault).value.0;
            && (forall i | 0 <= i < |rows| :: exists p | p in db.products :: p.isFavorite && p.id == rows[i].id)
            && (forall i, j | 0 <= i < j < |rows| :: rows[i].createdAt >= rows[j].createdAt)
  {
    var rows := Favorite(db, page, limit, NoFault).value.0;
    var ps := FavoritesPage(db, page, limit);
    forall i | 0 <= i < |rows| ensures exists p | p in db.products :: p.isFavorite && p.id == rows[i].id {
      assert ps[i] in ps;
    }
  }

  /** The total counts every favourite, so it is the same for every page and limit. */
  lemma TotalIgnoresPaging(db: Db, p1: int, l1: int, p2: int, l2: int)
    ensures Favorite(db, p1, l1, NoFault).value.1 == Favorite(db, p2, l2, NoFault).value.1
  {
  }

  /**
   * The n-th newest favourite is row n % limit of page n / limit + 1, so
   * paging through the favourites reaches every one of them.
   */
  lemma EveryFavoriteOnSomePage(db: Db, limit: int, n: nat)
    requires limit >= 1 && n < |FavoriteProducts(db)|
    ensures var rows := Favorite(db, n / limit + 1, limit, NoFault).value.0;
            n % limit < |rows| && rows[n % limit] == RowOf(db, RankedFavorites(db)[n])
  {
    var page := n / limit + 1;
    var ranked := RankedFavorites(db);
    assert ClampPage(page) == page && ClampLimit(limit, 4) == limit;
    assert FavoritesPage(db, page, limit) == Window(ranked, Offset(page, limit), limit);
    RowOnItsPage(ranked, limit, n);
  }

  /**
   * A favourite without sizes lists at 0 here, while GetProducts would
   * show the product's own price.
   */
  lemma SizelessFavoriteListsAtZero(db: Db, p: Product)
    requires forall i | 0 <= i < |db.sizes| :: db.sizes[i].productId != p.id
    ensures RowOf(db, p).minPrice == 0.0
    ensures Catalog.DisplayPrice(db, p) == p.price
  {
  }
}

=== FILE: gates.dfy ===
/**
 * middleware/auth.go and middleware/admin.go: the bearer-token gate that
 * fills the request context, and the role gate of the /admin group. Token
 * verification (lib.VerifyToken) is a parameter.
 */
module Gates {
  import opened Wrappers
  import opened Text

  /** lib.UserPayload: what a verified token carries. */
  datatype Payload = Payload(id: int, role: string)

  /** The keys a handler may read from the gin context. */
  datatype Context = Context(user: Option<Payload>, userId: Option<int>, role: Option<string>)

  /** Next runs the rest of the chain with ctx; Abort writes status and message and stops it. */
  datatype Gate = Next(ctx: Context) | Abort(status: int, message: string)

  const BearerPrefix: string := "Bearer "

  /** The token Auth sends to verification: the header without its leading "Bearer ". */
  function BearerToken(header: string): (r: string)
    ensures IsPrefix(BearerPrefix, header) ==> BearerPrefix + r == header
  {
    TrimPrefix(header, BearerPrefix)
  }

  /** middleware.Auth. verify is lib.VerifyToken: None when the token does not verify. */
  function Auth(header: string, ctx: Context, verify: string -> Option<Payload>): (r: Gate)
    ensures !IsPrefix(BearerPrefix, header) ==> r == Abort(401, "Unauthorized")
    ensures IsPrefix(BearerPrefix, header) && verify(BearerToken(header)).None? ==> r == Abort(401, "Token invalid")
    ensures r.Next? <==> IsPrefix(BearerPrefix, header) && verify(BearerToken(header)).Some?
    ensures r.Next? ==> var p := verify(BearerToken(header)).value;
                        r.ctx == Context(Some(p), Some(p.id), Some(p.role))
  {
    if !IsPrefix(BearerPrefix, header) then Abort(401, "Unauthorized")
    else
      match verify(BearerToken(header))
      case None => Abort(401, "Token invalid")
      case Some(p) => Next(ctx.(user := Some(p), userId := Some(p.id), role := Some(p.role)))
  }

  /** middleware.AdminOnly: reads the payload Auth stored under "user". */
  function AdminOnly(ctx: Context): (r: Gate)
    ensures ctx.user.None? ==> r == Abort(401, "Unauthorized")
    ensures ctx.user.Some? && ctx.user.value.role != "admin" ==> r == Abort(403, "Forbidden: Admin only")
    ensures r.Next? <==> ctx.user.Some? && ctx.user.value.role == "admin"
    ensures r.Next? ==> r.ctx == ctx
  {
    match ctx.user
    case None => Abort(401, "Unauthorized")
    case Some(p) => if p.role != "admin" then Abort(403, "Forbidden: Admin only") else Next(ctx)
  }

  /** Auth, then AdminOnly if Auth let the request through: the /admin group's chain. */
  function AdminChain(header: string, ctx: Context, verify: string -> Option<Payload>): Gate {
    match Auth(header, ctx, verify)
    case Abort(s, m) => Abort(s, m)
    case Next(c) => AdminOnly(c)
  }

  /**
   * An admin handler runs only for a "Bearer " header whose token verifies
   * to an admin payload, and then sees that payload's id and role.
   */
  lemma AdminHandlerNeedsVerifiedAdmin(header: string, ctx: Context, verify: string -> Option<Payload>)
    ensures AdminChain(header, ctx, verify).Next? <==>
              && IsPrefix(BearerPrefix, header)
              && verify(BearerToken(header)).Some?
              && verify(BearerToken(header)).value.role == "admin"
    ensures AdminChain(header, ctx, verify).Next? ==>
              var p := verify(BearerToken(header)).value;
              AdminChain(header, ctx, verify).ctx == Context(Some(p), Some(p.id), Some("admin"))
  {
  }

  /**
   * Whatever the context held before (a role planted by an earlier
   * handler, say), the chain decides on the verified payload alone.
   */
  lemma PriorContextIgnored(header: string, c1: Context, c2: Context, verify: string -> Option<Payload>)
    ensures AdminChain(header, c1, verify) == AdminChain(header, c2, verify)
  {
  }

  /** A verified non-admin gets 403; a missing or bad token gets 401. */
  lemma ChainStatuses(header: string, ctx: Context, verify: string -> Option<Payload>)
    ensures AdminChain(header, ctx, verify).Abort? ==>
              AdminChain(header, ctx, verify).status == (if Auth(header, ctx, verify).Abort? then 401 else 403)
  {
  }

  /** The prefix is removed once: "Bearer Bearer t" sends "Bearer t". */
  lemma PrefixRemovedOnce(t: string)
    ensures BearerToken(BearerPrefix + BearerPrefix + t) == BearerPrefix + t
  {
    var h := BearerPrefix + BearerPrefix + t;
    assert h[..|BearerPrefix|] == BearerPrefix;
    assert h[|BearerPrefix|..] == BearerPrefix + t;
  }
}

=== FILE: http.dfy ===
/** What a gin handler writes back: the status code and the models.Response body. */
module Http {
  import opened Wrappers

  datatype Response<D> = Response(status: int, success: bool, message: string, data: Option<D>)

  function Fail<D>(status: int, message: string): Response<D> {
    Response(status, false, message, None)
  }

  function Success<D>(message: string, data: D): Response<D> {
    Response(200, true, message, Some(data))
  }
}

=== FILE: order_handler.dfy ===
/**
 * controllers.CreateOrder: the id checks and the profile fallback for blank
 * customer fields in front of models.CreateOrder. The profile is read with
 * `WHERE id = $1` on the authenticated user id, so it is looked up by the
 * profile's own id, not by its users_id.
 */
module OrderHandler {
  import opened Wrappers
  import opened Store
  import opened Http
  import Checkout

  /** The response data: the receipt, or the error text the handler attaches. */
  datatype OrderBody = Placed(receipt: Checkout.Receipt) | ErrorText(text: string)

  /** How the fallback ended: a request to pass on, a failed profile read, or no address to use. */
  datatype Fill = Filled(req: Checkout.OrderRequest) | LookupFailed(err: string) | Incomplete

  predicate AnyBlank(req: Checkout.OrderRequest) {
    req.customerName == "" || req.customerPhone == "" || req.customerAddress == ""
  }

  /** A blank request field takes the profile's value when that is not NULL. */
  function FillField(given: string, stored: Option<string>): (r: string)
    ensures given != "" ==> r == given
    ensures given == "" && stored.Some? ==> r == stored.value
    ensures given == "" && stored.None? ==> r == ""
  {
    if given == "" && stored.Some? then stored.value else given
  }

  /**
   * The fallback: with every field given, the request passes unchanged;
   * otherwise the profile row with id uid is read, its address must be
   * present and non-empty, and only blank fields are filled.
   */
  function FillFromProfile(db: Db, uid: int, req: Checkout.OrderRequest, lookupFails: bool): (r: Fill)
    ensures !AnyBlank(req) ==> r == Filled(req)
    ensures AnyBlank(req) && (lookupFails || uid !in db.profiles) ==> r.LookupFailed?
    ensures AnyBlank(req) && !lookupFails && uid in db.profiles ==>
              var p := db.profiles[uid];
              (r.Incomplete? <==> p.address.None? || p.address.value == "")
    ensures r.Filled? ==>
              && r.req.paymentId == req.paymentId
              && r.req.shippingId == req.shippingId
              && r.req.methodId == req.methodId
              && (req.customerName != "" ==> r.req.customerName == req.customerName)
              && (req.customerPhone != "" ==> r.req.customerPhone == req.customerPhone)
              && (req.customerAddress != "" ==> r.req.customerAddress == req.customerAddress)
              && r.req.customerAddress != ""
  {
    if !AnyBlank(req) then Filled(req)
    else if lookupFails then LookupFailed("profile lookup failed")
    else if uid !in db.profiles then LookupFailed("no rows in result set")
    else
      var p := db.profiles[uid];
      if p.address.None? || p.address.value == "" then Incomplete
      else
        Filled(req.(customerName := FillField(req.customerName, p.username),
                    customerPhone := FillField(req.customerPhone, p.phone),
                    customerAddress := FillField(req.customerAddress, p.address)))
  }

  /**
   * controllers.CreateOrder for the authenticated user uid. lookupFails
   * injects a failing profile query; the remaining parameters are those of
   * models.CreateOrder.
   */
  function CreateOrder(db: Db, uid: int, req: Checkout.OrderRequest, lookupFails: bool, tTotal: Time, tTx: Time,
                       unix: int, orderId: int, fault: Checkout.Fault): (r: (Db, Response<OrderBody>))
    ensures r.1.status == 200 || r.1.status == 400
    ensures r.1.status == 400 ==> r.0 == db
    ensures req.paymentId == 0 || req.methodId == 0 ==>
              r == (db, Fail(400, "payment_id, shipping_id, and method_id are required"))
    ensures req.paymentId != 0 && req.methodId != 0 ==>
              match FillFromProfile(db, uid, req, lookupFails)
              case LookupFailed(e) => r == (db, Response(400, false, "Failed to fetch user info", Some(ErrorText(e))))
              case Incomplete => r == (db, Fail(400, "complete the data first"))
              case Filled(full) =>
                var s := Checkout.CreateOrder(db, uid, full, tTotal, tTx, unix, orderId, fault);
                && r.0 == s.0
                && (s.1.Err? ==> r.1 == Response(400, false, "Failed to create order", Some(ErrorText(s.1.msg))))
                && (s.1.Ok? ==> r.1 == Success("Order created successfully", Placed(s.1.value)))
  {
    if req.paymentId == 0 || req.methodId == 0 then
      (db, Fail(400, "payment_id, shipping_id, and method_id are required"))
    else
      match FillFromProfile(db, uid, req, lookupFails)
      case LookupFailed(e) => (db, Response(400, false, "Failed to fetch user info", Some(ErrorText(e))))
      case Incomplete => (db, Fail(400, "complete the data first"))
      case Filled(full) =>
        var s := Checkout.CreateOrder(db, uid, full, tTotal, tTx, unix, orderId, fault);
        match s.1
        case Err(msg) => (s.0, Response(400, false, "Failed to create order", Some(ErrorText(msg))))
        case Ok(receipt) => (s.0, Success("Order created successfully", Placed(receipt)))
  }

  /** Only payment and method ids are checked: a zero shipping id still reaches the store. */
  lemma ShippingIdNeverChecked(db: Db, uid: int, req: Checkout.OrderRequest, tTotal: Time, tTx: Time,
                               unix: int, orderId: int)
    requires req.paymentId != 0 && req.methodId != 0 && req.shippingId == 0 && !AnyBlank(req)
    requires Checkout.CreateOrder(db, uid, req, tTotal, tTx, unix, orderId, Checkout.NoFault).1.Ok?
    ensures var r := CreateOrder(db, uid, req, false, tTotal, tTx, unix, orderId, Checkout.NoFault);
            && r.1.status == 200
            && r.0.orders[|db.orders|].shippingId == 3
  {
    Checkout.CheckoutHeader(db, uid, req, tTotal, tTx, unix, orderId);
  }

  /**
   * With every customer field given, the profile is never read (a failing
   * profile query changes nothing) and the request reaches the store as sent.
   */
  lemma CompleteRequestPassesThrough(db: Db, uid: int, req: Checkout.OrderRequest, tTotal: Time, tTx: Time,
                                     unix: int, orderId: int, fault: Checkout.Fault)
    requires !AnyBlank(req) && req.paymentId != 0 && req.methodId != 0
    ensures CreateOrder(db, uid, req, true, tTotal, tTx, unix, orderId, fault) ==
            CreateOrder(db, uid, req, false, tTotal, tTx, unix, orderId, fault)
    ensures CreateOrder(db, uid, req, true, tTotal, tTx, unix, orderId, fault).0 ==
            Checkout.CreateOrder(db, uid, req, tTotal, tTx, unix, orderId, fault).0
  {
  }

  /**
   * A blank field and a profile without an address give "complete the data
   * first", even when the request brought its own address.
   */
  lemma ProfileAddressRequired(db: Db, uid: int, req: Checkout.OrderRequest, tTotal: Time, tTx: Time,
                               unix: int, orderId: int, fault: Checkout.Fault)
    requires req.paymentId != 0 && req.methodId != 0 && req.customerAddress != "" && req.customerName == ""
    requires uid in db.profiles && (db.profiles[uid].address.None? || db.profiles[uid].address == Some(""))
    ensures CreateOrder(db, uid, req, false, tTotal, tTx, unix, orderId, fault) == (db, Fail(400, "complete the data first"))
  {
  }

  /**
   * The profile read is keyed by the profile's id: a user whose profile row
   * has another id gets that other row's contact data, or a failed lookup.
   */
  lemma LookupIsByProfileId(db: Db, uid: int, other: int, req: Checkout.OrderRequest)
    requires AnyBlank(req) && other != uid
    requires other in db.profiles && db.profiles[other].usersId == uid
    requires uid in db.profiles && db.profiles[uid].usersId != uid
    requires db.profiles[uid].address.Some? && db.profiles[uid].address.value != ""
    requires req.customerAddress == ""
    ensures FillFromProfile(db, uid, req, false) == Filled(req.(
              customerName := FillField(req.customerName, db.profiles[uid].username),
              customerPhone := FillField(req.customerPhone, db.profiles[uid].phone),
              customerAddress := db.profiles[uid].address.value))
  {
  }
}

=== FILE: paging.dfy ===
/** Page and limit handling shared by the listings: clamping, offsets, windows, page counts. */
module Paging {

  /** A page below 1 is read as page 1. */
  function ClampPage(page: int): (r: int)
    ensures r >= 1
    ensures page >= 1 ==> r == page
    ensures page < 1 ==> r == 1
  {
    if page < 1 then 1 else page
  }

  /** A limit below 1 is replaced by the fallback. */
  function ClampLimit(limit: int, fallback: int): (r: int)
    requires fallback >= 1
    ensures r >= 1
    ensures limit >= 1 ==> r == limit
    ensures limit < 1 ==> r == fallback
  {
    if limit < 1 then fallback else limit
  }

  /** OFFSET (page - 1) * limit. */
  function Offset(page: int, limit: int): nat
    requires page >= 1 && limit >= 1
  {
    (page - 1) * limit
  }

  /** LIMIT limit OFFSET offset over an ordered result. */
  function Window<T>(s: seq<T>, offset: nat, limit: nat): (r: seq<T>)
    ensures |r| <= limit
    ensures offset >= |s| ==> r == []
    ensures offset < |s| ==> |r| == (if limit <= |s| - offset then limit else |s| - offset)
    ensures forall i | 0 <= i < |r| :: offset + i < |s| && r[i] == s[offset + i]
  {
    if offset >= |s| then []
    else if limit <= |s| - offset then s[offset..offset + limit]
    else s[offset..]
  }

  /** Row i of a result is row i % limit of page i / limit + 1. */
  lemma RowOnItsPage<T>(s: seq<T>, limit: int, i: nat)
    requires limit >= 1 && i < |s|
    ensures var page := i / limit + 1;
            var w := Window(s, Offset(page, limit), limit);
            i % limit < |w| && w[i % limit] == s[i]
  {
    var page := i / limit + 1;
    var off := Offset(page, limit);
    assert off == (i / limit) * limit;
    assert off + i % limit == i;
  }

  /** (total + limit - 1) / limit for a positive limit: the number of pages, rounding up. */
  function TotalPages(total: nat, limit: int): (r: nat)
    requires limit >= 1
    ensures r * limit >= total
    ensures r > 0 ==> (r - 1) * limit < total
  {
    var r := (total + limit - 1) / limit;
    assert r * limit >= total && (r > 0 ==> (r - 1) * limit < total) by {
      DivBounds(total + limit - 1, limit);
    }
    r
  }

  lemma DivBounds(a: nat, d: int)
    requires d >= 1
    ensures (a / d) * d <= a < (a / d) * d + d
  {
  }

  /** Go's integer division, which truncates toward zero. */
  function GoDiv(a: int, b: int): (r: int)
    requires b != 0
    ensures a >= 0 && b > 0 ==> r == a / b
    ensures -a >= 0 && -b > 0 ==> r == (-a) / (-b)
    // the Go specification's definition: the remainder a - r * b is smaller
    // than b in magnitude and is zero or takes the dividend's sign
    ensures var m := a - r * b;
            && (if m < 0 then -m else m) < (if b < 0 then -b else b)
            && (m == 0 || (m < 0) == (a < 0))
  {
    var aa := if a < 0 then -a else a;
    var bb := if b < 0 then -b else b;
    var q := aa / bb;
    var r := if (a < 0) != (b < 0) then -q else q;
    TruncatedRemainder(a, b, aa, bb, q, r);
    r
  }

  /** The remainder of the truncated quotient is the magnitudes' remainder, with a's sign. */
  lemma TruncatedRemainder(a: int, b: int, aa: nat, bb: int, q: int, r: int)
    requires b != 0 && aa == (if a < 0 then -a else a) && bb == (if b < 0 then -b else b)
    requires q == aa / bb && r == (if (a < 0) != (b < 0) then -q else q)
    ensures a - r * b == (if a < 0 then -(aa - q * bb) else aa - q * bb)
    ensures 0 <= aa - q * bb < bb
  {
    DivBounds(aa, bb);
    if b < 0 {
      assert r * b == (-r) * bb;
    } else {
      assert r * b == r * bb;
    }
  }
}

=== FILE: pricing.dfy ===
/**
 * Pricing of one cart line as the checkout queries compute it
 * (models/order.go): base price, discount activity, discounted price.
 */
module Pricing {
  import opened Wrappers
  import opened Store

  /** NOW() BETWEEN start AND end: closed at both ends. */
  predicate Active(d: Discount, now: Time) {
    d.start <= now <= d.end
  }

  /** The discount linked to a product through product_discount, if any. */
  function LinkedDiscount(db: Db, productId: int): Option<Discount> {
    if productId in db.discounts then Some(db.discounts[productId]) else None
  }

  /**
   * COALESCE(ps.price, p.price), with product_size joined on ps.id = size_id:
   * the size row's price when the line names an existing size row, else the
   * product's own price (NULL when the product has none). This is not the
   * minimum size price the cart uses for sizeless lines.
   */
  function BasePrice(db: Db, line: CartLine): (r: Option<real>)
    ensures line.sizeId.Some? && FindSize(db.sizes, line.sizeId.value).Some? ==>
              r == Some(FindSize(db.sizes, line.sizeId.value).value.price)
    ensures (line.sizeId.None? || FindSize(db.sizes, line.sizeId.value).None?) ==>
              r == (match FindProduct(db.products, line.productId)
                    case Some(p) => p.price
                    case None => None)
  {
    var sizeRow := if line.sizeId.Some? then FindSize(db.sizes, line.sizeId.value) else None;
    if sizeRow.Some? then Some(sizeRow.value.price)
    else match FindProduct(db.products, line.productId)
      case Some(p) => p.price
      case None => None
  }

  /** The CASE expression: base less percent when a linked discount is active, else base. */
  function DiscountPrice(base: real, d: Option<Discount>, now: Time): (r: real)
    ensures d.Some? && Active(d.value, now) ==> r == base * (1.0 - d.value.percent / 100.0)
    ensures !(d.Some? && Active(d.value, now)) ==> r == base
  {
    if d.Some? && Active(d.value, now) then base - base * d.value.percent / 100.0 else base
  }

  /** COALESCE(d.percent_discount, 0): stored whether or not the window is open. */
  function StoredPercent(d: Option<Discount>): real {
    if d.Some? then d.value.percent else 0.0
  }

  /** A percentage in [0, 100] never raises a non-negative price nor makes it negative. */
  lemma DiscountPriceBounds(base: real, d: Option<Discount>, now: Time)
    requires base >= 0.0
    requires d.Some? ==> 0.0 <= d.value.percent <= 100.0
    ensures 0.0 <= DiscountPrice(base, d, now) <= base
  {
    if d.Some? && Active(d.value, now) {
      var p := d.value.percent;
      assert 0.0 <= base * (100.0 - p);
      assert 0.0 <= base * p <= base * 100.0;
      assert 0.0 <= base * p / 100.0 <= base;
    }
  }

  /** The frozen pricing of one line: what one order_items row records. */
  datatype Quote = Quote(basePrice: real, discountPercent: real, discountPrice: real, subtotal: real)

  /** None when the base price is NULL, which makes the row scan fail. */
  function QuoteLine(db: Db, line: CartLine, now: Time): (r: Option<Quote>)
    ensures r.None? <==> BasePrice(db, line).None?
    ensures r.Some? ==> r.value.basePrice == BasePrice(db, line).value
    ensures r.Some? ==> r.value.discountPercent == StoredPercent(LinkedDiscount(db, line.productId))
    ensures r.Some? ==> r.value.discountPrice == DiscountPrice(r.value.basePrice, LinkedDiscount(db, line.productId), now)
    ensures r.Some? ==> r.value.subtotal == r.value.discountPrice * line.qty as real
  {
    match BasePrice(db, line)
    case None => None
    case Some(base) =>
      var d := LinkedDiscount(db, line.productId);
      var price := DiscountPrice(base, d, now);
      Some(Quote(base, StoredPercent(d), price, price * line.qty as real))
  }

  /**
   * One term of the total's SUM: (discounted base) * qty, where a NULL base
   * makes the term NULL and SUM skips it.
   */
  function TotalTerm(db: Db, line: CartLine, now: Time): (r: real)
    ensures QuoteLine(db, line, now).Some? ==> r == QuoteLine(db, line, now).value.subtotal
    ensures QuoteLine(db, line, now).None? ==> r == 0.0
  {
    match BasePrice(db, line)
    case None => 0.0
    case Some(base) => DiscountPrice(base, LinkedDiscount(db, line.productId), now) * line.qty as real
  }

  /** A discount whose window closes at t still applies at t, and one opening at t applies too. */
  lemma WindowIsClosed(d: Discount)
    requires d.start <= d.end
    ensures Active(d, d.start) && Active(d, d.end)
    ensures !Active(d, d.end + 1) && !Active(d, d.start - 1)
  {
  }
}

=== FILE: product_handler.dfy ===
/**
 * controllers/product_controller.go: the public product listing with its
 * cache-aside read (controllers.Product and parseInt), and the cache
 * invalidation the product writes run after they succeed.
 */
module ProductHandler {
  import opened Wrappers
  import opened Text
  import opened Store
  import opened Http
  import opened Paging
  import Cache
  import Catalog

  /** The query string as gin sees it: None for an absent parameter. */
  datatype Query = Query(
    page: Option<string>,
    limit: Option<string>,
    q: Option<string>,
    sort: Option<string>,
    minPrice: Option<string>,
    maxPrice: Option<string>,
    categories: seq<string>)

  /** ctx.DefaultQuery: the parameter's text when present (even empty), else the default. */
  function DefaultQuery(v: Option<string>, default: string): string {
    v.GetOr(default)
  }

  /** parseInt: strconv.Atoi with the error dropped. */
  function ParseInt(s: string): (r: int)
    ensures Atoi(s).Number? ==> r == Atoi(s).n
    ensures !WellFormedInteger(s) && !PrefixOverflows(Unsigned(s)) ==> r == 0
    ensures PrefixOverflows(Unsigned(s)) ==> r == (if Negative(s) then MinInt64 else MaxInt64)
  {
    Atoi(s).ValueIgnoringError()
  }

  /** The category[] values that parse, in order; the others are dropped silently. */
  function CategoryIds(cs: seq<string>): (r: seq<int>)
    ensures |r| <= |cs|
    ensures forall x | x in r :: exists c | c in cs :: Atoi(c) == Number(x)
    ensures forall c | c in cs && Atoi(c).Number? :: Atoi(c).n in r
  {
    if |cs| == 0 then []
    else
      var rest := CategoryIds(cs[1..]);
      assert forall c | c in cs[1..] :: c in cs;
      match Atoi(cs[0])
      case Number(n) => [n] + rest
      case _ => rest
  }

  function PageOf(q: Query): (r: int)
    ensures r >= 1
  {
    ClampPage(ParseInt(DefaultQuery(q.page, "1")))
  }

  function LimitOf(q: Query): (r: int)
    ensures r >= 1
  {
    ClampLimit(ParseInt(DefaultQuery(q.limit, "10")), 10)
  }

  /** No search text, sort, price bound or parsed category id: the only requests the cache serves. */
  predicate Cacheable(q: Query) {
    && DefaultQuery(q.q, "") == ""
    && DefaultQuery(q.sort, "") == ""
    && DefaultQuery(q.minPrice, "") == ""
    && DefaultQuery(q.maxPrice, "") == ""
    && |CategoryIds(q.categories)| == 0
  }

  /** The filters handed to models.GetProducts. */
  function FiltersOf(q: Query): Catalog.Filters {
    Catalog.Filters(DefaultQuery(q.q, ""), CategoryIds(q.categories),
                    ParseInt(DefaultQuery(q.minPrice, "")), ParseInt(DefaultQuery(q.maxPrice, "")))
  }

  /** The pagination block; prev and next carry the page their link points at. */
  datatype Pagination = Pagination(page: int, limit: int, totalData: nat, totalPage: nat,
                                   prev: Option<int>, next: Option<int>)

  function Paginate(page: int, limit: int, total: nat): (r: Pagination)
    requires limit >= 1
    ensures r.page == page && r.limit == limit && r.totalData == total
    ensures r.totalPage * limit >= total && (r.totalPage > 0 ==> (r.totalPage - 1) * limit < total)
    ensures r.prev.Some? <==> page > 1
    ensures r.prev.Some? ==> r.prev.value == page - 1
    ensures r.next.Some? <==> page < r.totalPage
    ensures r.next.Some? ==> r.next.value == page + 1
  {
    var totalPage := TotalPages(total, limit);
    Pagination(page, limit, total, totalPage,
               if page > 1 then Some(page - 1) else None,
               if page < totalPage then Some(page + 1) else None)
  }

  /** What is cached and answered: the products and the pagination. */
  datatype PageData = PageData(products: seq<Catalog.ListedProduct>, pagination: Pagination)

  /** The response data: the cached JSON as stored, or the page just read. */
  datatype Body = FromCache(payload: string) | FromDb(data: PageData)

  /** models.GetProducts on the clamped page and limit, with the pagination built from its total. */
  function Compute(db: Db, q: Query, fault: Catalog.ListingFault): (r: Result<PageData>)
    ensures r.Ok? <==> Catalog.GetProducts(db, PageOf(q), LimitOf(q), FiltersOf(q), DefaultQuery(q.sort, ""), fault).Ok?
    ensures r.Ok? ==>
              var g := Catalog.GetProducts(db, PageOf(q), LimitOf(q), FiltersOf(q), DefaultQuery(q.sort, ""), fault).value;
              r.value == PageData(g.0, Paginate(PageOf(q), LimitOf(q), g.1))
  {
    match Catalog.GetProducts(db, PageOf(q), LimitOf(q), FiltersOf(q), DefaultQuery(q.sort, ""), fault)
    case Err(m) => Err(m)
    case Ok(g) => Ok(PageData(g.0, Paginate(PageOf(q), LimitOf(q), g.1)))
  }

  function Answer(out: Cache.Outcome<PageData>): Response<Body> {
    match out
    case Cached(p) => Response(200, true, "data from cache", Some(FromCache(p)))
    case Stored(d) => Success("success data from db", FromDb(d))
    case NotStored(d) => Success("success data from db", FromDb(d))
    case Failed(m) => Fail(400, m)
  }

  /** The handler once the page has been computed (or not needed): the cache-aside part. */
  function Serve(c: Cache.Store, now: Time, q: Query, getFails: bool, computed: Result<PageData>,
                 encode: PageData -> Option<string>): (r: (Cache.Store, Response<Body>))
    ensures !Cacheable(q) ==> r.0 == c
    ensures !Cacheable(q) && computed.Err? ==> r.1 == Fail(400, computed.msg)
    ensures !Cacheable(q) && computed.Ok? ==> r.1 == Success("success data from db", FromDb(computed.value))
    ensures Cacheable(q) && Cache.Lookup(c, Cache.ProductKey(PageOf(q), LimitOf(q)), now, getFails).Some? ==>
              r == (c, Response(200, true, "data from cache",
                                Some(FromCache(c[Cache.ProductKey(PageOf(q), LimitOf(q))].payload))))
    ensures r.0 != c ==>
              && Cacheable(q) && computed.Ok? && encode(computed.value).Some?
              && r.0 == Cache.Put(c, Cache.ProductKey(PageOf(q), LimitOf(q)), encode(computed.value).value, now, 15 * 60)
    ensures Cacheable(q) && Cache.Lookup(c, Cache.ProductKey(PageOf(q), LimitOf(q)), now, getFails).None? &&
            computed.Ok? && encode(computed.value).Some? ==>
              && r.0 == Cache.Put(c, Cache.ProductKey(PageOf(q), LimitOf(q)), encode(computed.value).value, now, 15 * 60)
              && r.1 == Success("success data from db", FromDb(computed.value))
    ensures r.1.status == 400 ==> r.0 == c
    ensures r.1.status == 200 || r.1.status == 400
  {
    if Cacheable(q) then
      var (c1, out) := Cache.GetOrCompute(c, Cache.ProductKey(PageOf(q), LimitOf(q)), now, Cache.ProductTtl,
                                          getFails, computed, encode);
      (c1, Answer(out))
    else
      match computed
      case Err(m) => (c, Fail(400, m))
      case Ok(d) => (c, Success("success data from db", FromDb(d)))
  }

  /**
   * controllers.Product. encode is json.Marshal of the cached struct (None
   * when it fails); getFails injects a failing Redis GET; fault is passed to
   * models.GetProducts.
   */
  function Product(db: Db, c: Cache.Store, now: Time, q: Query, getFails: bool, fault: Catalog.ListingFault,
                   encode: PageData -> Option<string>): (r: (Cache.Store, Response<Body>))
    // uncacheable requests neither read nor write the cache
    ensures !Cacheable(q) ==> r.0 == c
    ensures !Cacheable(q) && Compute(db, q, fault).Err? ==> r.1 == Fail(400, Compute(db, q, fault).msg)
    ensures !Cacheable(q) && Compute(db, q, fault).Ok? ==>
              r.1 == Success("success data from db", FromDb(Compute(db, q, fault).value))
    // a hit answers from the cache
    ensures Cacheable(q) && Cache.Lookup(c, Cache.ProductKey(PageOf(q), LimitOf(q)), now, getFails).Some? ==>
              r == (c, Response(200, true, "data from cache",
                                Some(FromCache(c[Cache.ProductKey(PageOf(q), LimitOf(q))].payload))))
    // the cache changes only by storing an encoded page under the request's key for 15 minutes
    ensures r.0 != c ==>
              && Cacheable(q) && Compute(db, q, fault).Ok? && encode(Compute(db, q, fault).value).Some?
              && r.0 == Cache.Put(c, Cache.ProductKey(PageOf(q), LimitOf(q)),
                                  encode(Compute(db, q, fault).value).value, now, 15 * 60)
    ensures Cacheable(q) && Cache.Lookup(c, Cache.ProductKey(PageOf(q), LimitOf(q)), now, getFails).None? &&
            Compute(db, q, fault).Ok? && encode(Compute(db, q, fault).value).Some? ==>
              && r.0 == Cache.Put(c, Cache.ProductKey(PageOf(q), LimitOf(q)), encode(Compute(db, q, fault).value).value,
                                  now, 15 * 60)
              && r.1 == Success("success data from db", FromDb(Compute(db, q, fault).value))
    ensures r.1.status == 400 ==> r.0 == c
    ensures r.1.status == 200 || r.1.status == 400
  {
    Serve(c, now, q, getFails, Compute(db, q, fault), encode)
  }

  /** On a hit the database is not consulted: any database state and fault give the same answer. */
  lemma HitSkipsDatabase(db1: Db, db2: Db, c: Cache.Store, now: Time, q: Query, getFails: bool,
                         f1: Catalog.ListingFault, f2: Catalog.ListingFault, encode: PageData -> Option<string>)
    requires Cacheable(q) && Cache.Lookup(c, Cache.ProductKey(PageOf(q), LimitOf(q)), now, getFails).Some?
    ensures Product(db1, c, now, q, getFails, f1, encode) == Product(db2, c, now, q, getFails, f2, encode)
  {
  }

  /** An uncacheable request gets the same answer whatever the cache holds. */
  lemma UncacheableIgnoresCache(db: Db, c1: Cache.Store, c2: Cache.Store, now: Time, q: Query, g1: bool, g2: bool,
                                fault: Catalog.ListingFault, encode: PageData -> Option<string>)
    requires !Cacheable(q)
    ensures Product(db, c1, now, q, g1, fault, encode).1 == Product(db, c2, now, q, g2, fault, encode).1
  {
  }

  /** min_price=abc makes the request uncacheable, yet no price filter applies. */
  lemma NonNumericMinPrice(q: Query)
    requires q.minPrice == Some("abc")
    ensures !Cacheable(q) && FiltersOf(q).minPrice == 0
  {
    assert !WellFormedInteger("abc") by {
      assert !IsDigit("abc"[0]);
    }
  }

  /**
   * A page text that is not a number reads as page 1, so it shares the
   * cache entry of an explicit page=1.
   */
  lemma MalformedPageSharesFirstPageEntry(q: Query)
    requires q.page.Some? && !WellFormedInteger(q.page.value) && !PrefixOverflows(Unsigned(q.page.value))
    ensures Cache.ProductKey(PageOf(q), LimitOf(q)) == Cache.ProductKey(PageOf(q.(page := Some("1"))), LimitOf(q))
  {
    assert ParseInt(q.page.value) == 0;
    AtoiRoundTrip(1);
    assert IntToString(1) == "1";
    assert PageOf(q) == 1 == PageOf(q.(page := Some("1")));
  }

  /** The key is a function of the clamped page and limit alone, and tells them apart. */
  lemma KeyIdentifiesPaging(q1: Query, q2: Query)
    ensures Cache.ProductKey(PageOf(q1), LimitOf(q1)) == Cache.ProductKey(PageOf(q2), LimitOf(q2)) <==>
            PageOf(q1) == PageOf(q2) && LimitOf(q1) == LimitOf(q2)
  {
    if Cache.ProductKey(PageOf(q1), LimitOf(q1)) == Cache.ProductKey(PageOf(q2), LimitOf(q2)) {
      Cache.ProductKeyInjective(PageOf(q1), LimitOf(q1), PageOf(q2), LimitOf(q2));
    }
  }

  // ---------------------------------------------------------------------------
  // Invalidation after CreateProduct, UpdateProduct and DeleteProduct

  /** After the write: on success every key matching "/products*" is deleted; on failure nothing is. */
  function AfterProductWrite(c: Cache.Store, succeeded: bool): (r: Cache.Store)
    ensures !succeeded ==> r == c
    ensures succeeded ==> r == Cache.InvalidatePrefix(c, Cache.ProductPattern)
  {
    if succeeded then Cache.InvalidatePrefix(c, Cache.ProductPattern) else c
  }

  /**
   * A listing page served from the cache before a product write is served
   * unchanged after it, whatever the write did to the database, until its
   * TTL runs out.
   */
  lemma StaleListingSurvivesProductWrite(db: Db, written: Db, c: Cache.Store, now: Time, q: Query, succeeded: bool,
                                         fault: Catalog.ListingFault, encode: PageData -> Option<string>)
    requires Cacheable(q) && Cache.Lookup(c, Cache.ProductKey(PageOf(q), LimitOf(q)), now, false).Some?
    ensures Product(written, AfterProductWrite(c, succeeded), now, q, false, fault, encode).1 ==
            Product(db, c, now, q, false, fault, encode).1
  {
    var key := Cache.ProductKey(PageOf(q), LimitOf(q));
    Cache.ProductWritesKeepListingEntries(c, PageOf(q), LimitOf(q), now, false);
    assert Cache.Lookup(AfterProductWrite(c, succeeded), key, now, false) == Cache.Lookup(c, key, now, false);
  }
}

=== FILE: sorting.dfy ===
/**
 * ORDER BY as a stable insertion sort under a total preorder. SQL leaves
 * the order of tied rows unspecified; the model fixes one (input order).
 */
module Sorting {

  ghost predicate TotalPreorder<T(!new)>(le: (T, T) -> bool) {
    && (forall a, b :: le(a, b) || le(b, a))
    && (forall a, b, c :: le(a, b) && le(b, c) ==> le(a, c))
  }

  ghost predicate SortedBy<T>(s: seq<T>, le: (T, T) -> bool) {
    forall i, j | 0 <= i < j < |s| :: le(s[i], s[j])
  }

  /** Places x before the first element it does not follow. */
  function Insert<T(!new)>(x: T, s: seq<T>, le: (T, T) -> bool): (r: seq<T>)
    requires TotalPreorder(le) && SortedBy(s, le)
    ensures SortedBy(r, le)
    ensures multiset(r) == multiset(s) + multiset{x}
    ensures |r| == |s| + 1
  {
    if |s| == 0 then [x]
    else if le(x, s[0]) then
      [x] + s
    else
      var tail := Insert(x, s[1..], le);
      assert s == [s[0]] + s[1..];
      assert forall k | 0 <= k < |tail| :: le(s[0], tail[k]) by {
        forall k | 0 <= k < |tail|
          ensures le(s[0], tail[k])
        {
          assert tail[k] in multiset(tail);
          assert tail[k] in multiset(s[1..]) || tail[k] == x;
          if tail[k] != x {
            var m :| 0 <= m < |s[1..]| && s[1..][m] == tail[k];
            assert s[1 + m] == tail[k];
          }
        }
      }
      [s[0]] + tail
  }

  function Sort<T(!new)>(s: seq<T>, le: (T, T) -> bool): (r: seq<T>)
    requires TotalPreorder(le)
    ensures SortedBy(r, le)
    ensures multiset(r) == multiset(s)
    ensures |r| == |s|
  {
    if |s| == 0 then []
    else
      assert s == [s[0]] + s[1..];
      Insert(s[0], Sort(s[1..], le), le)
  }

  /** The order of a comparator read backwards (ASC becomes DESC). */
  function Flip<T>(le: (T, T) -> bool): (T, T) -> bool {
    (a: T, b: T) => le(b, a)
  }

  lemma FlipPreservesTotalPreorder<T(!new)>(le: (T, T) -> bool)
    requires TotalPreorder(le)
    ensures TotalPreorder(Flip(le))
  {
  }

  // ---------------------------------------------------------------------------
  // Text ordering: code-point lexicographic (no collation)

  predicate StrLe(a: string, b: string)
    decreases |a|
  {
    |a| == 0 || (|b| > 0 && (a[0] < b[0] || (a[0] == b[0] && StrLe(a[1..], b[1..]))))
  }

  lemma {:induction false} StrLeTotal(a: string, b: string)
    ensures StrLe(a, b) || StrLe(b, a)
    decreases |a|
  {
    if |a| > 0 && |b| > 0 && a[0] == b[0] {
      StrLeTotal(a[1..], b[1..]);
    }
  }

  lemma {:induction false} StrLeTransitive(a: string, b: string, c: string)
    requires StrLe(a, b) && StrLe(b, c)
    ensures StrLe(a, c)
    decreases |a|
  {
    if |a| > 0 && a[0] == b[0] && b[0] == c[0] {
      StrLeTransitive(a[1..], b[1..], c[1..]);
    }
  }

  /** ORDER BY a text column, ascending. */
  lemma TextOrderIsTotalPreorder()
    ensures TotalPreorder((a: string, b: string) => StrLe(a, b))
  {
    forall a: string, b: string ensures StrLe(a, b) || StrLe(b, a) {
      StrLeTotal(a, b);
    }
    forall a: string, b: string, c: string | StrLe(a, b) && StrLe(b, c) ensures StrLe(a, c) {
      StrLeTransitive(a, b, c);
    }
  }
}

=== FILE: store.dfy ===
/**
 * The abstract database the handlers read and write: one value per table.
 * Tables whose row order matters to a query (listing, sums, per-row
 * inserts) are sequences of rows; tables only ever read by key are maps.
 */
module Store {
  import opened Wrappers

  /** An instant, in seconds since the Unix epoch. */
  type Time = int

  /** products: price is nullable, since product creation never sets it. */
  datatype Product = Product(
    id: int,
    name: string,
    price: Option<real>,
    categoryId: Option<int>,
    isFavorite: bool,
    createdAt: Time)

  /** product_size: the price of one size of one product. */
  datatype SizeRow = SizeRow(id: int, productId: int, price: real)

  /** discount joined through product_discount; at most one per product. */
  datatype Discount = Discount(percent: real, start: Time, end: Time)

  /** cart_items: NULL variant/size ids are None. */
  datatype CartLine = CartLine(
    id: int,
    cartId: int,
    productId: int,
    variantId: Option<int>,
    sizeId: Option<int>,
    qty: int,
    subtotal: real)

  /** orders; status None is the column default, which the insert never sets. */
  datatype Order = Order(
    id: int,
    userId: int,
    paymentId: int,
    shippingId: int,
    methodId: int,
    orderDate: Time,
    customerName: string,
    customerPhone: string,
    customerAddress: string,
    total: real,
    invoice: string,
    status: Option<string>)

  /** order_items: a frozen copy of one cart line's pricing. */
  datatype OrderItem = OrderItem(
    orderId: int,
    productId: int,
    variantId: Option<int>,
    sizeId: Option<int>,
    qty: int,
    basePrice: real,
    discountPrice: real,
    discountPercent: real,
    subtotal: real,
    status: Option<string>)

  /** users; password holds the stored hash. */
  datatype UserRow = UserRow(email: string, password: string, role: string)

  /** profile rows, keyed by their own id; usersId links them to users. */
  datatype Profile = Profile(
    usersId: int,
    username: Option<string>,
    phone: Option<string>,
    address: Option<string>,
    picture: Option<string>)

  datatype Db = Db(
    products: seq<Product>,
    categories: map<int, string>,
    sizes: seq<SizeRow>,
    discounts: map<int, Discount>,
    carts: map<int, int>,
    cartItems: seq<CartLine>,
    orders: seq<Order>,
    orderItems: seq<OrderItem>,
    users: map<int, UserRow>,
    profiles: map<int, Profile>)

  /** The first row whose key column equals id, or None when no row has it. */
  function FindBy<T>(rows: seq<T>, key: T -> int, id: int): (r: Option<T>)
    ensures r.Some? ==> r.value in rows && key(r.value) == id
    ensures r.None? ==> forall i | 0 <= i < |rows| :: key(rows[i]) != id
  {
    if |rows| == 0 then None
    else if key(rows[0]) == id then Some(rows[0])
    else FindBy(rows[1..], key, id)
  }

  /** SELECT ... FROM products WHERE id = $1. */
  function FindProduct(ps: seq<Product>, id: int): (r: Option<Product>)
    ensures r.Some? ==> r.value in ps && r.value.id == id
    ensures r.None? ==> forall i | 0 <= i < |ps| :: ps[i].id != id
  {
    FindBy(ps, (p: Product) => p.id, id)
  }

  /** SELECT ... FROM product_size WHERE id = $1. */
  function FindSize(ss: seq<SizeRow>, id: int): (r: Option<SizeRow>)
    ensures r.Some? ==> r.value in ss && r.value.id == id
    ensures r.None? ==> forall i | 0 <= i < |ss| :: ss[i].id != id
  {
    FindBy(ss, (s: SizeRow) => s.id, id)
  }

  /** UPDATE ... SET ... WHERE: rows that hit are rewritten by change, the rest stay. */
  function UpdateWhere<T>(rows: seq<T>, hit: T -> bool, change: T -> T): (r: seq<T>)
    ensures |r| == |rows|
    ensures forall i | 0 <= i < |rows| :: r[i] == if hit(rows[i]) then change(rows[i]) else rows[i]
  {
    seq(|rows|, i requires 0 <= i < |rows| => if hit(rows[i]) then change(rows[i]) else rows[i])
  }

  /** SELECT MIN(price) FROM product_size WHERE product_id = pid (None is NULL). */
  function MinSizePrice(ss: seq<SizeRow>, pid: int): (r: Option<real>)
    ensures r.None? <==> forall i | 0 <= i < |ss| :: ss[i].productId != pid
    ensures r.Some? ==> forall i | 0 <= i < |ss| && ss[i].productId == pid :: r.value <= ss[i].price
    ensures r.Some? ==> exists i | 0 <= i < |ss| :: ss[i].productId == pid && ss[i].price == r.value
  {
    if |ss| == 0 then None
    else
      var rest := MinSizePrice(ss[1..], pid);
      assert forall i | 1 <= i < |ss| :: ss[i] == ss[1..][i - 1];
      if ss[0].productId != pid then
        (if rest.Some? then
           var i :| 0 <= i < |ss[1..]| && ss[1..][i].productId == pid && ss[1..][i].price == rest.value;
           assert ss[i + 1] == ss[1..][i];
           rest
         else rest)
      else if rest.Some? && rest.value < ss[0].price then
        var i :| 0 <= i < |ss[1..]| && ss[1..][i].productId == pid && ss[1..][i].price == rest.value;
        assert ss[i + 1] == ss[1..][i];
        rest
      else Some(ss[0].price)
  }

  /** The line sits in the cart whose cart.user_id is uid. */
  predicate OwnedBy(db: Db, line: CartLine, uid: int) {
    uid in db.carts && line.cartId == db.carts[uid]
  }

  /** cart.id is a primary key: no two users share a cart id. */
  ghost predicate CartIdsDistinct(db: Db) {
    forall u, v | u in db.carts && v in db.carts && u != v :: db.carts[u] != db.carts[v]
  }
}

=== FILE: text.dfy ===
/**
 * String helpers the handlers rely on: Go's strings.HasPrefix/TrimPrefix,
 * decimal formatting as done by fmt's %d and strconv.Itoa, strconv.Atoi,
 * and the case-insensitive substring test behind SQL ILIKE '%' || s || '%'.
 */
module Text {

  predicate IsPrefix(p: string, s: string) {
    |p| <= |s| && s[..|p|] == p
  }

  /** strings.TrimPrefix: removes p once when s starts with it. */
  function TrimPrefix(s: string, p: string): (r: string)
    ensures IsPrefix(p, s) ==> p + r == s
    ensures !IsPrefix(p, s) ==> r == s
  {
    if IsPrefix(p, s) then s[|p|..] else s
  }

  lemma PrefixOfConcat(p: string, a: string, b: string)
    requires IsPrefix(p, a)
    ensures IsPrefix(p, a + b)
  {
    assert (a + b)[..|p|] == a[..|p|];
  }

  /** A string that differs from p at some position below |p| does not start with p. */
  lemma NotPrefixAt(p: string, s: string, k: nat)
    requires k < |p| && k < |s| && s[k] != p[k]
    ensures !IsPrefix(p, s)
  {
    if |p| <= |s| {
      assert s[..|p|][k] == s[k];
    }
  }

  // ---------------------------------------------------------------------------
  // Decimal digits

  predicate IsDigit(c: char) {
    '0' <= c <= '9'
  }

  predicate AllDigits(s: string) {
    forall i | 0 <= i < |s| :: IsDigit(s[i])
  }

  function DigitChar(d: nat): (c: char)
    requires d < 10
    ensures IsDigit(c) && c as int - '0' as int == d
  {
    ('0' as int + d) as char
  }

  function DigitValue(c: char): nat
    requires IsDigit(c)
  {
    c as int - '0' as int
  }

  /** The decimal text of n, without sign or leading zeros. */
  function NatToString(n: nat): (r: string)
    ensures |r| > 0 && AllDigits(r)
    decreases n
  {
    if n < 10 then [DigitChar(n)] else NatToString(n / 10) + [DigitChar(n % 10)]
  }

  /** The number a digit string denotes (leading zeros allowed). */
  function DigitsValue(s: string): nat
    requires AllDigits(s)
    decreases |s|
  {
    if |s| == 0 then 0 else 10 * DigitsValue(s[..|s| - 1]) + DigitValue(s[|s| - 1])
  }

  lemma {:induction false} NatToStringRoundTrip(n: nat)
    ensures DigitsValue(NatToString(n)) == n
    decreases n
  {
    if n >= 10 {
      NatToStringRoundTrip(n / 10);
      var s := NatToString(n);
      assert s[..|s| - 1] == NatToString(n / 10);
    }
  }

  /** fmt's %d and strconv.Itoa on an int. */
  function IntToString(n: int): (r: string)
    ensures |r| > 0
  {
    if n < 0 then "-" + NatToString(-n) else NatToString(n)
  }

  /** Distinct integers print differently. */
  lemma IntToStringInjective(a: int, b: int)
    requires IntToString(a) == IntToString(b)
    ensures a == b
  {
    SignCharacter(a);
    SignCharacter(b);
    if a < 0 {
      assert NatToString(-a) == IntToString(a)[1..];
      NatToStringRoundTrip(-a);
      NatToStringRoundTrip(-b);
    } else {
      NatToStringRoundTrip(a);
      NatToStringRoundTrip(b);
    }
  }

  lemma SignCharacter(n: int)
    ensures IntToString(n)[0] == '-' <==> n < 0
  {
    if n >= 0 {
      assert IsDigit(NatToString(n)[0]);
    }
  }

  /** No printed integer contains the character c unless c is a digit or '-'. */
  lemma IntToStringAlphabet(n: int, c: char)
    requires !IsDigit(c) && c != '-'
    ensures c !in IntToString(n)
  {
    var s := IntToString(n);
    forall i | 0 <= i < |s|
      ensures s[i] != c
    {
      if n < 0 && i > 0 {
        assert s[i] == NatToString(-n)[i - 1];
      }
    }
  }

  function Pow10(w: nat): (r: nat)
    ensures r >= 1
  {
    if w == 0 then 1 else 10 * Pow10(w - 1)
  }

  /** The last w decimal digits of n, leading zeros kept: fmt's %0<w>d for n below 10^w. */
  function FixedWidth(n: nat, w: nat): (r: string)
    ensures |r| == w && AllDigits(r)
  {
    if w == 0 then "" else FixedWidth(n / 10, w - 1) + [DigitChar(n % 10)]
  }

  /** A number below 10^w reads back from its w-digit text. */
  lemma {:induction false} FixedWidthRoundTrip(n: nat, w: nat)
    requires n < Pow10(w)
    ensures DigitsValue(FixedWidth(n, w)) == n
  {
    if w > 0 {
      assert n / 10 < Pow10(w - 1);
      FixedWidthRoundTrip(n / 10, w - 1);
      var s := FixedWidth(n, w);
      assert s[..|s| - 1] == FixedWidth(n / 10, w - 1);
    }
  }

  // ---------------------------------------------------------------------------
  // strconv.Atoi on a 64-bit platform

  const MaxInt64: int := 0x7FFF_FFFF_FFFF_FFFF
  const MinInt64: int := -0x8000_0000_0000_0000

  /**
   * What strconv.Atoi reports: a number, a syntax error (value 0), or a
   * range error carrying the saturated value it returns alongside.
   */
  datatype Parsed = Number(n: int) | SyntaxError | RangeError(saturated: int) {
    /** The int a caller sees when it discards strconv.Atoi's error. */
    function ValueIgnoringError(): int {
      match this
      case Number(n) => n
      case SyntaxError => 0
      case RangeError(b) => b
    }
  }

  const MaxUint64: int := 0xFFFF_FFFF_FFFF_FFFF

  /** The text after one leading '+' or '-', as ParseInt strips it. */
  function Unsigned(s: string): string {
    if |s| > 0 && (s[0] == '+' || s[0] == '-') then s[1..] else s
  }

  predicate Negative(s: string) {
    |s| > 0 && s[0] == '-'
  }

  /** An optional sign followed by at least one decimal digit. */
  predicate WellFormedInteger(s: string) {
    |Unsigned(s)| > 0 && AllDigits(Unsigned(s))
  }

  /** The value a well-formed text denotes, before any range check. */
  function SignedValue(s: string): int
    requires WellFormedInteger(s)
  {
    if Negative(s) then -(DigitsValue(Unsigned(s)) as int) else DigitsValue(Unsigned(s))
  }

  /** Some run of leading digits of t already exceeds the uint64 range. */
  predicate PrefixOverflows(t: string) {
    exists k | 0 < k <= |t| && AllDigits(t[..k]) :: DigitsValue(t[..k]) > MaxUint64
  }

  /** What ParseUint reports for base 10: a value, a syntax error or a range error. */
  datatype UintScan = Digits(n: nat) | BadDigit | Overflow

  /**
   * ParseUint's loop from byte i on, with n the value of t[..i]: the first
   * non-digit is a syntax error, and the first digit that takes the value
   * past 2^64 - 1 is a range error, whatever follows it.
   */
  function ScanUint(t: string, i: nat, n: nat): (r: UintScan)
    requires i <= |t| && AllDigits(t[..i]) && n == DigitsValue(t[..i]) && n <= MaxUint64
    ensures r.Overflow? <==> exists k | i < k <= |t| && AllDigits(t[..k]) :: DigitsValue(t[..k]) > MaxUint64
    ensures r.BadDigit? ==> !AllDigits(t)
    ensures r.Digits? ==> AllDigits(t) && r.n == DigitsValue(t) <= MaxUint64
    decreases |t| - i
  {
    if i == |t| then
      assert t[..i] == t;
      Digits(n)
    else if !IsDigit(t[i]) then
      forall k | i < k <= |t| ensures !AllDigits(t[..k]) {
        assert t[..k][i] == t[i];
      }
      BadDigit
    else
      var d := DigitValue(t[i]);
      var u := t[..i + 1];
      assert u[..i] == t[..i];
      assert AllDigits(u) by {
        forall j | 0 <= j < |u| ensures IsDigit(u[j]) {
          if j < i { assert u[j] == t[..i][j]; }
        }
      }
      assert DigitsValue(t[..i + 1]) == 10 * n + d;
      // Go tests n >= cutoff (n * 10 overflows) and then n * 10 + d > maxVal
      if n >= MaxUint64 / 10 + 1 || 10 * n + d > MaxUint64 then
        Overflow
      else
        ScanUint(t, i + 1, 10 * n + d)
  }

  /** A digit string is worth at least each of its prefixes. */
  lemma {:induction false} DigitsValuePrefix(t: string, k: nat)
    requires AllDigits(t) && k <= |t|
    ensures AllDigits(t[..k]) && DigitsValue(t[..k]) <= DigitsValue(t)
    decreases |t|
  {
    assert forall j | 0 <= j < k :: t[..k][j] == t[j];
    if k < |t| {
      var u := t[..|t| - 1];
      assert forall j | 0 <= j < |u| :: u[j] == t[j];
      assert u[..k] == t[..k];
      DigitsValuePrefix(u, k);
    } else {
      assert t[..k] == t;
    }
  }

  /** A digit string one of whose prefixes overflows overflows itself. */
  lemma OverflowMeansLarge(t: string)
    requires PrefixOverflows(t)
    ensures AllDigits(t) ==> DigitsValue(t) > MaxUint64
  {
    if AllDigits(t) {
      var k :| 0 < k <= |t| && AllDigits(t[..k]) && DigitsValue(t[..k]) > MaxUint64;
      DigitsValuePrefix(t, k);
    }
  }

  /** strconv.ParseUint(t, 10, 64). */
  function ParseUint(t: string): (r: UintScan)
    ensures r.Overflow? <==> PrefixOverflows(t)
    ensures r.BadDigit? <==> (|t| == 0 || !AllDigits(t)) && !PrefixOverflows(t)
    ensures r.Digits? ==> |t| > 0 && AllDigits(t) && r.n == DigitsValue(t) <= MaxUint64
  {
    if |t| == 0 then BadDigit
    else
      assert t[..0] == [];
      ScanUint(t, 0, 0)
  }

  /**
   * strconv.Atoi, which is ParseInt(s, 10, 0): the sign is taken off, the
   * rest goes through ParseUint, and a range error or a magnitude beyond
   * int64 saturates to the bound of the text's sign. (Atoi's fast path for
   * fewer than 19 bytes gives the same answers; see AtoiFastPathAgrees.)
   */
  function Atoi(s: string): (r: Parsed)
    ensures r.SyntaxError? <==> !WellFormedInteger(s) && !PrefixOverflows(Unsigned(s))
    ensures r.Number? ==> WellFormedInteger(s) && r.n == SignedValue(s) && MinInt64 <= r.n <= MaxInt64
    ensures WellFormedInteger(s) && MinInt64 <= SignedValue(s) <= MaxInt64 ==> r == Number(SignedValue(s))
    ensures r.RangeError? ==> r.saturated == (if Negative(s) then MinInt64 else MaxInt64)
    ensures PrefixOverflows(Unsigned(s)) ==> r == RangeError(if Negative(s) then MinInt64 else MaxInt64)
  {
    match ParseUint(Unsigned(s))
    case BadDigit => SyntaxError
    case Overflow =>
      OverflowMeansLarge(Unsigned(s));
      RangeError(if Negative(s) then MinInt64 else MaxInt64)
    case Digits(un) =>
      if !Negative(s) && un > MaxInt64 then RangeError(MaxInt64)
      else if Negative(s) && un > -MinInt64 then RangeError(MinInt64)
      else Number(if Negative(s) then -(un as int) else un)
  }

  /** Every int64 printed by %d parses back to itself. */
  lemma AtoiRoundTrip(n: int)
    requires MinInt64 <= n <= MaxInt64
    ensures Atoi(IntToString(n)) == Number(n)
  {
    var s := IntToString(n);
    if n < 0 {
      assert s[1..] == NatToString(-n);
      assert Negative(s) && Unsigned(s) == NatToString(-n);
      NatToStringRoundTrip(-n);
    } else {
      NatToStringRoundTrip(n);
      assert s[0] != '-' && s[0] != '+' by { assert IsDigit(s[0]); }
      assert !Negative(s) && Unsigned(s) == s;
    }
    assert WellFormedInteger(s) && SignedValue(s) == n;
  }

  /**
   * Text that is not an optionally signed digit string reads as 0 when the
   * error is dropped, unless its leading digits already overflow.
   */
  lemma NonNumericReadsAsZero(s: string)
    requires !WellFormedInteger(s) && !PrefixOverflows(Unsigned(s))
    ensures Atoi(s).ValueIgnoringError() == 0
  {
  }

  /**
   * Digits worth more than 2^64 - 1 followed by anything at all read as the
   * int64 maximum: ParseUint stops with a range error before it sees the
   * rest, so "99999999999999999999x" is not a syntax error.
   */
  lemma OverflowingDigitsThenGarbage(digits: string, rest: string)
    requires AllDigits(digits) && DigitsValue(digits) > MaxUint64
    ensures Atoi(digits + rest) == RangeError(MaxInt64)
    ensures Atoi(digits + rest).ValueIgnoringError() == MaxInt64
  {
    var s := digits + rest;
    assert |digits| > 0;
    assert IsDigit(s[0]);
    assert Unsigned(s) == s && !Negative(s);
    assert s[..|digits|] == digits;
  }

  /** Atoi's fast path for 0 < |s| < 19 on a 64-bit platform: no range check is needed. */
  function FastAtoi(s: string): Parsed
    requires 0 < |s| < 19
  {
    if !WellFormedInteger(s) then SyntaxError else Number(SignedValue(s))
  }

  lemma {:induction false} DigitsValueBelowPow10(t: string)
    requires AllDigits(t)
    ensures DigitsValue(t) < Pow10(|t|)
    decreases |t|
  {
    if |t| > 0 {
      var u := t[..|t| - 1];
      assert AllDigits(u) by {
        forall j | 0 <= j < |u| ensures IsDigit(u[j]) { assert u[j] == t[j]; }
      }
      DigitsValueBelowPow10(u);
    }
  }

  lemma Pow10Grows(a: nat, b: nat)
    requires a <= b
    ensures Pow10(a) <= Pow10(b)
    decreases b
  {
    if a < b { Pow10Grows(a, b - 1); }
  }

  /** Texts shorter than 19 bytes take the fast path, which agrees with ParseInt. */
  lemma AtoiFastPathAgrees(s: string)
    requires 0 < |s| < 19
    ensures Atoi(s) == FastAtoi(s)
  {
    assert Pow10(18) == 1_000_000_000_000_000_000 by {
      assert Pow10(1) == 10 && Pow10(2) == 100 && Pow10(3) == 1000 && Pow10(6) == 1_000_000;
      assert Pow10(9) == 1_000_000_000 && Pow10(12) == 1_000_000_000_000;
      assert Pow10(15) == 1_000_000_000_000_000;
    }
    var t := Unsigned(s);
    assert |t| <= 18;
    if WellFormedInteger(s) {
      DigitsValueBelowPow10(t);
      Pow10Grows(|t|, 18);
    }
    forall k | 0 < k <= |t| && AllDigits(t[..k]) ensures DigitsValue(t[..k]) <= MaxInt64 {
      DigitsValueBelowPow10(t[..k]);
      Pow10Grows(k, 18);
    }
  }

  // ---------------------------------------------------------------------------
  // Keys built from a literal head, a separator and printed integers

  /**
   * When the separator's first character occurs in neither head, the split
   * point of head + sep + tail is unique.
   */
  lemma SplitAtSeparator(a: string, b: string, c: string, d: string, sep: string)
    requires |sep| > 0 && sep[0] !in a && sep[0] !in c
    requires a + sep + b == c + sep + d
    ensures a == c && b == d
  {
    var l := a + sep + b;
    var r := c + sep + d;
    assert l == a + (sep + b) && r == c + (sep + d);
    IndexOfAfterHead(a, sep + b, sep[0]);
    IndexOfAfterHead(c, sep + d, sep[0]);
    assert |a| == |c|;
    assert a == l[..|a|] && c == r[..|c|];
    assert b == l[|a| + |sep|..] && d == r[|c| + |sep|..];
  }

  /** Position of the first ch in s, or |s| when there is none. */
  function IndexOf(s: string, ch: char): (i: nat)
    ensures i <= |s|
  {
    if |s| == 0 then 0 else if s[0] == ch then 0 else 1 + IndexOf(s[1..], ch)
  }

  lemma {:induction false} IndexOfAfterHead(a: string, t: string, ch: char)
    requires ch !in a && |t| > 0 && t[0] == ch
    ensures IndexOf(a + t, ch) == |a|
  {
    if |a| > 0 {
      assert (a + t)[1..] == a[1..] + t;
      IndexOfAfterHead(a[1..], t, ch);
    }
  }

  // ---------------------------------------------------------------------------
  // ILIKE '%' || needle || '%'

  function LowerChar(c: char): char {
    if 'A' <= c <= 'Z' then (c as int + 32) as char else c
  }

  function Lower(s: string): (r: string)
    ensures |r| == |s|
    ensures forall i | 0 <= i < |s| :: r[i] == LowerChar(s[i])
  {
    seq(|s|, i requires 0 <= i < |s| => LowerChar(s[i]))
  }

  /** needle occurs somewhere in hay. */
  predicate Contains(hay: string, needle: string)
    decreases |hay|
  {
    IsPrefix(needle, hay) || (|hay| > 0 && Contains(hay[1..], needle))
  }

  /** SQL `hay ILIKE '%' || needle || '%'`, with ASCII case folding. */
  predicate ContainsFold(hay: string, needle: string) {
    Contains(Lower(hay), Lower(needle))
  }
}

=== FILE: users.dfy ===
/**
 * models/users.go: registration and the profile/account updates. Each SQL
 * statement is its own write; a later failing statement leaves the earlier
 * ones in place. Password hashing is done by the caller and passed in.
 */
module Users {
  import opened Wrappers
  import opened Store

  /** The User a call returns: no password is ever handed back. */
  datatype PublicUser = PublicUser(id: int, email: string, role: string)

  /** role is set by the handler, never bound from the body; Register does not read it. */
  datatype RegisterRequest = RegisterRequest(email: string, username: string, phone: string, address: string,
                                             role: string)

  /** The role every registration inserts. */
  const UserRole: string := "user"

  // ---------------------------------------------------------------------------
  // Register

  datatype RegisterFault = NoFault | UserInsertFails | ProfileInsertFails

  /**
   * models.Register: inserts the users row with role 'user', then the
   * profile row. newUserId and newProfileId are the ids the serial columns
   * hand out; hash is lib.HashPassword of the request's password.
   */
  function Register(db: Db, req: RegisterRequest, hash: string, newUserId: int, newProfileId: int,
                    fault: RegisterFault): (r: (Db, Result<PublicUser>))
    requires newUserId !in db.users && newProfileId !in db.profiles
    ensures r.1.Ok? <==> fault.NoFault?
    ensures r.1.Ok? ==> r.1.value == PublicUser(newUserId, req.email, UserRole)
    ensures fault.UserInsertFails? ==> r.0 == db
    ensures !fault.UserInsertFails? ==>
              && r.0.users == db.users[newUserId := UserRow(req.email, hash, UserRole)]
    ensures fault.NoFault? ==>
              && newProfileId in r.0.profiles
              && r.0.profiles[newProfileId] == Profile(newUserId, Some(req.username), Some(req.phone), Some(req.address), None)
              && r.0.profiles - {newProfileId} == db.profiles
    ensures fault.ProfileInsertFails? ==> r.0.profiles == db.profiles
    // no other table is written
    ensures r.0 == db.(users := r.0.users, profiles := r.0.profiles)
  {
    if fault.UserInsertFails? then (db, Err("user insert failed"))
    else
      var db1 := db.(users := db.users[newUserId := UserRow(req.email, hash, UserRole)]);
      if fault.ProfileInsertFails? then (db1, Err("profile insert failed"))
      else
        var p := Profile(newUserId, Some(req.username), Some(req.phone), Some(req.address), None);
        (db1.(profiles := db1.profiles[newProfileId := p]), Ok(PublicUser(newUserId, req.email, UserRole)))
  }

  /** A failed profile insert leaves a users row without a profile behind. */
  lemma RegisterIsNotAtomic(db: Db, req: RegisterRequest, hash: string, newUserId: int, newProfileId: int)
    requires newUserId !in db.users && newProfileId !in db.profiles
    requires forall p | p in db.profiles :: db.profiles[p].usersId != newUserId
    ensures var r := Register(db, req, hash, newUserId, newProfileId, ProfileInsertFails);
            && r.1.Err?
            && newUserId in r.0.users
            && (forall p | p in r.0.profiles :: r.0.profiles[p].usersId != newUserId)
  {
  }

  /** The role the request carries makes no difference: the INSERT writes the literal 'user'. */
  lemma RegisterIgnoresRequestRole(db: Db, req: RegisterRequest, other: string, hash: string, newUserId: int,
                                   newProfileId: int, fault: RegisterFault)
    requires newUserId !in db.users && newProfileId !in db.profiles
    ensures Register(db, req, hash, newUserId, newProfileId, fault) ==
            Register(db, req.(role := other), hash, newUserId, newProfileId, fault)
    ensures fault.NoFault? ==>
              Register(db, req, hash, newUserId, newProfileId, fault).0.users[newUserId].role == UserRole
  {
  }

  // ---------------------------------------------------------------------------
  // Field updates

  /** UPDATE users SET password = hash WHERE id = id (no row, no change). */
  function SetPassword(users: map<int, UserRow>, id: int, hash: string): (r: map<int, UserRow>)
    ensures r.Keys == users.Keys
    ensures id in users ==> r[id] == users[id].(password := hash)
    ensures forall u | u in users && u != id :: r[u] == users[u]
  {
    if id in users then users[id := users[id].(password := hash)] else users
  }

  /** UPDATE users SET role = role WHERE id = id. */
  function SetRole(users: map<int, UserRow>, id: int, role: string): (r: map<int, UserRow>)
    ensures r.Keys == users.Keys
    ensures id in users ==> r[id] == users[id].(role := role)
    ensures forall u | u in users && u != id :: r[u] == users[u]
  {
    if id in users then users[id := users[id].(role := role)] else users
  }

  /** UPDATE profile SET username, phone, address WHERE users_id = uid: every such row, blanks included. */
  function SetContact(profiles: map<int, Profile>, uid: int, username: string, phone: string, address: string):
    (r: map<int, Profile>)
    ensures r.Keys == profiles.Keys
    ensures forall p | p in profiles && profiles[p].usersId == uid ::
              r[p] == profiles[p].(username := Some(username), phone := Some(phone), address := Some(address))
    ensures forall p | p in profiles && profiles[p].usersId != uid :: r[p] == profiles[p]
  {
    map p | p in profiles ::
      if profiles[p].usersId == uid then profiles[p].(username := Some(username), phone := Some(phone), address := Some(address))
      else profiles[p]
  }

  /** UPDATE profile SET profile_picture = path WHERE users_id = uid. */
  function SetPicture(profiles: map<int, Profile>, uid: int, path: string): (r: map<int, Profile>)
    ensures r.Keys == profiles.Keys
    ensures forall p | p in profiles && profiles[p].usersId == uid :: r[p] == profiles[p].(picture := Some(path))
    ensures forall p | p in profiles && profiles[p].usersId != uid :: r[p] == profiles[p]
  {
    map p | p in profiles :: if profiles[p].usersId == uid then profiles[p].(picture := Some(path)) else profiles[p]
  }

  /** UPDATE users SET password = hash WHERE email = email: every row with that email. */
  function SetPasswordByEmail(users: map<int, UserRow>, email: string, hash: string): (r: map<int, UserRow>)
    ensures r.Keys == users.Keys
    ensures forall u | u in users && users[u].email == email :: r[u] == users[u].(password := hash)
    ensures forall u | u in users && users[u].email != email :: r[u] == users[u]
  {
    map u | u in users :: if users[u].email == email then users[u].(password := hash) else users[u]
  }

  /** SELECT id, email, role FROM users WHERE id = id. */
  function ReadUser(db: Db, id: int): (r: Result<PublicUser>)
    ensures r.Ok? <==> id in db.users
    ensures r.Ok? ==> r.value == PublicUser(id, db.users[id].email, db.users[id].role)
  {
    if id in db.users then Ok(PublicUser(id, db.users[id].email, db.users[id].role))
    else Err("no rows in result set")
  }

  // ---------------------------------------------------------------------------
  // AdminUpdateUserByID and UpdateUserByID

  datatype AdminUpdateRequest = AdminUpdateRequest(username: string, phone: string, address: string,
                                                   password: string, role: string)

  datatype UpdateRequest = UpdateRequest(username: string, phone: string, address: string, password: string)

  /** The statement that fails, if any. */
  datatype UpdateFault = NoFault | PasswordFails | RoleFails | ProfileFails | ReadFails

  /** The fault strikes a statement the call actually runs. */
  predicate AdminStepFails(req: AdminUpdateRequest, fault: UpdateFault) {
    || (fault.PasswordFails? && req.password != "")
    || (fault.RoleFails? && req.role != "")
    || fault.ProfileFails?
    || fault.ReadFails?
  }

  /** The users table after the admin update's password and role statements, each run only when given. */
  function PasswordAndRole(users: map<int, UserRow>, id: int, req: AdminUpdateRequest, hash: string): map<int, UserRow> {
    var afterPassword := if req.password != "" then SetPassword(users, id, hash) else users;
    if req.role != "" then SetRole(afterPassword, id, req.role) else afterPassword
  }

  /**
   * models.AdminUpdateUserByID: the password only when one is given, the
   * role only when one is given, then username/phone/address always, then
   * the user read back.
   */
  function AdminUpdateUserByID(db: Db, id: int, req: AdminUpdateRequest, hash: string, fault: UpdateFault):
    (r: (Db, Result<PublicUser>))
    ensures r.1.Ok? <==> !AdminStepFails(req, fault) && id in db.users
    ensures r.1.Ok? ==> r.1.value == PublicUser(id, db.users[id].email,
                                                if req.role != "" then req.role else db.users[id].role)
    ensures r.1.Ok? ==>
              && r.0.users == SetRole(SetPassword(db.users, id, if req.password != "" then hash else db.users[id].password),
                                      id, if req.role != "" then req.role else db.users[id].role)
              && r.0.profiles == SetContact(db.profiles, id, req.username, req.phone, req.address)
    ensures fault.PasswordFails? && req.password != "" ==> r.0 == db
    // a failed statement keeps every earlier one
    ensures fault.RoleFails? && req.role != "" ==>
              && r.0.users == (if req.password != "" then SetPassword(db.users, id, hash) else db.users)
              && r.0.profiles == db.profiles
    ensures fault.ProfileFails? ==> r.0.users == PasswordAndRole(db.users, id, req, hash) && r.0.profiles == db.profiles
    ensures !AdminStepFails(req, fault) || fault.ReadFails? ==>
              && r.0.users == PasswordAndRole(db.users, id, req, hash)
              && r.0.profiles == SetContact(db.profiles, id, req.username, req.phone, req.address)
    // no other table is written
    ensures r.0 == db.(users := r.0.users, profiles := r.0.profiles)
  {
    if req.password != "" && fault.PasswordFails? then (db, Err("password update failed"))
    else
      var db1 := if req.password != "" then db.(users := SetPassword(db.users, id, hash)) else db;
      if req.role != "" && fault.RoleFails? then (db1, Err("role update failed"))
      else
        var db2 := if req.role != "" then db1.(users := SetRole(db1.users, id, req.role)) else db1;
        if fault.ProfileFails? then (db2, Err("profile update failed"))
        else
          var db3 := db2.(profiles := SetContact(db2.profiles, id, req.username, req.phone, req.address));
          if fault.ReadFails? then (db3, Err("user read failed"))
          else
            match ReadUser(db3, id)
            case Err(m) => (db3, Err(m))
            case Ok(u) => (db3, Ok(u))
  }

  /**
   * models.UpdateUserByID: the same steps without the role; the users row
   * can only ever change its password.
   */
  function UpdateUserByID(db: Db, id: int, req: UpdateRequest, hash: string, fault: UpdateFault):
    (r: (Db, Result<PublicUser>))
    ensures r.0.users.Keys == db.users.Keys
    ensures forall u | u in db.users :: r.0.users[u].role == db.users[u].role && r.0.users[u].email == db.users[u].email
    ensures forall u | u in db.users && u != id :: r.0.users[u] == db.users[u]
    ensures id in db.users ==>
              r.0.users[id].password == (if req.password != "" && !fault.PasswordFails? then hash else db.users[id].password)
    ensures r.1.Ok? <==>
              id in db.users && !(fault.PasswordFails? && req.password != "") && !fault.ProfileFails? && !fault.ReadFails?
    ensures r.1.Ok? ==> r.0.profiles == SetContact(db.profiles, id, req.username, req.phone, req.address)
    ensures r.1.Ok? ==> r.1.value == PublicUser(id, db.users[id].email, db.users[id].role)
    // the profile statement runs unless the password statement failed before it, and stays when the read fails
    ensures (fault.PasswordFails? && req.password != "") || fault.ProfileFails? ==> r.0.profiles == db.profiles
    ensures !(fault.PasswordFails? && req.password != "") && !fault.ProfileFails? ==>
              r.0.profiles == SetContact(db.profiles, id, req.username, req.phone, req.address)
    // no other table is written
    ensures r.0 == db.(users := r.0.users, profiles := r.0.profiles)
  {
    if req.password != "" && fault.PasswordFails? then (db, Err("password update failed"))
    else
      var db1 := if req.password != "" then db.(users := SetPassword(db.users, id, hash)) else db;
      if fault.ProfileFails? then (db1, Err("profile update failed"))
      else
        var db2 := db1.(profiles := SetContact(db1.profiles, id, req.username, req.phone, req.address));
        if fault.ReadFails? then (db2, Err("user read failed"))
        else (db2, ReadUser(db2, id))
  }

  /**
   * The admin update changes the password iff one was given and the role
   * iff one was given; blank contact fields still overwrite the stored ones.
   */
  lemma AdminUpdateFieldRules(db: Db, id: int, req: AdminUpdateRequest, hash: string)
    requires id in db.users
    ensures var r := AdminUpdateUserByID(db, id, req, hash, UpdateFault.NoFault);
            && r.1.Ok?
            && (r.0.users[id].password == hash || r.0.users[id].password == db.users[id].password)
            && (req.password != "" ==> r.0.users[id].password == hash)
            && (req.password == "" ==> r.0.users[id].password == db.users[id].password)
            && (req.role != "" ==> r.0.users[id].role == req.role)
            && (req.role == "" ==> r.0.users[id].role == db.users[id].role)
            && (forall p | p in db.profiles && db.profiles[p].usersId == id ::
                  && r.0.profiles[p].username == Some(req.username)
                  && r.0.profiles[p].phone == Some(req.phone)
                  && r.0.profiles[p].address == Some(req.address))
  {
  }

  /** A failed role update keeps the password already written: the updates are not atomic. */
  lemma AdminUpdateIsNotAtomic(db: Db, id: int, req: AdminUpdateRequest, hash: string)
    requires id in db.users && req.password != "" && req.role != ""
    ensures var r := AdminUpdateUserByID(db, id, req, hash, RoleFails);
            r.1.Err? && r.0.users[id].password == hash && r.0.users[id].role == db.users[id].role
  {
  }

  // ---------------------------------------------------------------------------
  // AdminUpdateUserProfilePicture

  /** models.AdminUpdateUserProfilePicture: a target id <= 0 is refused before any write. */
  function AdminUpdateUserProfilePicture(db: Db, targetId: int, path: string, updateFails: bool): (r: (Db, Option<string>))
    ensures targetId <= 0 ==> r == (db, Some("invalid target user id"))
    ensures r.1.Some? ==> r.0 == db
    ensures r.1.None? <==> targetId > 0 && !updateFails
    ensures r.1.None? ==> r.0 == db.(profiles := SetPicture(db.profiles, targetId, path))
  {
    if targetId <= 0 then (db, Some("invalid target user id"))
    else if updateFails then (db, Some("profile picture update failed"))
    else (db.(profiles := SetPicture(db.profiles, targetId, path)), None)
  }

  /**
   * Only the pictures of targetId's profile rows change, and only on
   * success; an id with no profile row leaves the database as it was.
   */
  lemma PictureUpdateTouchesOnlyThatProfile(db: Db, targetId: int, path: string, updateFails: bool)
    ensures var r := AdminUpdateUserProfilePicture(db, targetId, path, updateFails);
            && r.0 == db.(profiles := r.0.profiles)
            && r.0.profiles.Keys == db.profiles.Keys
            && (forall p | p in db.profiles ::
                  r.0.profiles[p] == if r.1.None? && db.profiles[p].usersId == targetId
                                     then db.profiles[p].(picture := Some(path)) else db.profiles[p])
            && ((forall p | p in db.profiles :: db.profiles[p].usersId != targetId) ==> r.0 == db)
  {
    var r := AdminUpdateUserProfilePicture(db, targetId, path, updateFails);
    if forall p | p in db.profiles :: db.profiles[p].usersId != targetId {
      assert r.0.profiles == db.profiles;
    }
  }

  // ---------------------------------------------------------------------------
  // ListUser

  /** One row of the admin user list: COALESCE turns a NULL picture into "". */
  datatype ListUserRow = ListUserRow(id: int, email: string, role: string, username: string, phone: string,
                                     address: string, picture: string)

  /** The pair (users row u, profile row p) is part of the join `p.users_id = u.id`. */
  predicate Joined(db: Db, u: int, p: int) {
    u in db.users && p in db.profiles && db.profiles[p].usersId == u
  }

  /** Scanning a NULL username, phone or address into a Go string fails the whole call. */
  predicate ScansCleanly(pr: Profile) {
    pr.username.Some? && pr.phone.Some? && pr.address.Some?
  }

  function JoinRow(db: Db, u: int, p: int): ListUserRow
    requires Joined(db, u, p) && ScansCleanly(db.profiles[p])
  {
    var pr := db.profiles[p];
    ListUserRow(u, db.users[u].email, db.users[u].role, pr.username.value, pr.phone.value, pr.address.value,
                pr.picture.GetOr(""))
  }

  /**
   * models.ListUser: every users row joined with each of its profile rows
   * (a user without a profile is not listed). The rows are a set: the query
   * has no ORDER BY.
   */
  function ListUser(db: Db, queryFails: bool): (r: Result<set<ListUserRow>>)
    ensures r.Ok? <==> !queryFails && forall u, p | Joined(db, u, p) :: ScansCleanly(db.profiles[p])
    ensures r.Ok? ==> forall row ::
              row in r.value <==> exists u, p | Joined(db, u, p) :: row == JoinRow(db, u, p)
    ensures r.Ok? ==> forall row | row in r.value :: row.id in db.users && row.email == db.users[row.id].email
  {
    if queryFails then Err("user query failed")
    else if exists u, p | u in db.users && p in db.profiles && Joined(db, u, p) :: !ScansCleanly(db.profiles[p]) then
      Err("can't scan NULL into string")
    else
      Ok(set u, p | u in db.users && p in db.profiles && Joined(db, u, p) :: JoinRow(db, u, p))
  }

  /** The inner join drops a user with no profile row, whatever else is listed. */
  lemma UserWithoutProfileNotListed(db: Db, u: int)
    requires ListUser(db, false).Ok?
    requires forall p | p in db.profiles :: db.profiles[p].usersId != u
    ensures forall row | row in ListUser(db, false).value :: row.id != u
  {
  }

  /**
   * A profile row of a user that scans cleanly is listed under that user's
   * own id, email and role, with a NULL picture shown as "".
   */
  lemma ProfiledUserListed(db: Db, u: int, p: int)
    requires ListUser(db, false).Ok?
    requires u in db.users && p in db.profiles && db.profiles[p].usersId == u
    ensures var pr := db.profiles[p];
            ListUserRow(u, db.users[u].email, db.users[u].role, pr.username.value, pr.phone.value,
                        pr.address.value, if pr.picture.Some? then pr.picture.value else "")
              in ListUser(db, false).value
  {
    assert Joined(db, u, p);
  }

  /** One joined profile with a NULL contact field fails the listing for every user. */
  lemma NullContactFailsWholeList(db: Db, u: int, p: int)
    requires u in db.users && p in db.profiles && db.profiles[p].usersId == u
    requires db.profiles[p].phone.None?
    ensures ListUser(db, false).Err?
  {
    assert Joined(db, u, p);
  }
}

=== FILE: wrappers.dfy ===
/** Failure-compatible wrappers shared by every module of the model. */
module Wrappers {

  /** A value that may be absent: a SQL NULL, a missing row, a missing key. */
  datatype Option<+T> = None | Some(value: T) {
    function GetOr(default: T): T {
      match this
      case Some(v) => v
      case None => default
    }
  }

  /** The outcome of a store call: a value, or the error text Go would return. */
  datatype Result<+T> = Ok(value: T) | Err(msg: string)
}
